=== FILE: README.md ===
# PPE compliance monitor — a Dafny model

This project models the core of a personal-protective-equipment (PPE) safety dashboard.

The backend is a FastAPI server around a `SafetyMonitor`. For each camera frame the monitor does the following:

- runs an equipment detector and a pose tracker on a fixed frame schedule;
- keeps the equipment detections that clear their per-class confidence thresholds;
- credits each tracked person with the gear whose box overlaps the person and holds one of the relevant body keypoints;
- writes one compliance record per person: `COMPLIANT`, or `VIOLATION` with the missing gear.

The server does the following with those records:

- keeps a live buffer of them and serves them with summary statistics;
- processes uploaded videos frame by frame;
- searches and aggregates the persisted logs.

The web client calls the server through one request helper. When the helper fails, it answers from a table of canned demo data. The model covers that helper and the dashboard, monitor, logs and analytics components that render what it returns.

## How the model is organised

The model is written in pure functions over immutable datatypes. Each module follows one source file.

- `Wrappers`, `Text`, `Json`: option and settled-promise types, string helpers (containment, case, decimal rendering, splitting), and a small JSON value type with JavaScript field lookup and truthiness.
- `SafetyEngine` (`backend/safety_engine.py`): box overlap, class names and thresholds, the detection filter, gear-name normalisation, keypoint association, `compute_compliance`, the monitor settings and `process_frame` with its inference schedule.
- `Backend` (`backend/main.py`): the monitor and settings endpoints, the live log buffer, `/api/stats`, `/analyze_video`, `/api/logs/search` and `/api/analytics/summary`.
- `ApiClient` (`services/api.ts`): the request helper with its offline fallback, the canned data dispatch, `parseInt` of the `limit` parameter, the search query string and the video upload form.
- One module per client component, each covering that component's state and its effect handlers:
  - `MonitoringControls`, `VideoUpload`, `DetectionLogs`, `VideoTrimmer`, `LiveFeed`, `VideoHistory`, `AddCameraModal`, `PpeChecklist`;
  - `LogsFilter`, `LogsTable`;
  - `StatsCards`, `SystemStatus`, `ViolationsTable`, `TrainingMetrics`, `ViolationTypeChart`;
  - `UseApi`.

Some parts of the program are modelled as inputs rather than computed:

- Clocks are an integer `now` in milliseconds.
- Each network call is an outcome passed in as a parameter: a network failure, an HTTP error, or a well-formed or malformed body.
- The detector and tracker outputs for a frame are given.
- Timers are explicit events.

Where the client's declared types and the server's behaviour disagree, the model follows the code. The server writes `"COMPLIANT"` for a person with all required gear. The client's `DetectionLog` type declares `"SAFE" | "VIOLATION"`. `DetectionLogs.BackendStatusVocabulary` shows that every compliant record falls outside the declared union, and that it is styled correctly only because the panel compares with `"VIOLATION"`.

## Model

| member | source | states |
|---|---|---|
| SafetyEngine.OverlapIffCommonInteriorPoint | backend/safety_engine.py:75-80 | two boxes overlap exactly when some point lies strictly inside both |
| SafetyEngine.OverlapSymmetric | backend/safety_engine.py:75-80 | the overlap test does not depend on argument order |
| SafetyEngine.EdgeTouchingDoesNotOverlap | backend/safety_engine.py:75-80 | boxes that only share an edge do not overlap |
| SafetyEngine.ClassName | backend/safety_engine.py:43-49 | class indices 0..4 have their own names and every other index maps to `unknown` |
| SafetyEngine.ClassThresholds | backend/safety_engine.py:35-41 | the per-class thresholds by detector index: Coverall, Face_Shield and Goggles 0.50, Gloves 0.45, Mask 0.30, and the general confidence for any other index |
| SafetyEngine.KeptIffOverThreshold | backend/safety_engine.py:137-145 | a raw detection is kept exactly when its score reaches the threshold of its class index, with the general confidence only for unknown indices |
| SafetyEngine.GeneralConfOnlyGatesUnknown | backend/safety_engine.py:35-41 | changing the general confidence changes the required score only for classes without their own threshold, i.e. `unknown` |
| SafetyEngine.KeptEquipment | backend/safety_engine.py:125-145 | the reference filter: every kept item is the box and class name of a detection that clears its threshold, and no more items than detections |
| SafetyEngine.KeptEquipmentComplete | backend/safety_engine.py:125-145 | the reference filter misses nothing: every detection that clears its threshold has its box and class name among the kept items |
| SafetyEngine.KeptEquipmentAppend | backend/safety_engine.py:125-145 | filtering the concatenation of two detection lists gives the concatenation of their filtered lists, so detector order is preserved |
| SafetyEngine.FilterDetections | backend/safety_engine.py:125-145 | the detection loop stores exactly the reference filter's items, in detector order, and every detection that clears its threshold is among them |
| SafetyEngine.FirstContained | backend/safety_engine.py:182 | the first key contained in the name is returned, and none is returned exactly when no key is contained |
| SafetyEngine.SimpleName | backend/safety_engine.py:182 | the lower-cased class name normalises to one of the five gear names, or to none exactly when it contains none of them |
| SafetyEngine.FirstContainedAt | backend/safety_engine.py:182 | the key at position i is chosen when it is contained and no earlier key is |
| SafetyEngine.ClassNamesNormalise | backend/safety_engine.py:43-49 | each detector class normalises to its own gear name and `unknown` normalises to none |
| SafetyEngine.RelevantKeypoints | backend/safety_engine.py:85-89 | every type that names one of the five gear items has at least one relevant keypoint |
| SafetyEngine.GearKeypoints | backend/safety_engine.py:85-89 | the COCO keypoints checked for mask, goggles, face shield, gloves and coverall |
| SafetyEngine.AnyInside | backend/safety_engine.py:91-95 | true exactly when some listed index names an existing keypoint strictly inside the box |
| SafetyEngine.CheckKeypointAssociation | backend/safety_engine.py:82-96 | gear is associated exactly when one of its relevant keypoints exists and lies strictly inside the gear box |
| SafetyEngine.UnknownTypeNeverAssociated | backend/safety_engine.py:82-96 | a type naming none of the five gear items is never associated with a person |
| SafetyEngine.PersonGear | backend/safety_engine.py:182-187 | a person's gear is exactly the set of gear names some item credits to them (name, box overlap and keypoint), and always a subset of the five |
| SafetyEngine.NumPersons | backend/safety_engine.py:175 | `zip` stops at the shortest of ids, boxes and keypoint lists |
| SafetyEngine.ComputeCompliance | backend/safety_engine.py:165-206 | one record per zipped person, with that person's id, credited gear and the required gear not credited; no pose gives no records |
| SafetyEngine.RecordMeaning | backend/safety_engine.py:191-204 | a record is `VIOLATION` exactly when some required gear is credited by no item, `COMPLIANT` exactly when all of it is, and detected and missing gear are disjoint |
| SafetyEngine.NewMonitor | backend/safety_engine.py:31-60 | a new monitor is paused, has frame count 0, empty caches, all five items required and general confidence 0.63 |
| SafetyEngine.SetActive | backend/safety_engine.py:62-64 | only the active flag changes |
| SafetyEngine.SetConfidence | backend/safety_engine.py:66-68 | only the general confidence changes |
| SafetyEngine.UpdateRequirements | backend/safety_engine.py:70-73 | the required gear becomes exactly the items of the list and nothing else changes |
| SafetyEngine.UpdateRequirementsIgnoresOrderAndDuplicates | backend/safety_engine.py:70-73 | lists with the same items give the same monitor |
| SafetyEngine.InferenceSchedule | backend/safety_engine.py:103-109 | inference runs on frame 1 and on every frame whose count is a multiple of 3 |
| SafetyEngine.NoThreeSkippedInARow | backend/safety_engine.py:103-109 | of any three consecutive frames at least one runs fresh inference |
| SafetyEngine.StorePose | backend/safety_engine.py:148-157 | pose data is stored exactly when both boxes and keypoints are present, with track ids defaulting to 0 |
| SafetyEngine.ProcessFrame | backend/safety_engine.py:98-163 | an idle monitor changes nothing and reports nothing; an active one counts the frame, keeps its settings and judges the cached pose against the required gear |
| SafetyEngine.SkippedFrameReusesCache | backend/safety_engine.py:107-109 | on a skipped frame the cached pose and equipment are reused unchanged |
| SafetyEngine.InferenceFrameRefreshesCache | backend/safety_engine.py:125-157 | on an inference frame the caches become the filtered detections (none without an equipment model) and the stored pose |
| SafetyEngine.NewRulesApplyNextFrame | backend/safety_engine.py:70-73 | after a rule change every record of the next active frame lists as missing exactly the newly required gear it lacks |
| Backend.ToggleMonitor | backend/main.py:87-91 | the toggle echoes the requested flag and sets it only when a monitor exists |
| Backend.MonitorStatus | backend/main.py:93-97 | without a monitor the status is inactive |
| Backend.ToggleThenStatus | backend/main.py:87-97 | the status endpoint reports a toggle back, except without a monitor |
| Backend.SetThreshold | backend/main.py:100-104 | the new confidence is echoed and stored only when a monitor exists |
| Backend.GetThreshold | backend/main.py:106-111 | without a monitor the threshold reads 0.50 |
| Backend.ThresholdRoundTrip | backend/main.py:100-111 | setting then reading the threshold returns the value set |
| Backend.ThresholdWithoutMonitor | backend/main.py:100-111 | without a monitor setting has no effect and reading gives the default |
| Backend.SetGear | backend/main.py:114-118 | the list is echoed as sent and stored as the monitor's requirements |
| Backend.GetGear | backend/main.py:120-125 | without a monitor the requirements are empty |
| Backend.GearRoundTrip | backend/main.py:114-125 | setting then reading gear returns the same items, without duplicates |
| Backend.GetLogs | backend/main.py:199-201 | the live buffer is returned newest first |
| Backend.GetLogsInvolution | backend/main.py:199-201 | reversing twice returns the buffer |
| Backend.UpdateLiveBuffer | backend/main.py:234-236 | the new records are appended and at most one oldest entry is dropped, exactly when the buffer exceeds 50 |
| Backend.LiveBufferBoundedForSingleRecords | backend/main.py:234-236 | with at most one record per frame the buffer stays within 50 entries |
| Backend.LiveBufferCanExceedCap | backend/main.py:234-236 | a frame with two people pushes a full buffer to 51 entries |
| Backend.LiveFrame | backend/main.py:231-236 | without a monitor a frame changes nothing; otherwise the frame is processed and its records buffered |
| Backend.PausedFeedChangesNothing | backend/main.py:231-236 | while monitoring is paused the live feed leaves the server state unchanged |
| Backend.CountViolationsExtremes | backend/main.py:208 | the violation count is zero exactly when no entry is a violation and full exactly when all are |
| Backend.RecentWindow | backend/main.py:207 | the window is the last 50 entries, or all of them when there are fewer |
| Backend.CompliantPercent | backend/main.py:210 | the rate times the total equals 100 times the compliant entries, that is `(total - violations) / total * 100`; it lies in 0..100, is 100 exactly without violations and 0 exactly when all entries are violations |
| Backend.GetStats | backend/main.py:203-211 | an empty buffer gives 0 violations at 100%; the count is the number of violations in the last 50 entries, and the rate times the window size equals 100 times the compliant entries in the window |
| Backend.StatsRateMeaning | backend/main.py:203-211 | the rate is 100 exactly when the window holds no violation, 0 exactly when it holds only violations, and the count is the window's violations |
| Backend.RunFrames | backend/main.py:307-318 | processing a sequence of frames keeps the monitor's flag and settings |
| Backend.AnalyzeVideo | backend/main.py:265-339 | a writer failure or a missing monitor returns an error and changes nothing; otherwise every frame is processed with monitoring on, at most the first 50 records are returned, the flag is restored, and the live buffer is untouched |
| Backend.AnalysisRestoresFlag | backend/main.py:300-332 | after analysis the monitor's flag and settings are as before the upload |
| Backend.AnalysisFramesAreActive | backend/main.py:300-318 | every uploaded frame is processed with monitoring on, and the frame count advances by the number of frames |
| Backend.FilterLogs | backend/main.py:146-157 | the filtered rows are exactly the rows matching person, time range and equipment, taken from the table |
| Backend.InsertDesc | backend/main.py:158 | inserting into a newest-first list keeps it newest first and adds exactly the new row |
| Backend.SortDesc | backend/main.py:158 | ordering by timestamp descending gives a newest-first permutation |
| Backend.SearchLogs | backend/main.py:138-173 | the search returns matching rows from the table, newest first: all of them when at most 200 match, otherwise exactly 200 |
| Backend.SearchComplete | backend/main.py:158 | when at most 200 rows match, the search returns all of them |
| Backend.SearchKeepsNewest | backend/main.py:158 | a row cut off by the limit is never newer than a row kept |
| Backend.AddItems | backend/main.py:181-192 | counting a list adds its occurrences of each item to the running counts |
| Backend.Tally | backend/main.py:181-192 | the grouped count maps exactly the occurring items to their number of occurrences across all lists |
| Backend.AnalyticsSummary | backend/main.py:176-196 | the detected and missing dictionaries map each item to how often it occurs in the logs' detected and missing lists |
| Backend.SummaryOfAppendedLog | backend/main.py:176-196 | adding a log adds its items to the counts and leaves other counts unchanged |
| ApiClient.ApiBaseUrl | services/api.ts:1 | the configured URL when it is non-empty, otherwise `http://localhost:8001` |
| ApiClient.VideoFeedUrl | services/api.ts:318 | the feed URL is the base followed by `/video_feed/` and the camera id, `undefined` when absent |
| ApiClient.StaticVideoUrl | services/api.ts:360 | the static URL is the base followed by the relative path |
| ApiClient.ApiRequest | services/api.ts:6-27 | a failed request or non-OK status resolves to the canned data for the endpoint; an OK well-formed body resolves to itself; only a malformed OK body rejects |
| ApiClient.MockData | services/api.ts:32-237 | every canned payload is an array or an object, never `null` or a scalar; the payload of each path is stated by the `…PathMock` lemmas |
| ApiClient.ApiRequestMasksBackendFailures | services/api.ts:17-26 | a failing backend is indistinguishable from one answering with the canned data |
| ApiClient.RequestHeaders | services/api.ts:11-14 | the caller's headers are kept and `Content-Type: application/json` is added unless the caller set it |
| ApiClient.ParamLookup | services/api.ts:47-48 | `searchParams.get(key)`: absent exactly when no pair is named `key`, and otherwise the value of the first pair named `key` |
| ApiClient.DigitRun | services/api.ts:48 | the digit run is the longest prefix of valid digits |
| ApiClient.ParseIntOfNatToString | services/api.ts:48 | `parseInt` reads back every decimal rendering of a natural number |
| ApiClient.ParseIntOfDecimal | services/api.ts:48 | `parseInt` of a canonical decimal string is its value |
| ApiClient.SliceEnd | services/api.ts:93 | `slice(0, end)` clamps a non-negative end to the length, counts a negative end from the back, and treats NaN as 0 |
| ApiClient.ViolationsPathLimit | services/api.ts:385 | the limit in the violations path reads back as the requested limit |
| ApiClient.OfflineViolationsHonourLimit | services/api.ts:46-93 | offline, a violations request for n rows gets the first min(n, 4) canned violations |
| ApiClient.OfflineDefaultViolations | services/api.ts:46-93 | offline, the default request for five rows gets all four canned violations |
| ApiClient.SearchPathsGetLogsMock | services/api.ts:180-182 | a search path that matches no earlier case gets the canned `/api/logs` payload |
| ApiClient.ThresholdPathMock | services/api.ts:161-163 | the canned threshold is `{conf: 0.50}` |
| ApiClient.GearPathMock | services/api.ts:165-167 | the canned gear settings list all five items |
| ApiClient.StatusPathMock | services/api.ts:157-159 | the canned monitor status is inactive |
| ApiClient.HistoryPathMock | services/api.ts:227-229 | the canned video history is empty |
| ApiClient.CamerasPathMock | services/api.ts:96-102 | `/api/cameras` gets the three canned cameras |
| ApiClient.SummaryPathMock | services/api.ts:169-178 | the analytics summary gets the canned detected and missing counts |
| ApiClient.LogsPathMock | services/api.ts:112-155 | `/api/logs` gets the three canned log entries |
| ApiClient.FallbackMocks | services/api.ts:231-236 | any other path gets `{logs: [], history: []}` when it mentions history or logs, `[]` when it mentions activity, trend or cameras, and `{}` otherwise |
| ApiClient.OfflineViolationsTrendIsEmpty | services/api.ts:185-195 | the ranged trend path the chart requests misses the exact trend case and gets `[]` |
| ApiClient.OfflineComplianceScoreIsEmptyObject | services/api.ts:197-207 | the ranged compliance path misses the exact case and gets `{}` |
| ApiClient.BackendParamName | services/api.ts:422-424 | `startDate` is sent as `start`, `endDate` as `end`, any other key under its own name |
| ApiClient.SearchParams | services/api.ts:417-427 | every emitted parameter comes from a truthy filter entry under its backend name; no more parameters than entries |
| ApiClient.SearchParamsAppend | services/api.ts:419-426 | the parameters of concatenated filters are the concatenated parameters, so entry order is kept |
| ApiClient.SkippedEntryInvisible | services/api.ts:420 | a falsy filter value leaves no trace in the query |
| ApiClient.AllSentAllEmitted | services/api.ts:419-426 | when every value is truthy each entry emits exactly one parameter, in order |
| ApiClient.LogsSearchPath | services/api.ts:428 | the search path always starts with `/api/logs/search?` and is bare without filters |
| ApiClient.OfflineSearchIgnoresFilters | services/api.ts:180-182 | offline, every search whose serialised path does not contain `/api/dashboard/violations` or `/api/monitor/stream` gets the same canned logs, whatever the filters |
| ApiClient.AnalyzeVideoForm | services/api.ts:328-337 | the form holds the file and start time, the end time exactly when given, and the gear list exactly when non-empty |
| ApiClient.AnalyzeVideo | services/api.ts:339-353 | the upload resolves only with an OK well-formed body and otherwise rejects, with no canned fallback |
| ApiClient.UploadFailureIsNotMasked | services/api.ts:339-353 | a network failure rejects the upload while the same failure on a plain request resolves |
| MonitoringControls.Without | components/monitor/monitoring-controls.tsx:85 | removing an item keeps exactly the other items with their multiplicities, and no occurrence of the item |
| MonitoringControls.WithoutKeepsNoDuplicates | components/monitor/monitoring-controls.tsx:85 | removing an item from a duplicate-free list keeps it duplicate-free |
| MonitoringControls.ToggleGear | components/monitor/monitoring-controls.tsx:84-86 | toggling flips the item's membership: it appends the item when absent and removes every occurrence of it when present; other items' membership is unchanged |
| MonitoringControls.ToggleKeepsNoDuplicates | components/monitor/monitoring-controls.tsx:84-86 | toggling keeps a duplicate-free gear list duplicate-free |
| MonitoringControls.ToggleTwiceRestoresMembership | components/monitor/monitoring-controls.tsx:84-86 | toggling the same item twice restores membership |
| MonitoringControls.ToggleOnOffIsIdentity | components/monitor/monitoring-controls.tsx:84-86 | adding then removing an absent item restores the exact list |
| MonitoringControls.BadgeIsTransient | components/monitor/monitoring-controls.tsx:121-124 | after the 2-second reset the save badge is idle and nothing else changed |
| MonitoringControls.AsStringsOfJStrs | components/monitor/monitoring-controls.tsx:52-53 | a list of strings decodes back to itself |
| MonitoringControls.DecodeSettings | components/monitor/monitoring-controls.tsx:45-61 | a rejected fetch reports failure; decoded settings are exactly the threshold's `conf` and the gear list's strings |
| MonitoringControls.LoadSettings | components/monitor/monitoring-controls.tsx:45-61 | loading ends; fetched settings replace sensitivity and gear, and a failure keeps the defaults |
| MonitoringControls.OfflineLoadKeepsDefaults | components/monitor/monitoring-controls.tsx:38-61 | offline, the canned settings equal the defaults, so loading only clears the spinner |
| MonitoringControls.HandleGearToggle | components/monitor/monitoring-controls.tsx:83-102 | a saved toggle applies the toggled list and shows success; a failed save reverts the list and shows an error |
| MonitoringControls.OfflineGearToggleSucceeds | components/monitor/monitoring-controls.tsx:83-102 | offline, a gear toggle reports success and keeps the toggled list |
| MonitoringControls.HandleMonitorToggle | components/monitor/monitoring-controls.tsx:105-119 | a resolved toggle reports the flipped flag and success; a rejection reports an error and no new flag |
| MonitoringControls.HandleSensitivityChange | components/monitor/monitoring-controls.tsx:64-80 | the slider value is shown at once and the save is scheduled after the debounce with that value |
| MonitoringControls.OfflineSensitivitySaveSucceeds | components/monitor/monitoring-controls.tsx:64-80 | offline, a threshold save reports success |
| VideoUpload.SelectFile | components/monitor/video-upload.tsx:26-37 | no file changes nothing; a non-video sets the error only; a video is selected and clears error and result |
| VideoUpload.ProgressTick | components/monitor/video-upload.tsx:57-80 | below 80 a tick adds exactly 10; from 80 on it lands on 90 and stays there; progress never passes 90 |
| VideoUpload.TicksFromZero | components/monitor/video-upload.tsx:57-80 | after k ticks from zero progress is min(10k, 90) |
| VideoUpload.HandleUpload | components/monitor/video-upload.tsx:57-80 | without a file nothing happens; a success shows 100% and the result; a failure shows the error and keeps the old result |
| VideoUpload.OfflineUploadFails | components/monitor/video-upload.tsx:57-80 | offline an upload of a video shows the failure message and no result |
| VideoUpload.CountViolationLogs | components/monitor/video-upload.tsx:226 | the filtered list is never longer than the logs |
| VideoUpload.CountViolationLogsExtremes | components/monitor/video-upload.tsx:226 | the count is 0 exactly when no log has status VIOLATION, and the full length exactly when all do |
| VideoUpload.CountViolationLogsAppend | components/monitor/video-upload.tsx:226 | counting distributes over concatenation |
| VideoUpload.ViolationCountShown | components/monitor/video-upload.tsx:226 | a missing or null `logs` shows 0; a positive count needs an array with a VIOLATION log; the expression throws only for a non-array `logs` or a null element |
| VideoUpload.ViolationCountOfLogs | components/monitor/video-upload.tsx:226 | a result whose `logs` is an array without nulls shows the number of VIOLATION logs |
| VideoUpload.ClearRestoresInitial | components/monitor/video-upload.tsx:82-90 | clearing while idle restores the initial state |
| VideoUpload.FormatFileSize | components/monitor/video-upload.tsx:92-96 | the unit is B, KB or MB by size, and amount times unit size is the byte count |
| DetectionLogs.DiffSeconds | components/monitor/detection-logs.tsx:58-72 | the difference is the floor of elapsed milliseconds over 1000 |
| DetectionLogs.FormatTimestamp | components/monitor/detection-logs.tsx:58-72 | under a minute gives seconds, under an hour whole minutes, under a day whole hours, and older gives the date |
| DetectionLogs.FormatTimestampMonotone | components/monitor/detection-logs.tsx:58-72 | a later clock never shows a shorter elapsed time |
| DetectionLogs.MissingGearLineMeaning | components/monitor/detection-logs.tsx:74-77 | the all-present text appears exactly when nothing is missing; otherwise every missing item is named |
| DetectionLogs.FetchLogs | components/monitor/detection-logs.tsx:28-41 | loading ends; a rejection, or a logs body of `null` (whose `.logs` read throws), keeps the panel; otherwise stats are replaced and logs become `data.logs` or `[]` |
| DetectionLogs.OfflinePanel | components/monitor/detection-logs.tsx:28-41 | offline the panel shows the canned logs and stats |
| DetectionLogs.PollingNeverLeaks | components/monitor/detection-logs.tsx:43-56 | an effect run starts one interval only when monitoring is on, and its cleanup stops it |
| DetectionLogs.BackendStatusVocabulary | components/monitor/detection-logs.tsx:143-170 | engine records are `VIOLATION` or `COMPLIANT`, a row is styled as a violation exactly when gear is missing, and `COMPLIANT` is outside the client's declared status type |
| VideoTrimmer.LoadedMetadata | components/monitor/video-trimmer.tsx:36-42 | the selection starts at 0 and ends at the duration or 30 seconds, whichever is smaller |
| VideoTrimmer.ShortVideoSelectedWhole | components/monitor/video-trimmer.tsx:36-42 | a video of at most 30 seconds is selected whole |
| VideoTrimmer.TimeUpdate | components/monitor/video-trimmer.tsx:44-52 | playing past the end jumps back to the start; otherwise the playhead follows the video |
| VideoTrimmer.PlaybackStaysInRange | components/monitor/video-trimmer.tsx:44-52 | while playing a proper range the playhead stays before the end |
| VideoTrimmer.TogglePlay | components/monitor/video-trimmer.tsx:54-66 | play flips; starting from at or past the end rewinds to the start |
| VideoTrimmer.TogglePlayTwice | components/monitor/video-trimmer.tsx:54-66 | play then pause restores the flag, with the playhead rewound only if it was past the end |
| VideoTrimmer.RangeChange | components/monitor/video-trimmer.tsx:68-79 | the range is stored and the playhead seeks to whichever end moved |
| VideoTrimmer.RangeChangeIdempotent | components/monitor/video-trimmer.tsx:68-79 | applying the same range twice is applying it once |
| VideoTrimmer.ApplySendsChosenRange | components/monitor/video-trimmer.tsx:171 | the apply button sends the range last chosen |
| VideoTrimmer.SkipBack | components/monitor/video-trimmer.tsx:101 | the skip-back button moves only the playhead, to the start of the range |
| VideoTrimmer.SkipForward | components/monitor/video-trimmer.tsx:112 | the skip-forward button moves only the playhead, to the end of the range |
| VideoTrimmer.SkipForwardLoopsBack | components/monitor/video-trimmer.tsx:44-66 | after skipping forward, play from a pause starts at the start of the range and a time update while playing loops back to it; after skipping back, play starts at the start |
| VideoTrimmer.TimePartsReadBack | components/monitor/video-trimmer.tsx:81-85 | minutes and seconds are in range and recombine to the whole seconds |
| VideoTrimmer.PadTwo | components/monitor/video-trimmer.tsx:81-85 | a string is left-padded with zeros to length two |
| VideoTrimmer.FormatTimeShape | components/monitor/video-trimmer.tsx:81-85 | a time under ten minutes renders as `m:ss` |
| LiveFeed.Refresh | components/monitor/live-feed.tsx:21-25 | a refresh restarts loading, clears the error and takes a new key |
| LiveFeed.ImageLoaded | components/monitor/live-feed.tsx:27-30 | a load ends loading with no error |
| LiveFeed.ImageFailed | components/monitor/live-feed.tsx:32-35 | an error ends loading and sets the error |
| LiveFeed.NeverLoadingAndFailed | components/monitor/live-feed.tsx:14-35 | no sequence of events leaves the card both loading and failed |
| LiveFeed.ImageSrc | components/monitor/live-feed.tsx:19-122 | while monitoring the image source is the feed URL with the refresh key; paused it is empty |
| LiveFeed.OneLayerShows | components/monitor/live-feed.tsx:122-130 | exactly one of image, error and paused overlay is shown, and a shown image has a source |
| LiveFeed.RefreshChangesSource | components/monitor/live-feed.tsx:19-25 | a refresh at a new time changes the image source |
| VideoHistory.FetchSettled | components/monitor/video-history.tsx:23-33 | loading ends; a success replaces the history and a failure keeps it |
| VideoHistory.FetchOnlyWhenOpening | components/monitor/video-history.tsx:35-39 | history is fetched exactly when the panel opens from closed |
| VideoHistory.OfflineHistoryIsEmpty | components/monitor/video-history.tsx:107-111 | offline the history is empty and the placeholder shows |
| VideoHistory.FormatBadgeMeaning | components/monitor/video-history.tsx:130 | the badge is the upper-cased text after the last dot, or the whole name without a dot |
| VideoHistory.ItemCard | components/monitor/video-history.tsx:118-169 | the violation badge shows exactly for a positive count, the thumbnail exactly for a non-empty URL, and play uses the static URL |
| AddCameraModal.Submit | components/monitor/add-camera-modal.tsx:33-40 | the submitted camera keeps the form's name, source and type, defaults an empty zone to General, and the form resets |
| AddCameraModal.SubmitResetsForm | components/monitor/add-camera-modal.tsx:33-40 | after submission the form is the initial one except for the camera type |
| AddCameraModal.IpRoundTripResetsSource | components/monitor/add-camera-modal.tsx:57-72 | switching to IP and back to webcam resets only the source |
| PpeChecklist.Completed | components/monitor/ppe-checklist.tsx:27-28 | the completed count is full exactly when every item is present and zero exactly when none is |
| PpeChecklist.SummaryMeaning | components/monitor/ppe-checklist.tsx:66-68 | all-met text appears exactly when every flag is set; otherwise it names the missing count with a plural unless one |
| PpeChecklist.Lookup | components/monitor/ppe-checklist.tsx:46-57 | a key is found exactly when the status has an entry for it |
| PpeChecklist.RowChecks | components/monitor/ppe-checklist.tsx:46-57 | each row is checked exactly when its item's flag is true |
| LogsFilter.UpdateFilter | components/logs/logs-filter.tsx:19-24 | the chosen filter takes the value and the others keep theirs |
| LogsFilter.UpdateFilterLaws | components/logs/logs-filter.tsx:19-24 | rewriting a value is a no-op, the last write wins, and writes to different filters commute |
| LogsFilter.ResetRestoresInitial | components/logs/logs-filter.tsx:95-101 | reset gives the page's initial filters whatever was changed before |
| LogsFilter.SelectionsStayInOptions | components/logs/logs-filter.tsx:37-86 | choosing offered options keeps every filter among its offered options |
| LogsTable.FilterArg | components/logs/logs-table.tsx:58-60 | a filter is sent exactly when it is not `all` |
| LogsTable.QueryParameters | components/logs/logs-table.tsx:58-60 | a select yields a query parameter exactly when it is neither `all` nor empty, under its own name |
| LogsTable.DateRangeNotSent | components/logs/logs-table.tsx:58-60 | the date range never changes the request |
| LogsTable.UnfilteredQueryIsBare | components/logs/logs-table.tsx:55-60 | with every select on `all` the query string is empty |
| LogsTable.OfflineInitialRequest | components/logs/logs-table.tsx:55-66 | offline, the first request gets the canned logs |
| LogsTable.Loaded | components/logs/logs-table.tsx:62-65 | a response replaces the rows (with `[]` for none) and ends loading; a rejection leaves the table |
| LogsTable.RejectedFirstLoadSpins | components/logs/logs-table.tsx:62-65 | a rejected first load keeps the spinner |
| LogsTable.Visible | components/logs/logs-table.tsx:68-73 | the shown rows are exactly the rows that pass the severity, type and camera tests |
| LogsTable.VisibleAppend | components/logs/logs-table.tsx:68-73 | filtering keeps the rows' relative order |
| LogsTable.UnfilteredShowsAll | components/logs/logs-table.tsx:68-73 | with every select on `all` every row is shown |
| LogsTable.VisibleIdempotent | components/logs/logs-table.tsx:68-73 | filtering the shown rows again changes nothing |
| LogsTable.TypeTestIgnoresCase | components/logs/logs-table.tsx:70 | the type test ignores the case of the row type and the filter text |
| LogsTable.ShownCount | components/logs/logs-table.tsx:127 | the footer counts the shown rows |
| LogsTable.StyleOf | components/logs/logs-table.tsx:20-40 | critical and warning have their own style and everything else is drawn as info |
| LogsTable.BackendRowsLackTableFields | backend/main.py:160-173 | the rows the search endpoint serialises have no `type`, `severity`, `camera` or `description` field |
| LogsTable.SeverityLabel | components/logs/logs-table.tsx:108 | the label upper-cases the first letter and keeps the rest |
| StatsCards.JsLength | components/dashboard/stats-cards.tsx:61 | `length` is defined for arrays and strings and is the item count of an array |
| StatsCards.CamerasOnlineReadsBack | components/dashboard/stats-cards.tsx:61-67 | the camera card shows the array's length on both sides of the slash |
| StatsCards.OrElse | components/dashboard/stats-cards.tsx:62-67 | a truthy value is kept and anything else gives the fallback |
| StatsCards.ProcessedCount | components/dashboard/stats-cards.tsx:62-67 | the processed count is the length of `logs`, or 0 without it |
| StatsCards.Derive | components/dashboard/stats-cards.tsx:54-67 | a null payload stops the update; otherwise violations, compliance, cameras and processed come from the payloads with their fallbacks |
| StatsCards.All3 | components/dashboard/stats-cards.tsx:54-60 | the joined request resolves exactly when all three do |
| StatsCards.Settle | components/dashboard/stats-cards.tsx:54-73 | loading ends; a rejection keeps the cards, and success shows the derived figures |
| StatsCards.ZeroComplianceShowsFull | components/dashboard/stats-cards.tsx:62-67 | a reported compliance of 0 is shown as 100, as if missing |
| StatsCards.OfflineCards | components/dashboard/stats-cards.tsx:54-73 | offline the cards show 4 violations, 3/3 cameras, 87.5% and 3 processed |
| SystemStatus.Round | components/dashboard/system-status.tsx:62 | rounding returns the nearest integer, halves up |
| SystemStatus.ConfidenceText | components/dashboard/system-status.tsx:62 | the confidence line is the rounded percentage, or NaN% without a number |
| SystemStatus.OnlineItems | components/dashboard/system-status.tsx:50-74 | server, model and camera lines are operational and the monitoring line is operational exactly when active |
| SystemStatus.Check | components/dashboard/system-status.tsx:50-99 | a rejection or null payload gives the offline lines and otherwise the online lines |
| SystemStatus.OfflineOnlyOnFailure | components/dashboard/system-status.tsx:50-99 | the offline lines appear exactly on a rejection or a null payload |
| SystemStatus.UnreachableBackendLooksOnline | components/dashboard/system-status.tsx:50-99 | with the backend unreachable the card claims an operational server at 50% confidence, paused |
| SystemStatus.StatusColor | components/dashboard/system-status.tsx:27-36 | operational is green, error red, warning and loading amber |
| SystemStatus.IconsDistinguishColoursDoNot | components/dashboard/system-status.tsx:14-36 | icons distinguish every status while loading and warning share a colour |
| SystemStatus.NoChecksAfterUnmount | components/dashboard/system-status.tsx:102-106 | after unmount no firing runs another check |
| SystemStatus.ChecksWithin | components/dashboard/system-status.tsx:102-106 | one check on mount plus one per full 30 seconds |
| SystemStatus.FiringsWhileRunning | components/dashboard/system-status.tsx:102-106 | while the interval runs, every firing starts exactly one check |
| SystemStatus.MountedChecks | components/dashboard/system-status.tsx:102-106 | mounting and then one firing per full 30 seconds starts exactly `ChecksWithin` checks |
| ViolationsTable.Normalise | components/dashboard/violations-table.tsx:47-58 | an array is used as is, else a truthy `violations` field, else `[]` |
| ViolationsTable.NormaliseShapes | components/dashboard/violations-table.tsx:47-58 | the bare and wrapped lists give the same rows and non-objects give none |
| ViolationsTable.Loaded | components/dashboard/violations-table.tsx:45-61 | a response replaces the rows and ends loading; a rejection keeps the table |
| ViolationsTable.OfflineShowsFourViolations | components/dashboard/violations-table.tsx:45-61 | offline the request for five rows shows the four canned violations |
| ViolationsTable.Marker | components/dashboard/violations-table.tsx:19-80 | the marker style follows the severity and the label capitalises it |
| TrainingMetrics.LowestLoss | components/dashboard/training-metrics.tsx:115-117 | the chosen epoch has the least box loss, the earliest on ties |
| TrainingMetrics.PeakRecall | components/dashboard/training-metrics.tsx:120-122 | the chosen epoch has the greatest recall, the earliest on ties |
| TrainingMetrics.Summarise | components/dashboard/training-metrics.tsx:137-231 | the figures are the best epoch's box and class loss and number, and the peak recall |
| TrainingMetrics.ShownClsLossNotMinimal | components/dashboard/training-metrics.tsx:224-225 | the class loss shown need not be the least class loss |
| TrainingMetrics.TiesKeepEarliest | components/dashboard/training-metrics.tsx:115-122 | on ties the first epoch is kept |
| TrainingMetrics.RecordedRun | components/dashboard/training-metrics.tsx:7-122 | for the recorded run the lowest loss is at epoch 350 and the peak recall at epoch 180, so the hard-coded label "Train Cls Loss @ E350" names the epoch whose class loss is shown |
| ViolationTypeChart.Entries | components/analytics/violation-type-chart.tsx:18-21 | `Object.entries` yields an object's fields in order and an array's items keyed by index |
| ViolationTypeChart.Settle | components/analytics/violation-type-chart.tsx:15-25 | a rejection or missing `missing` keeps the rows; an empty dictionary shows the defaults; otherwise one row per entry |
| ViolationTypeChart.RowsAreTheDictionary | components/analytics/violation-type-chart.tsx:18-21 | the bars read back as the dictionary's keys and values, in order |
| ViolationTypeChart.EmptyDictionaryShowsDefaults | components/analytics/violation-type-chart.tsx:22 | an empty dictionary shows the three default bars |
| ViolationTypeChart.OfflineChart | components/analytics/violation-type-chart.tsx:15-25 | offline the chart shows the five canned missing-gear counts |
| UseApi.SettledState | hooks/use-api.ts:25-31 | a success sets data without error, a failure sets the error without data, and loading ends |
| UseApi.Step | hooks/use-api.ts:18-50 | an effect run resets the state, its result lands only while it is mounted, and refetch writes unconditionally |
| UseApi.AlwaysCoherent | hooks/use-api.ts:12-50 | data and error are never both set and a loading state has neither, after any events |
| UseApi.CleanedUpRunIsIgnored | hooks/use-api.ts:37-39 | once a run is cleaned up its result changes nothing |
| UseApi.RefetchAlwaysLands | hooks/use-api.ts:42-50 | refetch resets to loading and always lands its result |

## Left out

- Input and output are not modelled: the camera, the database, file uploads, temporary files and the video codec. An exception while building the video writer is the parameter `writerRaises`; the fallback to the mp4v codec when the writer does not open is not a failure and needs no parameter.
- The YOLO detector and pose tracker are not modelled. Their per-frame outputs are inputs.
- `draw_visuals`, the MJPEG streaming generator and the WebSocket helpers are left out because they are presentation and transport.
- `backend/database.py`, `backend/models.py` and `backend/log_service.py` are left out. Persistence is modelled as a sequence of rows.
- Concurrency between the live feed and video analysis is not modelled. Each operation is atomic.
- Timers, intervals and debounces are explicit events with their delay constants.
- Floating point is modelled as exact reals. `round`, `toFixed`, `toLocale*` formatting and the float product `conf * 100` are not bit-exact.
- Backend.GetStats: the rate is stated as the exact quotient before `round(..., 1)`; the one-decimal rounding is not modelled.
- Case mapping is ASCII-only: `toUpperCase`, `toLowerCase` and `.upper()` are modelled on ASCII letters, and Unicode case mapping (length-changing upper-casing, non-ASCII folding) is not modelled.
- LogsTable.SeverityLabel: the length is preserved only under ASCII case mapping. The label is stated for rows of the client type; the search endpoint's rows have no `severity` (LogsTable.BackendRowsLackTableFields), and on such a row the source's `log.severity.charAt(0)` throws while rendering.
- LogsTable.Visible: stated for rows of the client type `Log`. On the search endpoint's rows, which lack `type`, `severity` and `camera`, the source hides every row once a severity filter is set and throws at `log.type.toLowerCase()` once a type filter is set; neither is modelled.
- LogsTable.TypeTestIgnoresCase: the case-insensitive type test folds ASCII letters only.
- VideoHistory.FormatBadgeMeaning: the extension is upper-cased in ASCII only.
- ViolationsTable.Marker: the status is upper-cased in ASCII only.
- The polling period of the detection logs (`refreshInterval`, 2000 ms by default) is not modelled; the model says which intervals run, not when they fire.
- Timestamps are integers. ISO parsing and rendering and `datetime.fromisoformat` are not modelled.
- Backend.FilterLogs: the JSON `contains` test is list membership, and `json_each` grouping is occurrence counting.
- URL percent-encoding of query values is not modelled.
- ApiClient.OfflineSearchIgnoresFilters: requires that the serialised search path not contain `/api/dashboard/violations` or `/api/monitor/stream`. In the source, percent-encoding turns every `/` in a filter value into `%2F`, so the claim holds for all filters; without percent-encoding the model needs the condition.
- Payloads missing expected fields are modelled only in the components that test for them (detection logs, stats cards, violations table, monitoring controls, the upload panel's violation count); the logs table assumes rows of its client type, see the two lines below.
- VideoTrimmer.LoadedMetadata: a NaN duration is not modelled.
- The upload result panel's other figure, `total_frames`, is shown as received and is not modelled.
- SystemStatus.ConfPercent: strings, arrays and objects coerced by `* 100` are treated as NaN.
- StatsCards.JsLength: an object's own `length` field is ignored.
- ViolationTypeChart.Entries: `Object.entries` reordering of integer-like keys and duplicate keys are not modelled.
- StatsCards.Derive: the number-to-text conversion of `complianceRate` is not modelled. The value is kept as received.
- LogsTable.Loaded: decoding `data.logs` into rows is an input, an `Option` of rows.
- Backend.GetGear: Python set iteration order is lost. Required gear is a set.
- SafetyEngine.ComputeCompliance: a record's `detected` and `missing` lists are `list(...)` of Python sets, whose iteration order is unspecified; the model keeps them as sets.
- The other analytics charts are left out: trend, compliance score and camera comparison.
- Also left out: recent activity, the camera grid and controls, the violation panel, navigation, and the page layouts. These are presentation only.

=== FILE: add_camera_modal.dfy ===
/** The "Add New Camera" dialog: its form fields, the camera-type switch and what
    a submit passes on and resets. */
module AddCameraModal {

  datatype CameraType = Webcam | Ip

  datatype Form = Form(name: string, source: string, cameraType: CameraType, zone: string)

  /** The configuration handed to `onAdd`. */
  datatype CameraConfig = CameraConfig(name: string, source: string, cameraType: CameraType, zone: string)

  const DefaultSource: string := "0"
  const DefaultZone: string := "General"

  const InitialForm: Form := Form("", DefaultSource, Webcam, "")

  /** `handleSubmit`: the fields are passed on, an empty zone as "General"; then name
      and zone are emptied and the source goes back to "0". The type is kept. */
  function Submit(f: Form): (r: (CameraConfig, Form))
    ensures r.0.name == f.name && r.0.source == f.source && r.0.cameraType == f.cameraType
    ensures r.0.zone == (if f.zone == "" then DefaultZone else f.zone)
    ensures r.0.zone != ""
    ensures r.1 == Form("", DefaultSource, f.cameraType, "")
  {
    (CameraConfig(f.name, f.source, f.cameraType, if f.zone == "" then DefaultZone else f.zone),
     f.(name := "", source := DefaultSource, zone := ""))
  }

  /** After a submit the dialog is back to its initial fields, except that an IP type
      stays selected. */
  lemma SubmitResetsForm(f: Form)
    ensures Submit(f).1 == InitialForm.(cameraType := f.cameraType)
    ensures f.cameraType == Webcam ==> Submit(f).1 == InitialForm
  {
  }

  /** The "Local Webcam" button: webcam type and the source reset to "0". */
  function ChooseWebcam(f: Form): (r: Form)
    ensures r.cameraType == Webcam && r.source == DefaultSource
    ensures r.name == f.name && r.zone == f.zone
  {
    f.(cameraType := Webcam, source := DefaultSource)
  }

  /** The "IP Camera / URL" button: only the type changes. */
  function ChooseIp(f: Form): (r: Form)
    ensures r.cameraType == Ip && r.(cameraType := f.cameraType) == f
  {
    f.(cameraType := Ip)
  }

  /** Going to IP and back to webcam loses whatever source was typed. */
  lemma IpRoundTripResetsSource(f: Form)
    ensures ChooseWebcam(ChooseIp(f)) == f.(cameraType := Webcam, source := DefaultSource)
    ensures ChooseIp(ChooseWebcam(f)).source == DefaultSource
  {
  }
}

=== FILE: api_client.dfy ===
/** The client's request layer (services/api.ts): the `apiRequest` failure policy,
    the offline mock payloads selected by `getMockData`, the query string of
    `logsAPI.getLogs`, the multipart fields of `analyzeVideo` and the URL builders. */
module ApiClient {

  import opened Wrappers
  import opened Text
  import opened Json

  // ---------------------------------------------------------------------------
  // Base URL and URL builders
  // ---------------------------------------------------------------------------

  const DefaultApiBaseUrl: string := "http://localhost:8001"

  /** `process.env.NEXT_PUBLIC_API_URL || "http://localhost:8001"`: an empty
      variable counts as unset. */
  function ApiBaseUrl(env: Option<string>): (r: string)
    ensures |r| > 0
    ensures env.Some? && env.value != "" ==> r == env.value
    ensures !(env.Some? && env.value != "") ==> r == DefaultApiBaseUrl
  {
    if env.Some? && env.value != "" then env.value else DefaultApiBaseUrl
  }

  /** `getVideoFeedUrl(camId)`; a missing argument is interpolated as "undefined". */
  function VideoFeedUrl(base: string, camId: Option<string>): (r: string)
    ensures StartsWith(r, base + "/video_feed/")
    ensures camId.None? ==> r == base + "/video_feed/undefined"
  {
    base + "/video_feed/" + camId.GetOr("undefined")
  }

  /** `getStaticVideoUrl(relativePath)`. */
  function StaticVideoUrl(base: string, relativePath: string): (r: string)
    ensures StartsWith(r, base) && r[|base|..] == relativePath
  {
    base + relativePath
  }

  // ---------------------------------------------------------------------------
  // Request outcomes and the failure policy of apiRequest
  // ---------------------------------------------------------------------------

  /** What `response.json()` does with the body: parse it, or fail. */
  datatype Body = WellFormed(value: Json) | Malformed

  /** What `fetch` did: throw (network failure), or answer with a status. */
  datatype FetchOutcome =
    | NetworkFailure
    | HttpResponse(ok: bool, status: int, body: Body)

  /** How the promise returned to the caller settles. */
  datatype Settled<T> = Resolved(value: T) | Rejected

  /** The outcome that reaches the caller of `apiRequest(endpoint)`.
      A thrown fetch and a non-2xx status are caught and replaced by the mock
      payload for the endpoint. On a 2xx status the `response.json()` promise is
      returned without `await`, so a body that fails to parse rejects after the
      `try` block has been left: that rejection is not caught. */
  function ApiRequest(endpoint: string, now: int, outcome: FetchOutcome): (r: Settled<Json>)
    ensures r.Rejected? <==> outcome.HttpResponse? && outcome.ok && outcome.body.Malformed?
    ensures (outcome.NetworkFailure? || !outcome.ok) ==> r == Resolved(MockData(endpoint, now))
    ensures outcome.HttpResponse? && outcome.ok && outcome.body.WellFormed? ==> r == Resolved(outcome.body.value)
  {
    match outcome
    case NetworkFailure => Resolved(MockData(endpoint, now))
    case HttpResponse(ok, _, body) =>
      if !ok then Resolved(MockData(endpoint, now))
      else match body
        case WellFormed(v) => Resolved(v)
        case Malformed => Rejected
  }

  /** The request never rejects unless the backend answered 2xx with an unparsable
      body: an unreachable or failing backend is indistinguishable from one that
      returned the mock payload. */
  lemma {:induction false} ApiRequestMasksBackendFailures(endpoint: string, now: int, outcome: FetchOutcome)
    requires outcome.NetworkFailure? || (outcome.HttpResponse? && !outcome.ok)
    ensures ApiRequest(endpoint, now, outcome) == ApiRequest(endpoint, now, HttpResponse(true, 200, WellFormed(MockData(endpoint, now))))
  {
  }

  /** The headers sent: `{"Content-Type": "application/json", ...options.headers}`.
      Caller headers are spread last, so a caller's `Content-Type` wins. */
  function RequestHeaders(callerHeaders: map<string, string>): (h: map<string, string>)
    ensures h.Keys == callerHeaders.Keys + {"Content-Type"}
    ensures forall k :: k in callerHeaders ==> h[k] == callerHeaders[k]
    ensures "Content-Type" !in callerHeaders ==> h["Content-Type"] == "application/json"
  {
    map["Content-Type" := "application/json"] + callerHeaders
  }

  // ---------------------------------------------------------------------------
  // Mock payloads (offline/demo mode)
  // ---------------------------------------------------------------------------

  const MinuteMs: int := 60000

  function Num(n: real): Json { JNum(n) }

  const StatsMock: Json := JObj([
    ("activeViolations", Num(4.0)),
    ("camerasOnline", Num(8.0)),
    ("complianceScore", Num(87.5)),
    ("averageResponseTime", Num(2.3)),
    ("total_violations", Num(4.0)),
    ("compliance_rate", Num(87.5))
  ])

  function Violation(id: string, at: int, kind: string, severity: string, camera: string,
                     person: string, description: string, confidence: real): Json
  {
    JObj([
      ("id", JStr(id)), ("timestamp", JTime(at)), ("type", JStr(kind)),
      ("severity", JStr(severity)), ("camera", JStr(camera)), ("person", JStr(person)),
      ("description", JStr(description)), ("confidence", Num(confidence))
    ])
  }

  /** The four canned violations, newest first. */
  function AllViolations(now: int): (r: seq<Json>)
    ensures |r| == 4
  {
    [
      Violation("v1", now - 5 * MinuteMs, "ppe", "critical", "Camera 1", "Worker ID: 001", "Missing hard hat", 0.98),
      Violation("v2", now - 15 * MinuteMs, "ppe", "warning", "Camera 3", "Worker ID: 045", "Missing safety goggles", 0.92),
      Violation("v3", now - 25 * MinuteMs, "posture", "warning", "Camera 5", "Worker ID: 028", "Improper lifting posture", 0.85),
      Violation("v4", now - 45 * MinuteMs, "hazard", "info", "Camera 2", "Worker ID: 012", "Hazardous area access", 0.88)
    ]
  }

  function Camera(id: string, name: string, location: string, violations: real, zone: string, source: string): Json {
    JObj([
      ("id", JStr(id)), ("name", JStr(name)), ("location", JStr(location)), ("online", JBool(true)),
      ("violations", Num(violations)), ("zone", JStr(zone)), ("source", JStr(source)), ("type", JStr("webcam"))
    ])
  }

  const CamerasMock: Json := JArr([
    Camera("cam1", "Warehouse Entrance", "Main Gate", 0.0, "General", "0"),
    Camera("cam2", "Assembly Line A", "Floor 1", 2.0, "General", "1"),
    Camera("cam3", "Assembly Line B", "Floor 1", 1.0, "Production", "2")
  ])

  const StreamMock: Json := JObj([
    ("stream_url", JStr("/live-video-feed.jpg")), ("camera_id", JStr("cam1")), ("status", JStr("active"))
  ])

  function MockLog(id: string, at: int, kind: string, severity: string, camera: string, description: string,
                   confidence: real, person: string, status: string, missing: seq<string>): Json
  {
    JObj([
      ("id", JStr(id)), ("timestamp", JTime(at)), ("type", JStr(kind)), ("severity", JStr(severity)),
      ("camera", JStr(camera)), ("description", JStr(description)), ("confidence", Num(confidence)),
      ("person", JStr(person)), ("status", JStr(status)), ("missing", JArr(seq(|missing|, i requires 0 <= i < |missing| => JStr(missing[i]))))
    ])
  }

  function MockLogs(now: int): (r: seq<Json>)
    ensures |r| == 3
  {
    [
      MockLog("log1", now - 2 * MinuteMs, "ppe", "critical", "Camera 1", "Missing hard hat", 0.98, "Worker 001", "VIOLATION", ["mask", "gloves"]),
      MockLog("log2", now - 8 * MinuteMs, "ppe", "warning", "Camera 3", "Missing safety goggles", 0.92, "Worker 045", "VIOLATION", ["glasses"]),
      MockLog("log3", now - 18 * MinuteMs, "posture", "info", "Camera 5", "All PPE compliant", 0.85, "Worker 028", "COMPLIANT", [])
    ]
  }

  function LogsMock(now: int): Json {
    JObj([("logs", JArr(MockLogs(now))), ("total", Num(127.0)), ("page", Num(1.0))])
  }

  const KnownGearIds: seq<string> := ["mask", "gloves", "coverall", "goggles", "face_shield"]

  const GearMock: Json := JObj([("requirements", JArr([JStr("mask"), JStr("gloves"), JStr("coverall"), JStr("goggles"), JStr("face_shield")]))])

  const AnalyticsSummaryMock: Json := JObj([
    ("totalViolations", Num(342.0)),
    ("averageResponseTime", Num(2.3)),
    ("systemUptime", Num(99.8)),
    ("complianceScore", Num(87.5)),
    ("detected", JObj([("Mask", Num(124.0)), ("Gloves", Num(98.0)), ("Goggles", Num(76.0)), ("Coverall", Num(45.0)), ("Face Shield", Num(30.0))])),
    ("missing", JObj([("Mask", Num(42.0)), ("Gloves", Num(35.0)), ("Goggles", Num(56.0)), ("Coverall", Num(88.0)), ("Face Shield", Num(62.0))]))
  ])

  function DayValue(day: string, key: string, v: real): Json {
    JObj([("date", JStr(day)), (key, Num(v))])
  }

  const ViolationsTrendMock: Json := JArr([
    DayValue("Mon", "violations", 12.0), DayValue("Tue", "violations", 15.0), DayValue("Wed", "violations", 8.0),
    DayValue("Thu", "violations", 18.0), DayValue("Fri", "violations", 14.0), DayValue("Sat", "violations", 5.0),
    DayValue("Sun", "violations", 3.0)
  ])

  const ComplianceScoreMock: Json := JArr([
    DayValue("Mon", "score", 85.0), DayValue("Tue", "score", 84.0), DayValue("Wed", "score", 88.0),
    DayValue("Thu", "score", 86.0), DayValue("Fri", "score", 87.0), DayValue("Sat", "score", 90.0),
    DayValue("Sun", "score", 92.0)
  ])

  const ViolationsByTypeMock: Json := JArr([
    JObj([("type", JStr("PPE Violations")), ("count", Num(185.0))]),
    JObj([("type", JStr("Posture Issues")), ("count", Num(98.0))]),
    JObj([("type", JStr("Hazard Access")), ("count", Num(59.0))])
  ])

  function CameraPerformance(camera: string, violations: real, uptime: real, efficiency: real): Json {
    JObj([("camera", JStr(camera)), ("violations", Num(violations)), ("uptime", Num(uptime)), ("efficiency", Num(efficiency))])
  }

  const CameraPerformanceMock: Json := JArr([
    CameraPerformance("Cam 1", 25.0, 99.8, 92.0), CameraPerformance("Cam 2", 45.0, 99.5, 88.0),
    CameraPerformance("Cam 3", 38.0, 99.9, 90.0), CameraPerformance("Cam 5", 52.0, 99.2, 85.0),
    CameraPerformance("Cam 6", 18.0, 99.9, 94.0)
  ])

  /** The fallback for paths that name a list-valued resource. */
  const EmptyLogsAndHistory: Json := JObj([("logs", JArr([])), ("history", JArr([]))])

  // ---------------------------------------------------------------------------
  // Reading `?limit=` the way `new URL(...).searchParams.get` and `parseInt` do
  // ---------------------------------------------------------------------------

  /** The query of a URL: the text after the first `?`, with any `#` fragment removed
      first (a `?` inside the fragment does not start a query). */
  function QueryOf(endpoint: string): string {
    match AfterFirst(BeforeFirst(endpoint, '#'), '?')
    case None => ""
    case Some(q) => q
  }

  /** `URLSearchParams.get(key)` over `&`-separated pairs: the first pair whose name is
      `key`; a pair without `=` has the empty value. Percent-decoding is not modelled. */
  function ParamLookup(pairs: seq<string>, key: string): (r: Option<string>)
    ensures r.Some? ==> exists i :: 0 <= i < |pairs| && BeforeFirst(pairs[i], '=') == key
    ensures r.None? <==> forall i :: 0 <= i < |pairs| ==> BeforeFirst(pairs[i], '=') != key
    ensures r.Some? ==> exists i :: FirstNamed(pairs, key, i) && r.value == PairValue(pairs[i])
  {
    if |pairs| == 0 then None
    else if BeforeFirst(pairs[0], '=') == key then
      assert FirstNamed(pairs, key, 0);
      Some(PairValue(pairs[0]))
    else
      var r := ParamLookup(pairs[1..], key);
      if r.Some? then
        var i :| FirstNamed(pairs[1..], key, i) && r.value == PairValue(pairs[1..][i]);
        assert FirstNamed(pairs, key, i + 1);
        r
      else r
  }

  /** The value of one `name=value` pair: the text after the first `=`, or empty when
      the pair has no `=`. */
  function PairValue(pair: string): string {
    match AfterFirst(pair, '=') case None => "" case Some(v) => v
  }

  /** Position `i` holds the first pair named `key`. */
  predicate FirstNamed(pairs: seq<string>, key: string, i: int) {
    0 <= i < |pairs| && BeforeFirst(pairs[i], '=') == key
    && forall j :: 0 <= j < i ==> BeforeFirst(pairs[j], '=') != key
  }

  function QueryParam(endpoint: string, key: string): Option<string> {
    ParamLookup(Split(QueryOf(endpoint), '&'), key)
  }

  /** The white space `parseInt` skips: JavaScript's white space and line terminators
      (tab, vertical tab, form feed, the byte-order mark, the space separators and the
      four line terminators). */
  predicate IsJsSpace(c: char) {
    c == ' ' || c == '\t' || c == '\n' || c == '\r' || c == '\U{000B}' || c == '\U{000C}'
    || c == '\U{00A0}' || c == '\U{FEFF}' || c == '\U{1680}' || ('\U{2000}' <= c <= '\U{200A}')
    || c == '\U{2028}' || c == '\U{2029}' || c == '\U{202F}' || c == '\U{205F}' || c == '\U{3000}'
  }

  function TrimStart(s: string): (r: string)
    ensures |r| <= |s| && r == s[|s| - |r|..]
    ensures |r| > 0 ==> !IsJsSpace(r[0])
  {
    if |s| > 0 && IsJsSpace(s[0]) then TrimStart(s[1..]) else s
  }

  /** The value of `c` as a digit in base 10 or 16. */
  function DigitValue(c: char, radix: nat): (r: Option<nat>)
    ensures r.Some? ==> r.value < radix
    ensures radix == 10 ==> (r.Some? <==> IsDigit(c))
    ensures radix == 10 && IsDigit(c) ==> r == Some(c as int - '0' as int)
  {
    if '0' <= c <= '9' && (c as int - '0' as int) < radix then Some(c as int - '0' as int)
    else if radix == 16 && 'a' <= c <= 'f' then Some(c as int - 'a' as int + 10)
    else if radix == 16 && 'A' <= c <= 'F' then Some(c as int - 'A' as int + 10)
    else None
  }

  /** The length of the longest prefix of `s` made of digits of the radix. */
  function DigitRun(s: string, radix: nat): (k: nat)
    ensures k <= |s|
    ensures forall i :: 0 <= i < k ==> DigitValue(s[i], radix).Some?
    ensures k < |s| ==> DigitValue(s[k], radix).None?
  {
    if |s| > 0 && DigitValue(s[0], radix).Some? then 1 + DigitRun(s[1..], radix) else 0
  }

  function RadixValue(s: string, radix: nat): nat
    requires forall i :: 0 <= i < |s| ==> DigitValue(s[i], radix).Some?
  {
    if |s| == 0 then 0
    else RadixValue(s[..|s| - 1], radix) * radix + DigitValue(s[|s| - 1], radix).value
  }

  /** The value of the longest run of digits at the start of `w`; `None` when there is none. */
  function LeadingValue(w: string, radix: nat): (r: Option<nat>)
    ensures r.None? <==> DigitRun(w, radix) == 0
  {
    var k := DigitRun(w, radix);
    if k == 0 then None else Some(RadixValue(w[..k], radix))
  }

  /** The unsigned part: `0x`/`0X` switches to base 16, otherwise base 10. */
  function ParseMagnitude(u: string): Option<nat> {
    if |u| >= 2 && u[0] == '0' && (u[1] == 'x' || u[1] == 'X') then LeadingValue(u[2..], 16)
    else LeadingValue(u, 10)
  }

  /** `Number.parseInt(s)` without a radix: skip leading white space, read an optional
      sign, then the magnitude. `None` stands for `NaN` (no digit at all). */
  function ParseInt(s: string): Option<int> {
    var t := TrimStart(s);
    var signed := |t| > 0 && (t[0] == '-' || t[0] == '+');
    var negative := |t| > 0 && t[0] == '-';
    match ParseMagnitude(if signed then t[1..] else t)
    case None => None
    case Some(v) =>
      var signedValue: int := if negative then 0 - v else v;
      Some(signedValue)
  }

  lemma {:induction false} RadixValueDecimal(s: string)
    requires forall i :: 0 <= i < |s| ==> IsDigit(s[i])
    ensures forall i :: 0 <= i < |s| ==> DigitValue(s[i], 10).Some?
    ensures RadixValue(s, 10) == DigitsValue(s)
  {
    if |s| > 0 {
      RadixValueDecimal(s[..|s| - 1]);
    }
  }

  /** A decimal string without a redundant leading zero is read in base 10 to its value. */
  lemma MagnitudeOfDecimal(s: string)
    requires forall i :: 0 <= i < |s| ==> IsDigit(s[i])
    requires |s| > 0 && (|s| > 1 ==> s[0] != '0')
    ensures ParseMagnitude(s) == Some(DigitsValue(s))
  {
    RadixValueDecimal(s);
    DigitRunAll(s, 10);
    assert s[..|s|] == s;
  }

  /** A decimal string without a redundant leading zero parses to its value. */
  lemma ParseIntOfDecimal(s: string)
    requires forall i :: 0 <= i < |s| ==> IsDigit(s[i])
    requires |s| > 0 && (|s| > 1 ==> s[0] != '0')
    ensures ParseInt(s) == Some(DigitsValue(s))
  {
    assert IsDigit(s[0]);
    MagnitudeOfDecimal(s);
    UnsignedParse(s, DigitsValue(s));
  }

  /** A string starting with something other than white space or a sign is read
      as its magnitude. */
  lemma UnsignedParse(s: string, v: nat)
    requires |s| > 0 && !IsJsSpace(s[0]) && s[0] != '-' && s[0] != '+'
    requires ParseMagnitude(s) == Some(v)
    ensures ParseInt(s) == Some(v)
  {
    assert TrimStart(s) == s;
  }

  /** `parseInt(String(n))` reads back `n`. */
  lemma ParseIntOfNatToString(n: nat)
    ensures ParseInt(NatToString(n)) == Some(n)
  {
    ParseIntOfDecimal(NatToString(n));
    DigitsValueOfNatToString(n);
  }

  lemma {:induction false} DigitRunAll(s: string, radix: nat)
    requires forall i :: 0 <= i < |s| ==> DigitValue(s[i], radix).Some?
    ensures DigitRun(s, radix) == |s|
  {
    if |s| > 0 {
      DigitRunAll(s[1..], radix);
    }
  }

  /** `arr.slice(0, end)`: `NaN` counts as 0 and a negative end counts from the back. */
  function SliceEnd(len: nat, end: Option<int>): (k: nat)
    ensures k <= len
    ensures end.None? ==> k == 0
    ensures end.Some? && end.value >= 0 ==> k == if end.value < len then end.value else len
    ensures end.Some? && end.value < 0 ==> k == if len + end.value > 0 then len + end.value else 0
  {
    match end
    case None => 0
    case Some(e) =>
      if e < 0 then (if len + e > 0 then len + e else 0)
      else if e < len then e else len
  }

  /** `Number.parseInt(searchParams.get("limit") || "5")`: a missing or empty
      parameter reads as 5. */
  function ViolationsLimit(endpoint: string): Option<int> {
    var raw := QueryParam(endpoint, "limit");
    ParseInt(if raw.Some? && raw.value != "" then raw.value else "5")
  }

  // ---------------------------------------------------------------------------
  // getMockData
  // ---------------------------------------------------------------------------

  /** `getMockData(endpoint)`: exact matches and substring tests tried in source
      order; the first one that matches selects the payload. The payload is always an
      array or an object, so reading a field of it offline never throws; which payload
      each façade path gets is stated by the `…PathMock` lemmas below. */
  function MockData(endpoint: string, now: int): (r: Json)
    ensures r.JArr? || r.JObj?
  {
    if endpoint == "/api/dashboard/summary" || endpoint == "/api/stats" then StatsMock
    else if Contains(endpoint, "/api/dashboard/violations") then
      var all := AllViolations(now);
      JArr(all[..SliceEnd(|all|, ViolationsLimit(endpoint))])
    else if endpoint == "/api/monitor/cameras" || endpoint == "/api/cameras" then CamerasMock
    else if Contains(endpoint, "/api/monitor/stream") then StreamMock
    else if endpoint == "/api/logs" then LogsMock(now)
    else if endpoint == "/api/monitor/status" then JObj([("active", JBool(false))])
    else if endpoint == "/api/settings/threshold" then JObj([("conf", Num(0.50))])
    else if endpoint == "/api/settings/gear" then GearMock
    else if endpoint == "/api/analytics/summary" then AnalyticsSummaryMock
    else if Contains(endpoint, "/api/logs/search") then LogsMock(now)
    else if endpoint == "/api/analytics/violations-trend" then ViolationsTrendMock
    else if endpoint == "/api/analytics/compliance-score" then ComplianceScoreMock
    else if endpoint == "/api/analytics/violations-by-type" then ViolationsByTypeMock
    else if endpoint == "/api/analytics/camera-performance" then CameraPerformanceMock
    else if endpoint == "/api/videos/history" then JObj([("history", JArr([]))])
    else if Contains(endpoint, "history") || Contains(endpoint, "activity") || Contains(endpoint, "trend")
         || Contains(endpoint, "cameras") || Contains(endpoint, "logs") then
      (if Contains(endpoint, "history") || Contains(endpoint, "logs") then EmptyLogsAndHistory else JArr([]))
    else JObj([])
  }

  /** The paths `getMockData` compares for equality. */
  predicate IsExactMockPath(e: string) {
    e == "/api/dashboard/summary" || e == "/api/stats" || e == "/api/monitor/cameras" || e == "/api/cameras"
    || e == "/api/logs" || e == "/api/monitor/status" || e == "/api/settings/threshold" || e == "/api/settings/gear"
    || e == "/api/analytics/summary" || e == "/api/analytics/violations-trend" || e == "/api/analytics/compliance-score"
    || e == "/api/analytics/violations-by-type" || e == "/api/analytics/camera-performance" || e == "/api/videos/history"
  }

  // ---------------------------------------------------------------------------
  // Façade paths
  // ---------------------------------------------------------------------------

  /** `dashboardAPI.getViolations(limit)`. */
  function ViolationsPath(limit: nat): (p: string)
    ensures StartsWith(p, "/api/dashboard/violations?limit=")
  {
    "/api/dashboard/violations?limit=" + NatToString(limit)
  }

  /** `analyticsAPI.getViolationsTrend(range)`. */
  function ViolationsTrendPath(range: string): string {
    "/api/analytics/violations-trend?range=" + range
  }

  /** `analyticsAPI.getComplianceScore(range)`. */
  function ComplianceScorePath(range: string): string {
    "/api/analytics/compliance-score?range=" + range
  }

  /** `safetyMonitorAPI.deleteCamera(id)`. */
  function CameraPath(id: string): string {
    "/api/cameras/" + id
  }

  /** A path carrying one `key=value` parameter yields that value for the key. */
  lemma QueryParamOfSingle(path: string, prefix: string, key: string, value: string)
    requires '?' !in prefix && '#' !in prefix
    requires '#' !in key && '&' !in key && '=' !in key
    requires '#' !in value && '&' !in value
    requires path == prefix + ['?'] + (key + ['='] + value)
    ensures QueryParam(path, key) == Some(value)
  {
    var q := key + ['='] + value;
    assert '#' !in q;
    assert '#' !in path;
    BeforeFirstAbsent(path, '#');
    AfterFirstOfPrefixed(prefix, '?', q);
    assert QueryOf(path) == q;
    assert '&' !in q;
    SplitAbsent(q, '&');
    BeforeFirstOfPrefixed(key, '=', value);
    AfterFirstOfPrefixed(key, '=', value);
  }

  /** The limit in a path built by `getViolations(n)` is read back as `n`. */
  lemma ViolationsPathLimit(n: nat)
    ensures ViolationsLimit(ViolationsPath(n)) == Some(n)
  {
    var digits := NatToString(n);
    assert '#' !in digits && '&' !in digits by {
      forall i | 0 <= i < |digits| ensures digits[i] != '#' && digits[i] != '&' {
        assert IsDigit(digits[i]);
      }
    }
    assert ViolationsPath(n) == "/api/dashboard/violations" + ['?'] + ("limit" + ['='] + digits);
    QueryParamOfSingle(ViolationsPath(n), "/api/dashboard/violations", "limit", digits);
    assert digits != "";
    assert ViolationsLimit(ViolationsPath(n)) == ParseInt(digits);
    ParseIntOfNatToString(n);
  }

  /** Offline, `getViolations(n)` yields the first min(n, 4) canned violations, in order. */
  lemma OfflineViolationsHonourLimit(n: nat, now: int)
    ensures MockData(ViolationsPath(n), now) == JArr(AllViolations(now)[..if n < 4 then n else 4])
  {
    var path := ViolationsPath(n);
    assert |path| > 30;
    StartsWithContains(path, "/api/dashboard/violations");
    ViolationsPathLimit(n);
  }

  /** The dashboard's default `getViolations()` asks for 5 and the offline mock has
      only 4, so all four canned violations are returned. */
  lemma OfflineDefaultViolations(now: int)
    ensures MockData(ViolationsPath(5), now) == JArr(AllViolations(now))
  {
    OfflineViolationsHonourLimit(5, now);
    assert AllViolations(now)[..4] == AllViolations(now);
  }

  /** None of the exactly-matched paths contains the search path: each lacks one of its
      characters. */
  lemma ExactPathLacksSearch(e: string)
    requires IsExactMockPath(e)
    ensures !Contains(e, "/api/logs/search")
  {
    if e in {"/api/dashboard/summary", "/api/stats", "/api/monitor/cameras", "/api/cameras"} {
      ExactPathsLackSearch1(e);
    } else if e in {"/api/logs", "/api/monitor/status", "/api/settings/threshold"} {
      ExactPathsLackSearch2(e);
    } else if e in {"/api/settings/gear", "/api/analytics/summary", "/api/analytics/violations-trend"} {
      ExactPathsLackSearch3(e);
    } else {
      ExactPathsLackSearch4(e);
    }
  }

  lemma ExactPathsLackSearch1(e: string)
    requires e in {"/api/dashboard/summary", "/api/stats", "/api/monitor/cameras", "/api/cameras"}
    ensures !Contains(e, "/api/logs/search")
  {
    if e == "/api/dashboard/summary" {
      NotContainsMissingChar(e, "/api/logs/search", 5);
    } else if e == "/api/stats" {
      NotContainsMissingChar(e, "/api/logs/search", 5);
    } else if e == "/api/monitor/cameras" {
      NotContainsMissingChar(e, "/api/logs/search", 5);
    } else {
      NotContainsMissingChar(e, "/api/logs/search", 5);
    }
  }

  lemma ExactPathsLackSearch2(e: string)
    requires e in {"/api/logs", "/api/monitor/status", "/api/settings/threshold"}
    ensures !Contains(e, "/api/logs/search")
  {
    if e == "/api/logs" {
      NotContainsMissingChar(e, "/api/logs/search", 11);
    } else if e == "/api/monitor/status" {
      NotContainsMissingChar(e, "/api/logs/search", 5);
    } else {
      NotContainsMissingChar(e, "/api/logs/search", 14);
    }
  }

  lemma ExactPathsLackSearch3(e: string)
    requires e in {"/api/settings/gear", "/api/analytics/summary", "/api/analytics/violations-trend"}
    ensures !Contains(e, "/api/logs/search")
  {
    if e == "/api/settings/gear" {
      NotContainsMissingChar(e, "/api/logs/search", 5);
    } else if e == "/api/analytics/summary" {
      NotContainsMissingChar(e, "/api/logs/search", 6);
    } else {
      NotContainsMissingChar(e, "/api/logs/search", 7);
    }
  }

  lemma ExactPathsLackSearch4(e: string)
    requires e in {"/api/analytics/compliance-score", "/api/analytics/violations-by-type", "/api/analytics/camera-performance", "/api/videos/history"}
    ensures !Contains(e, "/api/logs/search")
  {
    if e == "/api/analytics/compliance-score" || e == "/api/analytics/violations-by-type" {
      ExactPathsLackSearch5(e);
    } else {
      ExactPathsLackSearch6(e);
    }
  }

  lemma ExactPathsLackSearch5(e: string)
    requires e == "/api/analytics/compliance-score" || e == "/api/analytics/violations-by-type"
    ensures !Contains(e, "/api/logs/search")
  {
    NotContainsMissingChar(e, "/api/logs/search", 7);
  }

  lemma ExactPathsLackSearch6(e: string)
    requires e == "/api/analytics/camera-performance" || e == "/api/videos/history"
    ensures !Contains(e, "/api/logs/search")
  {
    if e == "/api/analytics/camera-performance" {
      NotContainsMissingChar(e, "/api/logs/search", 7);
    } else {
      NotContainsMissingChar(e, "/api/logs/search", 5);
    }
  }

  /** A path containing "/api/logs/search" gets exactly the `/api/logs` payload, unless
      an earlier substring test ("/api/dashboard/violations" or "/api/monitor/stream")
      already claimed it. */
  lemma SearchPathsGetLogsMock(e: string, now: int)
    requires Contains(e, "/api/logs/search")
    requires !Contains(e, "/api/dashboard/violations") && !Contains(e, "/api/monitor/stream")
    ensures MockData(e, now) == MockData("/api/logs", now) == LogsMock(now)
  {
    LogsPathMock(now);
    if IsExactMockPath(e) {
      ExactPathLacksSearch(e);
    }
  }

  /** A path lacking one character of "/api/dashboard/violations" and one of
      "/api/monitor/stream" passes both early substring tests, so only the exact
      comparisons and the later tests decide its mock payload. */
  lemma PathSkipsEarlyTests(e: string, kd: nat, ks: nat)
    requires kd < |"/api/dashboard/violations"| && "/api/dashboard/violations"[kd] !in e
    requires ks < |"/api/monitor/stream"| && "/api/monitor/stream"[ks] !in e
    ensures !Contains(e, "/api/dashboard/violations") && !Contains(e, "/api/monitor/stream")
  {
    NotContainsMissingChar(e, "/api/dashboard/violations", kd);
    NotContainsMissingChar(e, "/api/monitor/stream", ks);
  }

  /** Offline, the threshold setting reads 0.50. */
  lemma ThresholdPathMock(now: int)
    ensures MockData("/api/settings/threshold", now) == JObj([("conf", Num(0.50))])
  {
    ThresholdPathMockOf("/api/settings/threshold", now);
  }

  lemma ThresholdPathMockOf(e: string, now: int)
    requires e == "/api/settings/threshold"
    ensures MockData(e, now) == JObj([("conf", Num(0.50))])
  {
    PathSkipsEarlyTests(e, 9, 5);
    assert e != "/api/dashboard/summary" && e != "/api/stats" && e != "/api/monitor/cameras" && e != "/api/cameras";
    assert e != "/api/logs" && e != "/api/monitor/status";
  }

  /** Offline, all five gear items are required. */
  lemma GearPathMock(now: int)
    ensures MockData("/api/settings/gear", now) == GearMock
  {
    GearPathMockOf("/api/settings/gear", now);
  }

  lemma GearPathMockOf(e: string, now: int)
    requires e == "/api/settings/gear"
    ensures MockData(e, now) == GearMock
  {
    PathSkipsEarlyTests(e, 9, 5);
    assert e != "/api/dashboard/summary" && e != "/api/stats" && e != "/api/monitor/cameras" && e != "/api/cameras";
    assert e != "/api/logs" && e != "/api/monitor/status" && e != "/api/settings/threshold";
  }

  /** Offline, monitoring reads as paused. */
  lemma StatusPathMock(now: int)
    ensures MockData("/api/monitor/status", now) == JObj([("active", JBool(false))])
  {
    StatusPathMockOf("/api/monitor/status", now);
  }

  lemma StatusPathMockOf(e: string, now: int)
    requires e == "/api/monitor/status"
    ensures MockData(e, now) == JObj([("active", JBool(false))])
  {
    PathSkipsEarlyTests(e, 9, 16);
    assert e != "/api/dashboard/summary" && e != "/api/stats" && e != "/api/monitor/cameras" && e != "/api/cameras";
    assert e != "/api/logs";
  }

  /** Offline, the processed-video history is empty. */
  lemma HistoryPathMock(now: int)
    ensures MockData("/api/videos/history", now) == JObj([("history", JArr([]))])
  {
    HistoryPathMockOf("/api/videos/history", now);
  }

  lemma HistoryPathMockOf(e: string, now: int)
    requires e == "/api/videos/history"
    ensures MockData(e, now) == JObj([("history", JArr([]))])
  {
    HistoryPathSkipsEarlierCases(e);
  }

  /** The history path matches none of the cases `getMockData` tries before it. */
  lemma HistoryPathSkipsEarlierCases(e: string)
    requires e == "/api/videos/history"
    ensures !Contains(e, "/api/dashboard/violations") && !Contains(e, "/api/monitor/stream")
    ensures !Contains(e, "/api/logs/search")
    ensures e != "/api/dashboard/summary" && e != "/api/stats" && e != "/api/monitor/cameras" && e != "/api/cameras"
    ensures e != "/api/logs" && e != "/api/monitor/status" && e != "/api/settings/threshold" && e != "/api/settings/gear"
    ensures e != "/api/analytics/summary" && e != "/api/analytics/violations-trend" && e != "/api/analytics/compliance-score"
    ensures e != "/api/analytics/violations-by-type" && e != "/api/analytics/camera-performance"
  {
    HistoryPathLacksEarlierSubstrings(e);
    HistoryPathNotEarlierExact(e);
  }

  /** The history path has no `b`, `n` or `l`, so it contains none of the substrings
      tested before it. */
  lemma HistoryPathLacksEarlierSubstrings(e: string)
    requires e == "/api/videos/history"
    ensures !Contains(e, "/api/dashboard/violations") && !Contains(e, "/api/monitor/stream")
    ensures !Contains(e, "/api/logs/search")
  {
    HistoryPathLacksViolations(e);
    HistoryPathLacksStream(e);
    HistoryPathLacksSearch(e);
  }

  lemma HistoryPathLacksViolations(e: string)
    requires e == "/api/videos/history"
    ensures !Contains(e, "/api/dashboard/violations")
  {
    HistoryPathLacksChar(e, 'b');
    NotContainsMissingChar(e, "/api/dashboard/violations", 9);
  }

  lemma HistoryPathLacksStream(e: string)
    requires e == "/api/videos/history"
    ensures !Contains(e, "/api/monitor/stream")
  {
    HistoryPathLacksChar(e, 'n');
    NotContainsMissingChar(e, "/api/monitor/stream", 7);
  }

  lemma HistoryPathLacksSearch(e: string)
    requires e == "/api/videos/history"
    ensures !Contains(e, "/api/logs/search")
  {
    HistoryPathLacksChar(e, 'l');
    NotContainsMissingChar(e, "/api/logs/search", 5);
  }

  lemma HistoryPathLacksChar(e: string, c: char)
    requires e == "/api/videos/history" && (c == 'b' || c == 'n' || c == 'l')
    ensures c !in e
  {
  }

  /** Only `/api/monitor/status` has the history path's length, and it differs at index 5. */
  lemma HistoryPathNotEarlierExact(e: string)
    requires e == "/api/videos/history"
    ensures e != "/api/dashboard/summary" && e != "/api/stats" && e != "/api/monitor/cameras" && e != "/api/cameras"
    ensures e != "/api/logs" && e != "/api/monitor/status" && e != "/api/settings/threshold" && e != "/api/settings/gear"
    ensures e != "/api/analytics/summary" && e != "/api/analytics/violations-trend" && e != "/api/analytics/compliance-score"
    ensures e != "/api/analytics/violations-by-type" && e != "/api/analytics/camera-performance"
  {
    assert |e| == 19 && e[5] == 'v';
  }

  /** `logsData.logs` on a canned logs page. */
  lemma LogsPageField(logs: Json, total: Json, page: Json)
    ensures Field(JObj([("logs", logs), ("total", total), ("page", page)]), "logs") == Some(logs)
  {
    var f := [("logs", logs), ("total", total), ("page", page)];
    assert f[..2][..1] == [("logs", logs)];
    assert LastField(f, "logs") == LastField(f[..2], "logs") == LastField(f[..2][..1], "logs");
  }

  /** Offline, the camera list is the three canned cameras. */
  lemma CamerasPathMock(now: int)
    ensures MockData("/api/cameras", now) == CamerasMock
  {
    NotContainsMissingChar("/api/cameras", "/api/dashboard/violations", 9);
  }

  /** Offline, the analytics summary is the canned summary. */
  lemma SummaryPathMock(now: int)
    ensures MockData("/api/analytics/summary", now) == AnalyticsSummaryMock
  {
    SummaryPathMockOf("/api/analytics/summary", now);
  }

  lemma SummaryPathMockOf(e: string, now: int)
    requires e == "/api/analytics/summary"
    ensures MockData(e, now) == AnalyticsSummaryMock
  {
    PathSkipsEarlyTests(e, 9, 16);
    assert e != "/api/dashboard/summary" && e != "/api/stats" && e != "/api/monitor/cameras" && e != "/api/cameras";
    assert e != "/api/logs" && e != "/api/monitor/status" && e != "/api/settings/threshold" && e != "/api/settings/gear";
  }

  /** The `/api/logs` path itself is served the canned logs page. */
  lemma LogsPathMock(now: int)
    ensures MockData("/api/logs", now) == LogsMock(now)
  {
    var e := "/api/logs";
    if Contains(e, "/api/dashboard/violations") {
      ContainsLength(e, "/api/dashboard/violations");
    }
    if Contains(e, "/api/monitor/stream") {
      ContainsLength(e, "/api/monitor/stream");
    }
  }

  /** The substring fallback for paths that match no earlier test. */
  lemma FallbackMocks(e: string, now: int)
    requires !IsExactMockPath(e)
    requires !Contains(e, "/api/dashboard/violations") && !Contains(e, "/api/monitor/stream")
    requires !Contains(e, "/api/logs/search")
    ensures (Contains(e, "history") || Contains(e, "logs")) ==> MockData(e, now) == EmptyLogsAndHistory
    ensures !(Contains(e, "history") || Contains(e, "logs")) && (Contains(e, "activity") || Contains(e, "trend") || Contains(e, "cameras"))
            ==> MockData(e, now) == JArr([])
    ensures !(Contains(e, "history") || Contains(e, "logs") || Contains(e, "activity") || Contains(e, "trend") || Contains(e, "cameras"))
            ==> MockData(e, now) == JObj([])
  {
  }

  const TrendPath7Days: string := "/api/analytics/violations-trend?range=7days"
  const CompliancePath7Days: string := "/api/analytics/compliance-score?range=7days"

  /** Paths without an `h` contain none of "history", "/api/dashboard/violations" and
      "/api/logs/search". */
  lemma LacksH(e: string)
    requires 'h' !in e
    ensures !Contains(e, "history") && !Contains(e, "/api/dashboard/violations") && !Contains(e, "/api/logs/search")
  {
    NotContainsMissingChar(e, "history", 0);
    NotContainsMissingChar(e, "/api/dashboard/violations", 8);
    NotContainsMissingChar(e, "/api/logs/search", 15);
  }

  lemma RangedPathNotExact(e: string)
    requires e == TrendPath7Days || e == CompliancePath7Days
    ensures !IsExactMockPath(e)
  {
    assert |e| == 43;
  }

  lemma RangedPathLacksH(e: string)
    requires e == TrendPath7Days || e == CompliancePath7Days
    ensures !Contains(e, "history") && !Contains(e, "/api/dashboard/violations") && !Contains(e, "/api/logs/search")
  {
    assert 'h' !in e;
    LacksH(e);
  }

  lemma RangedPathLacksLogs(e: string)
    requires e == TrendPath7Days || e == CompliancePath7Days
    ensures !Contains(e, "logs")
  {
    if e == TrendPath7Days {
      TrendPathLacksLogs(e);
    } else {
      CompliancePathLacksLogs(e);
    }
  }

  /** No "l" of the path is followed by an "o". */
  lemma TrendPathLacksLogs(e: string)
    requires e == TrendPath7Days
    ensures !Contains(e, "logs")
  {
    forall i | 0 <= i <= |e| - 4 ensures !OccursAt(e, "logs", i) {
      assert e[i..i + 4][2] == e[i + 2] && e[i..i + 4][3] == e[i + 3];
    }
    NotContainsNoWindow(e, "logs");
  }

  lemma CompliancePathLacksLogs(e: string)
    requires e == CompliancePath7Days
    ensures !Contains(e, "logs")
  {
    forall i | 0 <= i <= |e| - 4 ensures !OccursAt(e, "logs", i) {
      assert e[i..i + 4][2] == e[i + 2] && e[i..i + 4][3] == e[i + 3];
    }
    NotContainsNoWindow(e, "logs");
  }

  lemma TrendPathWords(e: string)
    requires e == TrendPath7Days
    ensures Contains(e, "trend") && !Contains(e, "/api/monitor/stream")
  {
    assert OccursAt(e, "trend", 26);
    ContainsIffOccurs(e, "trend");
    NotContainsMissingChar(e, "/api/monitor/stream", 5);
  }

  lemma ComplianceTrendFree(e: string)
    requires e == CompliancePath7Days
    ensures !Contains(e, "trend")
  {
    forall i | 0 <= i <= |e| - 5 ensures !OccursAt(e, "trend", i) {
      assert e[i..i + 5][0] == e[i] && e[i..i + 5][1] == e[i + 1];
    }
    NotContainsNoWindow(e, "trend");
  }

  lemma ComplianceStreamFree(e: string)
    requires e == CompliancePath7Days
    ensures !Contains(e, "/api/monitor/stream")
  {
    forall i | 0 <= i <= |e| - 19 ensures !OccursAt(e, "/api/monitor/stream", i) {
      assert e[i..i + 19][5] == e[i + 5] && e[i..i + 19][6] == e[i + 6];
    }
    NotContainsNoWindow(e, "/api/monitor/stream");
  }

  lemma ComplianceCamerasFree(e: string)
    requires e == CompliancePath7Days
    ensures !Contains(e, "cameras")
  {
    forall i | 0 <= i <= |e| - 7 ensures !OccursAt(e, "cameras", i) {
      assert e[i..i + 7][0] == e[i] && e[i..i + 7][1] == e[i + 1];
    }
    NotContainsNoWindow(e, "cameras");
  }

  lemma ComplianceActivityFree(e: string)
    requires e == CompliancePath7Days
    ensures !Contains(e, "activity")
  {
    NotContainsMissingChar(e, "activity", 4);
  }

  /** Offline, the weekly violation trend is an empty list: the query string defeats the
      exact match on "/api/analytics/violations-trend" and the "trend" fallback applies. */
  lemma OfflineViolationsTrendIsEmpty(now: int)
    ensures MockData(ViolationsTrendPath("7days"), now) == JArr([])
  {
    var e := ViolationsTrendPath("7days");
    assert e == TrendPath7Days;
    RangedPathNotExact(e);
    RangedPathLacksH(e);
    RangedPathLacksLogs(e);
    TrendPathWords(e);
    FallbackMocks(e, now);
  }

  /** Offline, the compliance-score trend is an empty object `{}`: the exact match fails
      for the same reason and none of the fallback words occurs in the path. */
  lemma OfflineComplianceScoreIsEmptyObject(now: int)
    ensures MockData(ComplianceScorePath("7days"), now) == JObj([])
  {
    var e := ComplianceScorePath("7days");
    assert e == CompliancePath7Days;
    RangedPathNotExact(e);
    RangedPathLacksH(e);
    RangedPathLacksLogs(e);
    ComplianceTrendFree(e);
    ComplianceStreamFree(e);
    ComplianceCamerasFree(e);
    ComplianceActivityFree(e);
    FallbackMocks(e, now);
  }

  // ---------------------------------------------------------------------------
  // logsAPI.getLogs: the search query string
  // ---------------------------------------------------------------------------

  /** A filter value as the caller passes it: a string, a number or `undefined`. */
  datatype FilterValue = FStr(s: string) | FNum(n: int) | FUndefined

  /** `if (value)`: empty strings, 0 and `undefined` are skipped. */
  predicate IsSent(v: FilterValue) {
    match v
    case FStr(s) => s != ""
    case FNum(n) => n != 0
    case FUndefined => false
  }

  /** The backend's name for a UI filter key. */
  function BackendParamName(key: string): (r: string)
    ensures key == "startDate" ==> r == "start"
    ensures key == "endDate" ==> r == "end"
    ensures key != "startDate" && key != "endDate" ==> r == key
    ensures r != "startDate" && r != "endDate"
  {
    if key == "startDate" then "start" else if key == "endDate" then "end" else key
  }

  /** `String(value)`. */
  function ValueText(v: FilterValue): string {
    match v
    case FStr(s) => s
    case FNum(n) => IntToString(n)
    case FUndefined => "undefined"
  }

  function SendEntry(e: (string, FilterValue)): (string, string) {
    (BackendParamName(e.0), ValueText(e.1))
  }

  /** `p` is the renamed pair of some sent entry. */
  predicate EmittedBy(p: (string, string), entries: seq<(string, FilterValue)>) {
    exists i :: 0 <= i < |entries| && IsSent(entries[i].1) && p == SendEntry(entries[i])
  }

  lemma EmittedByTail(p: (string, string), entries: seq<(string, FilterValue)>)
    requires |entries| > 0 && EmittedBy(p, entries[1..])
    ensures EmittedBy(p, entries)
  {
    var i :| 0 <= i < |entries[1..]| && IsSent(entries[1..][i].1) && p == SendEntry(entries[1..][i]);
    assert entries[1..][i] == entries[i + 1];
  }

  /** The parameters appended, in `Object.entries` order. */
  function SearchParams(entries: seq<(string, FilterValue)>): (r: seq<(string, string)>)
    ensures |r| <= |entries|
    ensures forall j :: 0 <= j < |r| ==> r[j].0 != "startDate" && r[j].0 != "endDate"
    ensures forall j :: 0 <= j < |r| ==> EmittedBy(r[j], entries)
  {
    if |entries| == 0 then []
    else
      var rest := SearchParams(entries[1..]);
      forall j | 0 <= j < |rest| ensures EmittedBy(rest[j], entries) {
        EmittedByTail(rest[j], entries);
      }
      if IsSent(entries[0].1) then
        var r := [SendEntry(entries[0])] + rest;
        assert EmittedBy(r[0], entries);
        assert forall j :: 1 <= j < |r| ==> r[j] == rest[j - 1];
        r
      else rest
  }

  /** Building the parameters distributes over concatenation of the entries, so the
      relative order of the sent entries is kept. */
  lemma {:induction false} SearchParamsAppend(a: seq<(string, FilterValue)>, b: seq<(string, FilterValue)>)
    ensures SearchParams(a + b) == SearchParams(a) + SearchParams(b)
  {
    if |a| > 0 {
      assert (a + b)[1..] == a[1..] + b;
      SearchParamsAppend(a[1..], b);
    } else {
      assert a + b == b;
    }
  }

  /** An entry that is not sent leaves no trace in the query. */
  lemma SkippedEntryInvisible(a: seq<(string, FilterValue)>, e: (string, FilterValue), b: seq<(string, FilterValue)>)
    requires !IsSent(e.1)
    ensures SearchParams(a + [e] + b) == SearchParams(a + b)
  {
    var none: seq<(string, FilterValue)> := [];
    assert [e][1..] == none;
    assert SearchParams([e]) == [];
    SearchParamsAppend(a, [e]);
    assert SearchParams(a + [e]) == SearchParams(a);
    SearchParamsAppend(a + [e], b);
    SearchParamsAppend(a, b);
  }

  /** When every value is sent, each entry yields exactly its renamed pair. */
  lemma {:induction false} AllSentAllEmitted(entries: seq<(string, FilterValue)>)
    requires forall i :: 0 <= i < |entries| ==> IsSent(entries[i].1)
    ensures |SearchParams(entries)| == |entries|
    ensures forall i :: 0 <= i < |entries| ==> SearchParams(entries)[i] == SendEntry(entries[i])
  {
    if |entries| > 0 {
      AllSentAllEmitted(entries[1..]);
    }
  }

  /** `params.toString()` without percent-encoding: `k=v` pairs joined by `&`. */
  function SerializeParams(params: seq<(string, string)>): (r: string)
    ensures |params| == 0 ==> r == ""
  {
    if |params| == 0 then ""
    else if |params| == 1 then params[0].0 + "=" + params[0].1
    else params[0].0 + "=" + params[0].1 + "&" + SerializeParams(params[1..])
  }

  /** The endpoint `logsAPI.getLogs(filters)` requests. */
  function LogsSearchPath(filters: Option<seq<(string, FilterValue)>>): (p: string)
    ensures StartsWith(p, "/api/logs/search?")
    ensures filters.None? ==> p == "/api/logs/search?"
  {
    "/api/logs/search?" + SerializeParams(if filters.Some? then SearchParams(filters.value) else [])
  }

  /** Offline, a log search returns the `/api/logs` payload whatever the filters,
      provided no filter text spells out an earlier-tested path. */
  lemma OfflineSearchIgnoresFilters(filters: Option<seq<(string, FilterValue)>>, now: int)
    requires !Contains(LogsSearchPath(filters), "/api/dashboard/violations")
    requires !Contains(LogsSearchPath(filters), "/api/monitor/stream")
    ensures ApiRequest(LogsSearchPath(filters), now, NetworkFailure) == Resolved(LogsMock(now))
  {
    OfflineSearchPath(LogsSearchPath(filters), now);
  }

  lemma OfflineSearchPath(p: string, now: int)
    requires StartsWith(p, "/api/logs/search?")
    requires !Contains(p, "/api/dashboard/violations") && !Contains(p, "/api/monitor/stream")
    ensures ApiRequest(p, now, NetworkFailure) == Resolved(LogsMock(now))
  {
    assert p[..16] == "/api/logs/search?"[..16];
    StartsWithContains(p, "/api/logs/search");
    SearchPathsGetLogsMock(p, now);
  }

  // ---------------------------------------------------------------------------
  // analyzeVideo
  // ---------------------------------------------------------------------------

  /** A multipart field value: the file blob, `number.toString()`, or `JSON.stringify(list)`. */
  datatype FormValue = FormFile | FormNumber(x: real) | FormJsonList(items: seq<string>)

  /** Some field of the form carries this name. */
  predicate HasField(fields: seq<(string, FormValue)>, name: string) {
    exists i :: 0 <= i < |fields| && fields[i].0 == name
  }

  /** The form `analyzeVideo(file, startTime, endTime?, requiredGear?)` posts. */
  function AnalyzeVideoForm(startTime: real, endTime: Option<real>, requiredGear: Option<seq<string>>): (f: seq<(string, FormValue)>)
    ensures |f| >= 2 && f[0] == ("file", FormFile) && f[1] == ("start_time", FormNumber(startTime))
    ensures HasField(f, "end_time") <==> endTime.Some?
    ensures endTime.Some? ==> f[2] == ("end_time", FormNumber(endTime.value))
    ensures HasField(f, "required_gear") <==> requiredGear.Some? && |requiredGear.value| > 0
    ensures requiredGear.Some? && |requiredGear.value| > 0 ==> f[|f| - 1] == ("required_gear", FormJsonList(requiredGear.value))
  {
    var base := [("file", FormFile), ("start_time", FormNumber(startTime))];
    var withEnd := if endTime.Some? then base + [("end_time", FormNumber(endTime.value))] else base;
    var f := if requiredGear.Some? && |requiredGear.value| > 0 then withEnd + [("required_gear", FormJsonList(requiredGear.value))]
             else withEnd;
    assert endTime.Some? ==> f[2].0 == "end_time";
    assert requiredGear.Some? && |requiredGear.value| > 0 ==> f[|f| - 1].0 == "required_gear";
    assert forall i :: 0 <= i < |f| ==> f[i].0 in {"file", "start_time", "end_time", "required_gear"};
    assert endTime.None? ==> forall i :: 0 <= i < |f| ==> f[i].0 != "end_time";
    assert !(requiredGear.Some? && |requiredGear.value| > 0) ==> forall i :: 0 <= i < |f| ==> f[i].0 != "required_gear";
    f
  }

  /** The outcome of `analyzeVideo`: any failure is rethrown, never replaced by mock data. */
  function AnalyzeVideo(outcome: FetchOutcome): (r: Settled<Json>)
    ensures r.Resolved? <==> outcome.HttpResponse? && outcome.ok && outcome.body.WellFormed?
    ensures r.Resolved? ==> r.value == outcome.body.value
  {
    match outcome
    case NetworkFailure => Rejected
    case HttpResponse(ok, _, body) =>
      if ok && body.WellFormed? then Resolved(body.value) else Rejected
  }

  /** The upload's failure policy differs from `apiRequest`'s: the same unreachable
      backend that yields mock data for a polled endpoint rejects the upload. */
  lemma UploadFailureIsNotMasked(endpoint: string, now: int)
    ensures AnalyzeVideo(NetworkFailure) == Rejected
    ensures ApiRequest(endpoint, now, NetworkFailure).Resolved?
  {
  }

  // ---------------------------------------------------------------------------
  // Status vocabulary
  // ---------------------------------------------------------------------------

  /** The `DetectionLog.status` union the client declares. */
  predicate ClientDeclaredStatus(s: string) {
    s == "SAFE" || s == "VIOLATION"
  }
}

=== FILE: backend.dfy ===
/** The backend's endpoint semantics (backend/main.py) over in-memory state: the
    settings handlers, the live log buffer and its statistics, recorded-video analysis,
    and the list meaning of the log search and the analytics summary. */
module Backend {

  import opened Wrappers
  import opened SafetyEngine
  import Json

  /** The server's globals: the monitor (absent until start-up has created it) and the
      live log buffer `detection_logs`. */
  datatype Server = Server(monitor: Option<Monitor>, liveLogs: seq<PersonRecord>)

  // ---------------------------------------------------------------------------
  // Settings handlers
  // ---------------------------------------------------------------------------

  /** `POST /api/monitor/toggle`: sets the flag when there is a monitor and echoes the
      requested value either way. */
  function ToggleMonitor(s: Server, active: bool): (r: (Server, bool))
    ensures r.1 == active
    ensures r.0.liveLogs == s.liveLogs && r.0.monitor.Some? == s.monitor.Some?
    ensures s.monitor.Some? ==> r.0.monitor.value == SetActive(s.monitor.value, active)
  {
    match s.monitor
    case None => (s, active)
    case Some(m) => (s.(monitor := Some(SetActive(m, active))), active)
  }

  /** `GET /api/monitor/status`. */
  function MonitorStatus(s: Server): (active: bool)
    ensures s.monitor.None? ==> !active
  {
    match s.monitor
    case None => false
    case Some(m) => m.isActive
  }

  /** A toggle is reported back by the status endpoint, unless there is no monitor. */
  lemma ToggleThenStatus(s: Server, active: bool)
    ensures MonitorStatus(ToggleMonitor(s, active).0) == (s.monitor.Some? && active)
  {
  }

  const DefaultThreshold: real := 0.50

  /** `POST /api/settings/threshold`: echoes `new_conf`. */
  function SetThreshold(s: Server, conf: real): (r: (Server, real))
    ensures r.1 == conf
    ensures r.0.liveLogs == s.liveLogs && r.0.monitor.Some? == s.monitor.Some?
    ensures s.monitor.Some? ==> r.0.monitor.value == SetConfidence(s.monitor.value, conf)
  {
    match s.monitor
    case None => (s, conf)
    case Some(m) => (s.(monitor := Some(SetConfidence(m, conf))), conf)
  }

  /** `GET /api/settings/threshold`. */
  function GetThreshold(s: Server): (conf: real)
    ensures s.monitor.None? ==> conf == DefaultThreshold
  {
    match s.monitor
    case None => DefaultThreshold
    case Some(m) => m.generalConf
  }

  /** Setting then reading the threshold gives back the value set. */
  lemma ThresholdRoundTrip(s: Server, conf: real)
    requires s.monitor.Some?
    ensures GetThreshold(SetThreshold(s, conf).0) == conf
  {
  }

  /** Without a monitor, setting has no effect and reading gives the default. */
  lemma ThresholdWithoutMonitor(s: Server, conf: real)
    requires s.monitor.None?
    ensures SetThreshold(s, conf).0 == s && GetThreshold(s) == DefaultThreshold
  {
  }

  /** `POST /api/settings/gear`: echoes the list as sent. */
  function SetGear(s: Server, requirements: seq<string>): (r: (Server, seq<string>))
    ensures r.1 == requirements
    ensures r.0.liveLogs == s.liveLogs && r.0.monitor.Some? == s.monitor.Some?
    ensures s.monitor.Some? ==> r.0.monitor.value == UpdateRequirements(s.monitor.value, requirements)
  {
    match s.monitor
    case None => (s, requirements)
    case Some(m) => (s.(monitor := Some(UpdateRequirements(m, requirements))), requirements)
  }

  /** `GET /api/settings/gear`: the required gear, as a set (the list order of
      `list(set)` is unspecified), or nothing without a monitor. */
  function GetGear(s: Server): (gear: set<string>)
    ensures s.monitor.None? ==> gear == {}
  {
    match s.monitor
    case None => {}
    case Some(m) => m.requiredGear
  }

  /** Gear set-then-get returns the same items, with duplicates removed. */
  lemma GearRoundTrip(s: Server, requirements: seq<string>)
    requires s.monitor.Some?
    ensures forall g :: g in GetGear(SetGear(s, requirements).0) <==> g in requirements
  {
  }

  // ---------------------------------------------------------------------------
  // Live log buffer and statistics
  // ---------------------------------------------------------------------------

  const LiveBufferCap: nat := 50

  /** `GET /api/logs`: the live buffer, newest first. */
  function GetLogs(logs: seq<PersonRecord>): (r: seq<PersonRecord>)
    ensures |r| == |logs|
    ensures forall i :: 0 <= i < |logs| ==> r[i] == logs[|logs| - 1 - i]
  {
    if |logs| == 0 then [] else [logs[|logs| - 1]] + GetLogs(logs[..|logs| - 1])
  }

  /** Reversing twice gives the buffer back. */
  lemma GetLogsInvolution(logs: seq<PersonRecord>)
    ensures GetLogs(GetLogs(logs)) == logs
  {
  }

  /** The buffer after a frame: all new records appended, then at most one of the oldest
      entries dropped if the buffer has grown past 50. */
  function UpdateLiveBuffer(logs: seq<PersonRecord>, data: seq<PersonRecord>): (r: seq<PersonRecord>)
    ensures |data| == 0 ==> r == logs
    ensures |data| > 0 ==> |logs + data| - 1 <= |r| <= |logs + data|
    ensures |data| > 0 ==> (|r| < |logs + data| <==> |logs + data| > LiveBufferCap)
    ensures r == (logs + data)[|logs + data| - |r|..]
  {
    if |data| == 0 then logs
    else
      var extended := logs + data;
      if |extended| > LiveBufferCap then extended[1..] else extended
  }

  /** While each frame yields at most one record, the buffer stays within 50 entries. */
  lemma LiveBufferBoundedForSingleRecords(logs: seq<PersonRecord>, data: seq<PersonRecord>)
    requires |logs| <= LiveBufferCap && |data| <= 1
    ensures |UpdateLiveBuffer(logs, data)| <= LiveBufferCap
  {
  }

  /** Only one entry is dropped per frame, so a frame with two people pushes a full
      buffer past 50. */
  lemma LiveBufferCanExceedCap(logs: seq<PersonRecord>, a: PersonRecord, b: PersonRecord)
    requires |logs| == LiveBufferCap
    ensures |UpdateLiveBuffer(logs, [a, b])| == LiveBufferCap + 1
  {
  }

  /** One live-feed frame: process it and update the buffer. Without a monitor the call
      raises inside the stream's `try` and the frame is skipped with nothing changed. */
  function LiveFrame(s: Server, inf: FrameInference, timestamp: int): (r: Server)
    ensures s.monitor.None? ==> r == s
    ensures s.monitor.Some? ==> r.monitor == Some(ProcessFrame(s.monitor.value, inf, timestamp).0)
    ensures s.monitor.Some? ==> r.liveLogs == UpdateLiveBuffer(s.liveLogs, ProcessFrame(s.monitor.value, inf, timestamp).1)
  {
    match s.monitor
    case None => s
    case Some(m) =>
      var (m1, data) := ProcessFrame(m, inf, timestamp);
      Server(Some(m1), UpdateLiveBuffer(s.liveLogs, data))
  }

  /** While monitoring is paused the live feed leaves the whole server state as it was. */
  lemma PausedFeedChangesNothing(s: Server, inf: FrameInference, timestamp: int)
    requires s.monitor.Some? && !s.monitor.value.isActive
    ensures LiveFrame(s, inf, timestamp) == s
  {
  }

  function CountViolations(logs: seq<PersonRecord>): (n: nat)
    ensures n <= |logs|
  {
    if |logs| == 0 then 0
    else CountViolations(logs[..|logs| - 1]) + (if logs[|logs| - 1].status == "VIOLATION" then 1 else 0)
  }

  /** The count is zero exactly when no entry is a violation, and full exactly when
      every entry is. */
  lemma {:induction false} CountViolationsExtremes(logs: seq<PersonRecord>)
    ensures CountViolations(logs) == 0 <==> forall i :: 0 <= i < |logs| ==> logs[i].status != "VIOLATION"
    ensures CountViolations(logs) == |logs| <==> forall i :: 0 <= i < |logs| ==> logs[i].status == "VIOLATION"
  {
    if |logs| > 0 {
      var init := logs[..|logs| - 1];
      CountViolationsExtremes(init);
      assert forall i :: 0 <= i < |init| ==> init[i] == logs[i];
    }
  }

  /** `GET /api/stats`, before `round(..., 1)`. */
  datatype Stats = Stats(totalViolations: nat, complianceRate: real)

  /** The last 50 entries (all of them if fewer). */
  function RecentWindow(logs: seq<PersonRecord>): (w: seq<PersonRecord>)
    ensures |w| == if |logs| <= LiveBufferCap then |logs| else LiveBufferCap
    ensures w == logs[|logs| - |w|..]
  {
    if |logs| <= LiveBufferCap then logs else logs[|logs| - LiveBufferCap..]
  }

  /** The percentage of compliant entries, `(total - violations) / total * 100`. */
  function CompliantPercent(violations: nat, total: nat): (rate: real)
    requires 0 < total && violations <= total
    ensures rate * total as real == (total - violations) as real * 100.0
    ensures 0.0 <= rate <= 100.0
    ensures rate == 100.0 <==> violations == 0
    ensures rate == 0.0 <==> violations == total
  {
    var ok := (total - violations) as real;
    var x := ok / total as real;
    RatioBounds(ok, total as real);
    x * 100.0
  }

  /** A ratio of a part to a positive whole lies in [0, 1] and reaches 1 exactly at the whole. */
  lemma RatioBounds(part: real, whole: real)
    requires 0.0 < whole && 0.0 <= part <= whole
    ensures 0.0 <= part / whole <= 1.0
    ensures part / whole == 1.0 <==> part == whole
    ensures part / whole == 0.0 <==> part == 0.0
  {
    var x := part / whole;
    assert x * whole == part;
    if part == whole {
      assert x == 1.0;
    }
    if x == 1.0 {
      assert part == whole;
    }
  }

  /** `GET /api/stats`: counts over the last 50 entries; the rate is before rounding. */
  function GetStats(logs: seq<PersonRecord>): (st: Stats)
    ensures |logs| == 0 ==> st == Stats(0, 100.0)
    ensures st.totalViolations == CountViolations(RecentWindow(logs))
    ensures |logs| > 0 ==>
      st.complianceRate * |RecentWindow(logs)| as real == (|RecentWindow(logs)| - st.totalViolations) as real * 100.0
    ensures st.totalViolations <= |RecentWindow(logs)| <= LiveBufferCap
    ensures 0.0 <= st.complianceRate <= 100.0
  {
    if |logs| == 0 then Stats(0, 100.0)
    else
      var recent := RecentWindow(logs);
      var violations := CountViolations(recent);
      Stats(violations, CompliantPercent(violations, |recent|))
  }

  /** The rate is 100 exactly when the window holds no violation and 0 exactly when
      every entry of a non-empty window is one. */
  lemma StatsRateMeaning(logs: seq<PersonRecord>)
    ensures GetStats(logs).complianceRate == 100.0 <==> forall i :: 0 <= i < |RecentWindow(logs)| ==> RecentWindow(logs)[i].status != "VIOLATION"
    ensures |logs| > 0 ==> (GetStats(logs).complianceRate == 0.0 <==> forall i :: 0 <= i < |RecentWindow(logs)| ==> RecentWindow(logs)[i].status == "VIOLATION")
    ensures GetStats(logs).totalViolations == CountViolations(RecentWindow(logs))
  {
    CountViolationsExtremes(RecentWindow(logs));
  }

  // ---------------------------------------------------------------------------
  // Recorded-video analysis
  // ---------------------------------------------------------------------------

  /** One frame of the uploaded video: what the models return for it, and the time the
      records get. */
  datatype VideoFrame = VideoFrame(inf: FrameInference, timestamp: int)

  /** The reference: the monitor and the records after processing `frames` in order. */
  function RunFrames(m: Monitor, frames: seq<VideoFrame>): (r: (Monitor, seq<PersonRecord>))
    ensures r.0.generalConf == m.generalConf && r.0.requiredGear == m.requiredGear && r.0.isActive == m.isActive
  {
    if |frames| == 0 then (m, [])
    else
      var (m1, recs) := RunFrames(m, frames[..|frames| - 1]);
      var f := frames[|frames| - 1];
      var (m2, data) := ProcessFrame(m1, f.inf, f.timestamp);
      (m2, recs + data)
  }

  /** What `/analyze_video` answers. */
  datatype VideoResult =
    | VideoComplete(totalFrames: nat, logs: seq<PersonRecord>)
    | WriterError
    | NoMonitor

  const MaxReturnedLogs: nat := 50

  /** `/analyze_video`. `writerRaises` abstracts an exception from building the video
      writer (answered with an error status before the monitor is touched); a writer that
      merely fails to open falls back to the mp4v codec and the request goes on. Without a
      monitor the handler raises and the request fails. Otherwise the monitor is forced
      active for the duration and its flag restored at the end. */
  method AnalyzeVideo(s: Server, writerRaises: bool, frames: seq<VideoFrame>) returns (s': Server, r: VideoResult)
    ensures writerRaises ==> s' == s && r == WriterError
    ensures !writerRaises && s.monitor.None? ==> s' == s && r == NoMonitor
    ensures r.VideoComplete? ==> s.monitor.Some? && s'.monitor.Some?
    ensures !writerRaises && s.monitor.Some? ==> r.VideoComplete?
    ensures r.VideoComplete? ==>
      var run := RunFrames(SetActive(s.monitor.value, true), frames);
      && r.totalFrames == |frames|
      && |r.logs| <= MaxReturnedLogs
      && |r.logs| <= |run.1|
      && r.logs == run.1[..|r.logs|]
      && (|run.1| <= MaxReturnedLogs ==> r.logs == run.1)
      && s'.monitor.value == SetActive(run.0, s.monitor.value.isActive)
    ensures s'.liveLogs == s.liveLogs
  {
    if writerRaises {
      return s, WriterError;
    }
    if s.monitor.None? {
      return s, NoMonitor;
    }
    var m0 := s.monitor.value;
    var wasActive := m0.isActive;
    var m := SetActive(m0, true);
    var results: seq<PersonRecord> := [];
    var frameCount := 0;
    while frameCount < |frames|
      invariant 0 <= frameCount <= |frames|
      invariant (m, results) == RunFrames(SetActive(m0, true), frames[..frameCount])
    {
      var f := frames[frameCount];
      assert frames[..frameCount + 1][..frameCount] == frames[..frameCount];
      var step := ProcessFrame(m, f.inf, f.timestamp);
      m := step.0;
      results := results + step.1;
      frameCount := frameCount + 1;
    }
    assert frames[..frameCount] == frames;
    m := SetActive(m, wasActive);
    s' := s.(monitor := Some(m));
    var n := if |results| <= MaxReturnedLogs then |results| else MaxReturnedLogs;
    r := VideoComplete(frameCount, results[..n]);
  }

  /** Analysis leaves the monitor's flag and settings as they were before the upload. */
  lemma AnalysisRestoresFlag(m: Monitor, frames: seq<VideoFrame>)
    ensures var after := SetActive(RunFrames(SetActive(m, true), frames).0, m.isActive);
      after.isActive == m.isActive && after.generalConf == m.generalConf && after.requiredGear == m.requiredGear
  {
  }

  /** Every uploaded frame is processed with monitoring on, even if the live monitor
      was paused: the records are those of an active monitor. */
  lemma {:induction false} AnalysisFramesAreActive(m: Monitor, frames: seq<VideoFrame>)
    ensures RunFrames(SetActive(m, true), frames).0.isActive
    ensures RunFrames(SetActive(m, true), frames).0.frameCount == m.frameCount + |frames|
  {
    if |frames| > 0 {
      AnalysisFramesAreActive(m, frames[..|frames| - 1]);
    }
  }

  // ---------------------------------------------------------------------------
  // Stored logs: search and summary
  // ---------------------------------------------------------------------------

  /** A row of the `logs` table. Timestamps are integers; ISO parsing is not modelled. */
  datatype DbLog = DbLog(id: int, personId: int, timestamp: int, detected: seq<string>,
                         missing: seq<string>, source: string, confidence: Option<real>)

  /** A row of `/api/logs/search` as the endpoint serialises it: the seven columns
      under their backend names, the timestamp as an ISO string and a missing
      confidence as `null`. */
  function SearchRowJson(l: DbLog): Json.Json {
    Json.JObj([
      ("id", Json.JNum(l.id as real)),
      ("person_id", Json.JNum(l.personId as real)),
      ("timestamp", Json.JTime(l.timestamp)),
      ("detected", Json.JArr(seq(|l.detected|, i requires 0 <= i < |l.detected| => Json.JStr(l.detected[i])))),
      ("missing", Json.JArr(seq(|l.missing|, i requires 0 <= i < |l.missing| => Json.JStr(l.missing[i])))),
      ("source", Json.JStr(l.source)),
      ("confidence", if l.confidence.Some? then Json.JNum(l.confidence.value) else Json.JNull)])
  }

  /** The query parameters of `/api/logs/search`. An empty `start`, `end` or
      `equipment` string is falsy and so ignored, like an absent one. */
  datatype SearchQuery = SearchQuery(personId: Option<int>, start: Option<int>, end: Option<int>, equipment: Option<string>)

  predicate Matches(q: SearchQuery, l: DbLog) {
    && (q.personId.Some? ==> l.personId == q.personId.value)
    && (q.start.Some? ==> l.timestamp >= q.start.value)
    && (q.end.Some? ==> l.timestamp <= q.end.value)
    && (q.equipment.Some? && q.equipment.value != "" ==> q.equipment.value in l.detected || q.equipment.value in l.missing)
  }

  function FilterLogs(q: SearchQuery, logs: seq<DbLog>): (r: seq<DbLog>)
    ensures forall l :: l in r ==> Matches(q, l)
    ensures multiset(r) <= multiset(logs)
    ensures forall l :: l in logs && Matches(q, l) ==> l in r
  {
    if |logs| == 0 then []
    else
      var rest := FilterLogs(q, logs[1..]);
      assert logs == [logs[0]] + logs[1..];
      if Matches(q, logs[0]) then [logs[0]] + rest else rest
  }

  predicate SortedDesc(xs: seq<DbLog>) {
    forall i, j :: 0 <= i < j < |xs| ==> xs[i].timestamp >= xs[j].timestamp
  }

  /** Insert into a newest-first list, before the first entry that is not newer. */
  function InsertDesc(x: DbLog, xs: seq<DbLog>): (r: seq<DbLog>)
    requires SortedDesc(xs)
    ensures SortedDesc(r)
    ensures multiset(r) == multiset(xs) + multiset{x}
  {
    if |xs| == 0 then [x]
    else if x.timestamp >= xs[0].timestamp then [x] + xs
    else
      var rest := InsertDesc(x, xs[1..]);
      assert xs == [xs[0]] + xs[1..];
      forall k | 0 <= k < |rest| ensures rest[k].timestamp <= xs[0].timestamp {
        assert rest[k] in multiset(rest);
        if rest[k] != x {
          assert rest[k] in xs[1..];
        }
      }
      ConsSortedDesc(xs[0], rest);
      [xs[0]] + rest
  }

  /** An entry at least as new as every entry of a newest-first list can lead it. */
  lemma ConsSortedDesc(y: DbLog, ys: seq<DbLog>)
    requires SortedDesc(ys)
    requires forall k :: 0 <= k < |ys| ==> ys[k].timestamp <= y.timestamp
    ensures SortedDesc([y] + ys)
  {
  }

  /** `ORDER BY timestamp DESC`: a newest-first permutation (the order of equal
      timestamps is unspecified in SQL; this one is a particular choice). */
  function SortDesc(xs: seq<DbLog>): (r: seq<DbLog>)
    ensures SortedDesc(r)
    ensures multiset(r) == multiset(xs)
  {
    if |xs| == 0 then []
    else
      assert xs == [xs[0]] + xs[1..];
      InsertDesc(xs[0], SortDesc(xs[1..]))
  }

  const SearchLimit: nat := 200

  lemma TakeMultiset(xs: seq<DbLog>, n: nat)
    requires n <= |xs|
    ensures multiset(xs) == multiset(xs[..n]) + multiset(xs[n..])
  {
    assert xs == xs[..n] + xs[n..];
  }

  /** `/api/logs/search`: matching rows, newest first, at most 200. */
  function SearchLogs(q: SearchQuery, logs: seq<DbLog>): (r: seq<DbLog>)
    ensures |r| == if |FilterLogs(q, logs)| <= SearchLimit then |FilterLogs(q, logs)| else SearchLimit
    ensures |r| <= SearchLimit
    ensures SortedDesc(r)
    ensures forall l :: l in r ==> Matches(q, l)
    ensures multiset(r) <= multiset(logs)
  {
    var matching := FilterLogs(q, logs);
    var sorted := SortDesc(matching);
    assert |sorted| == |matching| by {
      assert |multiset(sorted)| == |multiset(matching)|;
    }
    var n := if |sorted| <= SearchLimit then |sorted| else SearchLimit;
    var r := sorted[..n];
    TakeMultiset(sorted, n);
    assert multiset(r) <= multiset(matching);
    forall l | l in r ensures Matches(q, l) {
      assert l in multiset(r);
      assert l in multiset(matching);
    }
    r
  }

  /** When at most 200 rows match, the search returns all of them. */
  lemma SearchComplete(q: SearchQuery, logs: seq<DbLog>)
    requires |FilterLogs(q, logs)| <= SearchLimit
    ensures multiset(SearchLogs(q, logs)) == multiset(FilterLogs(q, logs))
  {
    var sorted := SortDesc(FilterLogs(q, logs));
    assert |sorted| == |FilterLogs(q, logs)| by {
      assert |multiset(sorted)| == |multiset(FilterLogs(q, logs))|;
    }
    assert sorted[..|sorted|] == sorted;
  }

  /** In a newest-first list, everything after position `n` is no newer than anything
      before it. */
  lemma SortedSplit(xs: seq<DbLog>, n: nat, kept: DbLog, dropped: DbLog)
    requires SortedDesc(xs) && n <= |xs|
    requires kept in xs[..n] && dropped in multiset(xs[n..])
    ensures dropped.timestamp <= kept.timestamp
  {
    var i :| 0 <= i < n && xs[..n][i] == kept;
    var j :| 0 <= j < |xs[n..]| && xs[n..][j] == dropped;
    assert xs[i] == kept && xs[n + j] == dropped;
  }

  /** The rows the limit cuts off are never newer than a row it keeps. */
  lemma SearchKeepsNewest(q: SearchQuery, logs: seq<DbLog>, kept: DbLog, dropped: DbLog)
    requires kept in SearchLogs(q, logs)
    requires dropped in multiset(FilterLogs(q, logs)) - multiset(SearchLogs(q, logs))
    ensures dropped.timestamp <= kept.timestamp
  {
    var sorted := SortDesc(FilterLogs(q, logs));
    var n := if |sorted| <= SearchLimit then |sorted| else SearchLimit;
    assert SearchLogs(q, logs) == sorted[..n];
    TakeMultiset(sorted, n);
    assert dropped in multiset(sorted[n..]);
    SortedSplit(sorted, n, kept, dropped);
  }

  /** How often `k` occurs in `xs`. */
  function CountIn(xs: seq<string>, k: string): nat {
    if |xs| == 0 then 0 else CountIn(xs[..|xs| - 1], k) + (if xs[|xs| - 1] == k then 1 else 0)
  }

  /** How often `k` occurs across all the lists: the reference count. */
  function Occurrences(lists: seq<seq<string>>, k: string): nat {
    if |lists| == 0 then 0 else Occurrences(lists[..|lists| - 1], k) + CountIn(lists[|lists| - 1], k)
  }

  function Get(m: map<string, nat>, k: string): nat {
    if k in m then m[k] else 0
  }

  /** Add one to the count of every item of `xs`. */
  function AddItems(m: map<string, nat>, xs: seq<string>): (r: map<string, nat>)
    ensures forall k :: k in r <==> k in m || CountIn(xs, k) > 0
    ensures forall k :: Get(r, k) == Get(m, k) + CountIn(xs, k)
  {
    if |xs| == 0 then m
    else
      var r0 := AddItems(m, xs[..|xs| - 1]);
      var x := xs[|xs| - 1];
      r0[x := Get(r0, x) + 1]
  }

  /** `GROUP BY value` over `json_each(...)`: item to number of occurrences. */
  function Tally(lists: seq<seq<string>>): (r: map<string, nat>)
    ensures forall k :: k in r <==> Occurrences(lists, k) > 0
    ensures forall k :: k in r ==> r[k] == Occurrences(lists, k)
  {
    if |lists| == 0 then map[]
    else
      var r0 := Tally(lists[..|lists| - 1]);
      var r := AddItems(r0, lists[|lists| - 1]);
      assert forall k :: Get(r, k) == Occurrences(lists, k);
      r
  }

  function DetectedLists(logs: seq<DbLog>): (r: seq<seq<string>>)
    ensures |r| == |logs| && forall i :: 0 <= i < |logs| ==> r[i] == logs[i].detected
  {
    seq(|logs|, i requires 0 <= i < |logs| => logs[i].detected)
  }

  function MissingLists(logs: seq<DbLog>): (r: seq<seq<string>>)
    ensures |r| == |logs| && forall i :: 0 <= i < |logs| ==> r[i] == logs[i].missing
  {
    seq(|logs|, i requires 0 <= i < |logs| => logs[i].missing)
  }

  /** `/api/analytics/summary`: per item, how often it was detected and how often it
      was missing, across every stored log. */
  function AnalyticsSummary(logs: seq<DbLog>): (r: (map<string, nat>, map<string, nat>))
    ensures forall k :: k in r.0 <==> Occurrences(DetectedLists(logs), k) > 0
    ensures forall k :: k in r.0 ==> r.0[k] == Occurrences(DetectedLists(logs), k)
    ensures forall k :: k in r.1 <==> Occurrences(MissingLists(logs), k) > 0
    ensures forall k :: k in r.1 ==> r.1[k] == Occurrences(MissingLists(logs), k)
  {
    (Tally(DetectedLists(logs)), Tally(MissingLists(logs)))
  }

  /** Adding a log adds its items to the counts and leaves every other count alone. */
  lemma SummaryOfAppendedLog(logs: seq<DbLog>, l: DbLog, k: string)
    ensures Get(AnalyticsSummary(logs + [l]).0, k) == Get(AnalyticsSummary(logs).0, k) + CountIn(l.detected, k)
    ensures Get(AnalyticsSummary(logs + [l]).1, k) == Get(AnalyticsSummary(logs).1, k) + CountIn(l.missing, k)
  {
    assert DetectedLists(logs + [l])[..|logs|] == DetectedLists(logs);
    assert MissingLists(logs + [l])[..|logs|] == MissingLists(logs);
  }
}

=== FILE: detection_logs.dfy ===
/** The live detection-log panel: relative timestamps, the missing-gear line,
    the fetch of logs and stats, and the polling interval tied to the monitor
    switch. */
module DetectionLogs {

  import opened Wrappers
  import opened Text
  import opened Json
  import opened ApiClient
  import SafetyEngine

  // ---------------------------------------------------------------------------
  // Relative timestamps
  // ---------------------------------------------------------------------------

  /** `Math.floor((now - then) / 1000)`: whole seconds elapsed, rounded down (also for
      a timestamp in the future). */
  function DiffSeconds(nowMs: int, atMs: int): (s: int)
    ensures s * 1000 <= nowMs - atMs < (s + 1) * 1000
  {
    (nowMs - atMs) / 1000
  }

  /** Which phrase `formatTimestamp` picks. `Older` stands for `toLocaleString()`. */
  datatype Elapsed = SecondsAgo(n: int) | MinutesAgo(m: nat) | HoursAgo(h: nat) | Older

  /** `formatTimestamp(iso)` for a timestamp `atMs` read at `nowMs`. */
  function FormatTimestamp(nowMs: int, atMs: int): (e: Elapsed)
    ensures e.SecondsAgo? <==> DiffSeconds(nowMs, atMs) < 60
    ensures e.SecondsAgo? ==> e.n == DiffSeconds(nowMs, atMs)
    ensures e.MinutesAgo? <==> 60 <= DiffSeconds(nowMs, atMs) < 3600
    ensures e.MinutesAgo? ==> 1 <= e.m < 60 && e.m * 60 <= DiffSeconds(nowMs, atMs) < (e.m + 1) * 60
    ensures e.HoursAgo? <==> 3600 <= DiffSeconds(nowMs, atMs) < 86400
    ensures e.HoursAgo? ==> 1 <= e.h < 24 && e.h * 3600 <= DiffSeconds(nowMs, atMs) < (e.h + 1) * 3600
    ensures e.Older? <==> 86400 <= DiffSeconds(nowMs, atMs)
  {
    var s := DiffSeconds(nowMs, atMs);
    if s < 60 then SecondsAgo(s)
    else if s < 3600 then MinutesAgo(s / 60)
    else if s < 86400 then HoursAgo(s / 3600)
    else Older
  }

  /** The text shown for the first three phrases, e.g. "5m ago". */
  function ElapsedText(e: Elapsed): (t: Option<string>)
    ensures t.None? <==> e.Older?
  {
    match e
    case SecondsAgo(n) => Some(IntToString(n) + "s ago")
    case MinutesAgo(m) => Some(NatToString(m) + "m ago")
    case HoursAgo(h) => Some(NatToString(h) + "h ago")
    case Older => None
  }

  /** The order of the phrases, from most recent to oldest. */
  function Rank(e: Elapsed): nat {
    match e
    case SecondsAgo(_) => 0
    case MinutesAgo(_) => 1
    case HoursAgo(_) => 2
    case Older => 3
  }

  /** As the clock advances the phrase for a fixed timestamp only gets coarser, and
      within a unit the count never goes down. */
  lemma FormatTimestampMonotone(now1: int, now2: int, atMs: int)
    requires now1 <= now2
    ensures Rank(FormatTimestamp(now1, atMs)) <= Rank(FormatTimestamp(now2, atMs))
    ensures FormatTimestamp(now1, atMs).MinutesAgo? && FormatTimestamp(now2, atMs).MinutesAgo? ==>
      FormatTimestamp(now1, atMs).m <= FormatTimestamp(now2, atMs).m
    ensures FormatTimestamp(now1, atMs).HoursAgo? && FormatTimestamp(now2, atMs).HoursAgo? ==>
      FormatTimestamp(now1, atMs).h <= FormatTimestamp(now2, atMs).h
  {
    var s1 := DiffSeconds(now1, atMs);
    var s2 := DiffSeconds(now2, atMs);
    assert s1 <= s2;
  }

  // ---------------------------------------------------------------------------
  // Missing-gear line
  // ---------------------------------------------------------------------------

  const AllPresentText: string := "All PPE present"

  /** `formatMissingGear(missing)`; `None` is an absent list. */
  function FormatMissingGear(missing: Option<seq<string>>): (t: string)
    ensures (missing.None? || |missing.value| == 0) ==> t == AllPresentText
    ensures missing.Some? && |missing.value| > 0 ==> StartsWith(t, "Missing: ")
  {
    if missing.None? || |missing.value| == 0 then AllPresentText
    else "Missing: " + Join(missing.value, ", ")
  }

  /** The line reads "All PPE present" exactly when nothing is missing, and otherwise
      names every missing item. */
  lemma MissingGearLineMeaning(missing: Option<seq<string>>)
    ensures FormatMissingGear(missing) == AllPresentText <==> (missing.None? || |missing.value| == 0)
    ensures missing.Some? ==> forall k :: 0 <= k < |missing.value| ==> Contains(FormatMissingGear(missing), missing.value[k])
  {
    if missing.Some? && |missing.value| > 0 {
      var t := FormatMissingGear(missing);
      assert t[0] == 'M' && AllPresentText[0] == 'A';
      forall k | 0 <= k < |missing.value| ensures Contains(t, missing.value[k]) {
        JoinContainsItems(missing.value, ", ", k);
        ContainsInContext("Missing: ", Join(missing.value, ", "), "", missing.value[k]);
        assert "Missing: " + Join(missing.value, ", ") + "" == t;
      }
    }
  }

  // ---------------------------------------------------------------------------
  // Fetching
  // ---------------------------------------------------------------------------

  datatype Panel = Panel(logs: Json, stats: Json, isLoading: bool)

  /** Before the first answer: no logs, zero violations, 100% compliance. */
  const InitialPanel: Panel := Panel(JArr([]), JObj([("total_violations", JNum(0.0)), ("compliance_rate", JNum(100.0))]), true)

  /** `fetchLogs()` once `Promise.all([getLogs(), getStats()])` has settled: both are
      replaced when both resolve (`logsData.logs || []`), nothing but the spinner
      changes when either rejects or when the logs body is `null` (reading `.logs`
      of `null` throws into the same catch before either setter runs). */
  function FetchLogs(p: Panel, logs: Settled<Json>, stats: Settled<Json>): (r: Panel)
    ensures !r.isLoading
    ensures (logs.Rejected? || stats.Rejected?) ==> r == p.(isLoading := false)
    ensures logs.Resolved? && logs.value == JNull ==> r == p.(isLoading := false)
    ensures logs.Resolved? && stats.Resolved? && logs.value != JNull ==> r.stats == stats.value
    ensures logs.Resolved? && stats.Resolved? && logs.value != JNull ==>
      (if HasTruthyField(logs.value, "logs") then Some(r.logs) == Field(logs.value, "logs") else r.logs == JArr([]))
  {
    if logs.Rejected? || stats.Rejected? || logs.value == JNull then p.(isLoading := false)
    else
      var shown := if HasTruthyField(logs.value, "logs") then Field(logs.value, "logs").value else JArr([]);
      Panel(shown, stats.value, false)
  }

  lemma OfflineStatsRequest(now: int)
    ensures ApiRequest("/api/stats", now, NetworkFailure) == Resolved(StatsMock)
  {
  }

  lemma OfflineLogsRequest(now: int)
    ensures ApiRequest("/api/logs", now, NetworkFailure) == Resolved(LogsMock(now))
  {
    LogsPathMock(now);
  }

  /** With the backend unreachable the panel shows the three canned logs and the canned
      stats. */
  lemma OfflinePanel(p: Panel, now: int)
    ensures FetchLogs(p, ApiRequest("/api/logs", now, NetworkFailure), ApiRequest("/api/stats", now, NetworkFailure))
            == Panel(JArr(MockLogs(now)), StatsMock, false)
  {
    OfflineLogsRequest(now);
    OfflineStatsRequest(now);
    LogsPageField(JArr(MockLogs(now)), Num(127.0), Num(1.0));
  }

  // ---------------------------------------------------------------------------
  // Polling
  // ---------------------------------------------------------------------------

  /** The interval bookkeeping of the effect: the id held in `intervalRef` and the
      intervals actually running. */
  datatype Poller = Poller(intervalRef: Option<nat>, running: set<nat>)

  /** One run of the effect: one immediate fetch, plus a repeating interval (given a
      fresh id) only while monitoring is active. The result's second component counts
      the fetches started now. */
  function EffectRun(p: Poller, isMonitorActive: bool, freshId: nat): (r: (Poller, nat))
    requires freshId !in p.running
    ensures r.1 == 1
    ensures isMonitorActive ==> r.0.intervalRef == Some(freshId) && r.0.running == p.running + {freshId}
    ensures !isMonitorActive ==> r.0 == p
  {
    if isMonitorActive then (Poller(Some(freshId), p.running + {freshId}), 1) else (p, 1)
  }

  /** The effect's cleanup: clears the interval `intervalRef` holds, if any. The ref is
      not reset, so a later cleanup clears the same (already stopped) id again. */
  function Cleanup(p: Poller): (r: Poller)
    ensures r.intervalRef == p.intervalRef
    ensures p.intervalRef.Some? ==> r.running == p.running - {p.intervalRef.value}
    ensures p.intervalRef.None? ==> r.running == p.running
  {
    match p.intervalRef
    case Some(id) => Poller(p.intervalRef, p.running - {id})
    case None => p
  }

  /** Every interval still running is the one `intervalRef` names. */
  predicate Tidy(p: Poller) {
    p.running == {} || (p.intervalRef.Some? && p.running == {p.intervalRef.value})
  }

  /** Between effect runs nothing is left running, and an effect run started from that
      state leaves at most the one interval it created, which its cleanup stops. */
  lemma PollingNeverLeaks(p: Poller, isMonitorActive: bool, freshId: nat)
    requires p.running == {}
    ensures Tidy(EffectRun(p, isMonitorActive, freshId).0)
    ensures (EffectRun(p, isMonitorActive, freshId).0.running != {}) <==> isMonitorActive
    ensures Cleanup(EffectRun(p, isMonitorActive, freshId).0).running == {}
  {
  }

  // ---------------------------------------------------------------------------
  // Status vocabulary
  // ---------------------------------------------------------------------------

  /** A row is styled as a violation exactly when its status is "VIOLATION". */
  predicate ShowsAsViolation(status: string) {
    status == "VIOLATION"
  }

  /** Records from the compliance engine carry "VIOLATION" or "COMPLIANT"; the client's
      declared union is "SAFE" | "VIOLATION". So every compliant record arrives with a
      status outside the declared type, and it is styled as compliant only because the
      panel tests for "VIOLATION" and treats everything else alike. */
  lemma BackendStatusVocabulary(required: set<string>, pose: Option<SafetyEngine.PoseData>,
                                equip: seq<SafetyEngine.Equip>, timestamp: int, i: nat)
    requires pose.Some? && i < |SafetyEngine.ComputeCompliance(required, pose, equip, timestamp)|
    ensures var r := SafetyEngine.ComputeCompliance(required, pose, equip, timestamp)[i];
      && (r.status == "VIOLATION" || r.status == "COMPLIANT")
      && (ShowsAsViolation(r.status) <==> r.missing != {})
      && (r.status == "COMPLIANT" ==> !ClientDeclaredStatus(r.status))
  {
    SafetyEngine.RecordMeaning(required, pose, equip, timestamp, i);
  }
}

=== FILE: json.dfy ===
/** JSON values as the client receives them from `response.json()` or builds them
    as mock payloads, together with JavaScript's truthiness rule. */
module Json {

  import opened Wrappers

  /** A JSON value. `JTime(ms)` stands for the ISO-8601 string that
      `new Date(ms).toISOString()` produces; its characters are not modelled. */
  datatype Json =
    | JNull
    | JBool(b: bool)
    | JNum(n: real)
    | JStr(s: string)
    | JTime(ms: int)
    | JArr(items: seq<Json>)
    | JObj(fields: seq<(string, Json)>)

  /** JavaScript truthiness: `null`, `false`, `0` and `""` are falsy; every array and
      object (even an empty one) is truthy. */
  predicate Truthy(j: Json) {
    match j
    case JNull => false
    case JBool(b) => b
    case JNum(n) => n != 0.0
    case JStr(s) => s != ""
    case JTime(_) => true
    case JArr(_) => true
    case JObj(_) => true
  }

  /** Property access `obj.key` on a parsed object: the last field of that name wins,
      as `JSON.parse` keeps the last duplicate. `None` is `undefined`. */
  function Field(j: Json, key: string): (r: Option<Json>)
    ensures r.Some? ==> j.JObj? && (key, r.value) in j.fields
    ensures j.JObj? && (forall i :: 0 <= i < |j.fields| ==> j.fields[i].0 != key) ==> r.None?
  {
    match j
    case JObj(fields) => LastField(fields, key)
    case _ => None
  }

  function LastField(fields: seq<(string, Json)>, key: string): (r: Option<Json>)
    ensures r.Some? ==> (key, r.value) in fields
    ensures r.Some? <==> exists i :: 0 <= i < |fields| && fields[i].0 == key
  {
    if |fields| == 0 then None
    else if fields[|fields| - 1].0 == key then Some(fields[|fields| - 1].1)
    else LastField(fields[..|fields| - 1], key)
  }

  /** `obj.key` followed by a truthiness test, as in `result && result.missing`. */
  predicate HasTruthyField(j: Json, key: string) {
    Field(j, key).Some? && Truthy(Field(j, key).value)
  }
}

=== FILE: live_feed.dfy ===
/** The live-feed card: the loading and error flags of the MJPEG image, the
    cache-busting key, and which of image, error panel and paused overlay shows. */
module LiveFeed {

  import opened Wrappers
  import opened Text
  import opened ApiClient

  /** `feedKey` is the `Date.now()` stamp of the last refresh. */
  datatype Feed = Feed(isLoading: bool, hasError: bool, feedKey: int, isFullscreen: bool)

  /** The card as mounted at time `now`: connecting, no error. */
  function InitialFeed(now: int): (f: Feed)
    ensures f.isLoading && !f.hasError && f.feedKey == now && !f.isFullscreen
  {
    Feed(true, false, now, false)
  }

  /** `handleRefresh()` at time `now`: connecting again, error cleared, new key. */
  function Refresh(f: Feed, now: int): (r: Feed)
    ensures r.isLoading && !r.hasError && r.feedKey == now && r.isFullscreen == f.isFullscreen
  {
    f.(isLoading := true, hasError := false, feedKey := now)
  }

  /** `handleImageLoad()`. */
  function ImageLoaded(f: Feed): (r: Feed)
    ensures !r.isLoading && !r.hasError && r.feedKey == f.feedKey && r.isFullscreen == f.isFullscreen
  {
    f.(isLoading := false, hasError := false)
  }

  /** `handleImageError()`. */
  function ImageFailed(f: Feed): (r: Feed)
    ensures !r.isLoading && r.hasError && r.feedKey == f.feedKey && r.isFullscreen == f.isFullscreen
  {
    f.(isLoading := false, hasError := true)
  }

  datatype FeedEvent = RefreshAt(now: int) | Load | LoadError | ToggleFullscreen

  function Step(f: Feed, e: FeedEvent): Feed {
    match e
    case RefreshAt(now) => Refresh(f, now)
    case Load => ImageLoaded(f)
    case LoadError => ImageFailed(f)
    case ToggleFullscreen => f.(isFullscreen := !f.isFullscreen)
  }

  function Run(f: Feed, events: seq<FeedEvent>): Feed
    decreases |events|
  {
    if |events| == 0 then f else Run(Step(f, events[0]), events[1..])
  }

  /** The spinner and the error panel are never shown together. */
  predicate Consistent(f: Feed) {
    !(f.isLoading && f.hasError)
  }

  /** From the mounted state, no sequence of refreshes, loads, errors and fullscreen
      toggles reaches a state that is both loading and failed. */
  lemma {:induction false} NeverLoadingAndFailed(f: Feed, events: seq<FeedEvent>)
    requires Consistent(f)
    ensures Consistent(Run(f, events))
    decreases |events|
  {
    if |events| > 0 {
      NeverLoadingAndFailed(Step(f, events[0]), events[1..]);
    }
  }

  lemma MountedCardConsistent(now: int, events: seq<FeedEvent>)
    ensures Consistent(Run(InitialFeed(now), events))
  {
    NeverLoadingAndFailed(InitialFeed(now), events);
  }

  /** The card calls `getVideoFeedUrl()` without a camera id. */
  function FeedUrl(base: string): string {
    VideoFeedUrl(base, None)
  }

  /** The image `src`: the stream URL with the key as a query while monitoring, and
      the empty string while paused. */
  function ImageSrc(base: string, isMonitorActive: bool, f: Feed): (src: string)
    ensures isMonitorActive ==> StartsWith(src, base + "/video_feed/undefined?t=")
    ensures isMonitorActive ==> src[|base + "/video_feed/undefined?t="|..] == IntToString(f.feedKey)
    ensures !isMonitorActive <==> src == ""
  {
    if isMonitorActive then FeedUrl(base) + "?t=" + IntToString(f.feedKey) else ""
  }

  /** The image carries the `hidden` class. */
  predicate ImageHidden(isMonitorActive: bool, f: Feed) {
    f.hasError || !isMonitorActive
  }

  /** The "Monitoring Paused" overlay is rendered. */
  predicate PausedOverlay(isMonitorActive: bool, f: Feed) {
    !isMonitorActive && !f.hasError
  }

  /** Exactly one of the visible image, the error panel and the paused overlay is on
      screen (the spinner may cover any of them), and a visible image always has a
      non-empty source. */
  lemma OneLayerShows(base: string, isMonitorActive: bool, f: Feed)
    ensures !ImageHidden(isMonitorActive, f) ==> ImageSrc(base, isMonitorActive, f) != ""
    ensures (if !ImageHidden(isMonitorActive, f) then 1 else 0)
          + (if f.hasError then 1 else 0)
          + (if PausedOverlay(isMonitorActive, f) then 1 else 0) == 1
  {
  }

  /** Two refreshes at different times give different image sources, so the browser
      reopens the stream. */
  lemma RefreshChangesSource(base: string, f: Feed, now: int)
    requires now != f.feedKey
    ensures ImageSrc(base, true, Refresh(f, now)) != ImageSrc(base, true, f)
  {
    var p := base + "/video_feed/undefined?t=";
    var a := ImageSrc(base, true, Refresh(f, now));
    var b := ImageSrc(base, true, f);
    if a == b {
      assert a[|p|..] == b[|p|..];
      IntToStringInjective(now, f.feedKey);
    }
  }
}

=== FILE: logs_filter.dfy ===
/** The filter bar of the logs page: the four selects, what changing one of them
    hands back to the page, and the reset button. */
module LogsFilter {

  /** The page's filter state. The source calls the second field `type`. */
  datatype Filters = Filters(severity: string, violationType: string, camera: string, dateRange: string)

  datatype FilterKey = Severity | ViolationType | Camera | DateRange

  /** `filters[key]`. */
  function Get(f: Filters, key: FilterKey): string {
    match key
    case Severity => f.severity
    case ViolationType => f.violationType
    case Camera => f.camera
    case DateRange => f.dateRange
  }

  /** Two filter states are equal exactly when they agree on every key. */
  lemma FiltersExtensional(f: Filters, g: Filters)
    ensures f == g <==> forall key: FilterKey :: Get(f, key) == Get(g, key)
  {
    if forall key: FilterKey :: Get(f, key) == Get(g, key) {
      assert Get(f, Severity) == Get(g, Severity);
      assert Get(f, ViolationType) == Get(g, ViolationType);
      assert Get(f, Camera) == Get(g, Camera);
      assert Get(f, DateRange) == Get(g, DateRange);
    }
  }

  /** `updateFilter(key, value)`: `{ ...filters, [key]: value }`. */
  function UpdateFilter(f: Filters, key: FilterKey, value: string): (r: Filters)
    ensures Get(r, key) == value
    ensures forall other: FilterKey :: other != key ==> Get(r, other) == Get(f, other)
  {
    match key
    case Severity => f.(severity := value)
    case ViolationType => f.(violationType := value)
    case Camera => f.(camera := value)
    case DateRange => f.(dateRange := value)
  }

  /** Choosing the value already shown changes nothing; choosing twice keeps the last
      choice; choices on different selects do not interfere. */
  lemma UpdateFilterLaws(f: Filters, key: FilterKey, other: FilterKey, a: string, b: string)
    ensures UpdateFilter(f, key, Get(f, key)) == f
    ensures UpdateFilter(UpdateFilter(f, key, a), key, b) == UpdateFilter(f, key, b)
    ensures key != other ==>
      UpdateFilter(UpdateFilter(f, key, a), other, b) == UpdateFilter(UpdateFilter(f, other, b), key, a)
  {
    FiltersExtensional(UpdateFilter(f, key, Get(f, key)), f);
    FiltersExtensional(UpdateFilter(UpdateFilter(f, key, a), key, b), UpdateFilter(f, key, b));
    FiltersExtensional(UpdateFilter(UpdateFilter(f, key, a), other, b), UpdateFilter(UpdateFilter(f, other, b), key, a));
  }

  /** The value meaning "no restriction" on the first three selects. */
  const AllValue: string := "all"

  /** The page's initial filters. */
  const InitialFilters: Filters := Filters(AllValue, AllValue, AllValue, "7days")

  /** The reset button's filters. */
  function Reset(f: Filters): (r: Filters)
    ensures r.severity == AllValue && r.violationType == AllValue && r.camera == AllValue
    ensures r.dateRange == "7days"
  {
    Filters("all", "all", "all", "7days")
  }

  /** Reset brings the page back to its initial filters, whatever was chosen before. */
  lemma ResetRestoresInitial(f: Filters, key: FilterKey, value: string)
    ensures Reset(f) == InitialFilters
    ensures Reset(UpdateFilter(f, key, value)) == Reset(f)
  {
  }

  /** The option values of each select. */
  function Options(key: FilterKey): (r: seq<string>)
    ensures |r| == if key == Camera then 5 else 4
    ensures key != DateRange ==> r[0] == AllValue
    ensures key == DateRange ==> AllValue !in r
  {
    match key
    case Severity => ["all", "critical", "warning", "info"]
    case ViolationType => ["all", "ppe", "posture", "hazard"]
    case Camera => ["all", "zone-a", "zone-b", "zone-c", "zone-d"]
    case DateRange => ["1day", "7days", "30days", "90days"]
  }

  /** Every select shows one of its options. */
  predicate Selectable(f: Filters) {
    forall key: FilterKey :: Get(f, key) in Options(key)
  }

  /** The initial filters are all selectable, and picking an option from a select keeps
      every select on one of its options. */
  lemma SelectionsStayInOptions(f: Filters, key: FilterKey, value: string)
    requires Selectable(f) && value in Options(key)
    ensures Selectable(InitialFilters)
    ensures Selectable(UpdateFilter(f, key, value))
  {
    assert Get(InitialFilters, Severity) == Options(Severity)[0];
    assert Get(InitialFilters, ViolationType) == Options(ViolationType)[0];
    assert Get(InitialFilters, Camera) == Options(Camera)[0];
    assert Get(InitialFilters, DateRange) == Options(DateRange)[1];
    forall k: FilterKey
      ensures Get(UpdateFilter(f, key, value), k) in Options(k)
    {
      if k != key {
        assert Get(f, k) in Options(k);
      }
    }
  }
}

=== FILE: logs_table.dfy ===
/** The "Detection History" table of the logs page: the search request its filters
    produce, the client-side re-filtering of the rows that come back, and what each
    row and the footer show. */
module LogsTable {

  import opened Wrappers
  import opened Text
  import opened Json
  import opened ApiClient
  import opened LogsFilter
  import Backend

  /** One row's record. The source calls `kind` `type`. */
  datatype Log = Log(
    id: string,
    timestamp: string,
    kind: string,
    severity: string,
    camera: string,
    description: string,
    confidence: real)

  datatype Table = Table(logs: seq<Log>, loading: bool)

  /** The rows `/api/logs/search` sends carry none of the fields this table filters on
      or renders: no `type`, `severity`, `camera` or `description`. The table's
      filtering and labels below are stated for rows of the client type `Log`. */
  lemma BackendRowsLackTableFields(l: Backend.DbLog)
    ensures Field(Backend.SearchRowJson(l), "type").None?
    ensures Field(Backend.SearchRowJson(l), "severity").None?
    ensures Field(Backend.SearchRowJson(l), "camera").None?
    ensures Field(Backend.SearchRowJson(l), "description").None?
  {
  }

  const InitialTable: Table := Table([], true)

  // ---------------------------------------------------------------------------
  // The request
  // ---------------------------------------------------------------------------

  /** A select's value as a request filter: "all" becomes `undefined`. */
  function FilterArg(v: string): (r: FilterValue)
    ensures r == FUndefined <==> v == AllValue
    ensures r != FUndefined ==> r == FStr(v)
  {
    if v != AllValue then FStr(v) else FUndefined
  }

  /** The object handed to `logsAPI.getLogs`; the date range is not passed. */
  function QueryEntries(f: Filters): (e: seq<(string, FilterValue)>)
    ensures |e| == 3
  {
    [("severity", FilterArg(f.severity)), ("type", FilterArg(f.violationType)), ("camera", FilterArg(f.camera))]
  }

  /** The endpoint the table requests for `f`. */
  function QueryPath(f: Filters): string {
    LogsSearchPath(Some(QueryEntries(f)))
  }

  /** A select contributes a query parameter exactly when it is neither "all" nor empty,
      and then with its own name and value, in the order severity, type, camera. */
  lemma QueryParameters(f: Filters, name: string, value: string)
    ensures (name, value) in SearchParams(QueryEntries(f)) <==>
      (name == "severity" && value == f.severity && value != AllValue && value != "") ||
      (name == "type" && value == f.violationType && value != AllValue && value != "") ||
      (name == "camera" && value == f.camera && value != AllValue && value != "")
  {
    var e := QueryEntries(f);
    assert e == [e[0]] + [e[1]] + [e[2]];
    SearchParamsAppend([e[0]] + [e[1]], [e[2]]);
    SearchParamsAppend([e[0]], [e[1]]);
    assert SearchParams([e[0]]) == if IsSent(e[0].1) then [SendEntry(e[0])] else [];
    assert SearchParams([e[1]]) == if IsSent(e[1].1) then [SendEntry(e[1])] else [];
    assert SearchParams([e[2]]) == if IsSent(e[2].1) then [SendEntry(e[2])] else [];
  }

  /** With every select on "all" the query string is empty. */
  lemma UnfilteredQueryIsBare(f: Filters)
    requires f.severity == AllValue && f.violationType == AllValue && f.camera == AllValue
    ensures QueryPath(f) == "/api/logs/search?"
  {
    var e := QueryEntries(f);
    assert !IsSent(e[0].1) && !IsSent(e[1].1) && !IsSent(e[2].1);
    assert e[1..][1..][1..] == [];
  }

  /** The date range select never changes the request. */
  lemma DateRangeNotSent(f: Filters, range: string)
    ensures QueryPath(f.(dateRange := range)) == QueryPath(f)
  {
  }

  /** Offline, the page as first shown receives the mock log list. */
  lemma OfflineInitialRequest(now: int)
    ensures ApiRequest(QueryPath(InitialFilters), now, NetworkFailure) == Resolved(LogsMock(now))
  {
    var p := QueryPath(InitialFilters);
    UnfilteredQueryIsBare(InitialFilters);
    assert p == "/api/logs/search?";
    assert "/api/dashboard/violations"[9] == 'b' && 'b' !in p;
    assert "/api/monitor/stream"[5] == 'm' && 'm' !in p;
    PathSkipsEarlyTests(p, 9, 5);
    OfflineSearchIgnoresFilters(Some(QueryEntries(InitialFilters)), now);
  }

  /** `.then(data => { setLogs(data.logs || []); setLoading(false) })`, with `logs`
      the decoded `data.logs` (`None` when it is falsy). There is no `catch`, so a
      rejected request leaves the table as it was, still loading. */
  function Loaded(t: Table, outcome: Settled<Option<seq<Log>>>): (r: Table)
    ensures outcome.Rejected? ==> r == t
    ensures outcome.Resolved? ==> !r.loading
    ensures outcome.Resolved? && outcome.value.Some? ==> r.logs == outcome.value.value
    ensures outcome.Resolved? && outcome.value.None? ==> r.logs == []
  {
    match outcome
    case Resolved(logs) => Table(logs.GetOr([]), false)
    case Rejected => t
  }

  /** A rejected first request keeps the spinner forever. */
  lemma RejectedFirstLoadSpins()
    ensures Loaded(InitialTable, Rejected).loading
  {
  }

  // ---------------------------------------------------------------------------
  // Client-side filtering
  // ---------------------------------------------------------------------------

  /** The `logs.filter` callback: severity must match exactly, the type filter is a
      case-insensitive substring of the type, the camera filter a case-sensitive
      substring of the camera; "all" switches a test off. */
  predicate Keep(f: Filters, l: Log) {
    (f.severity == AllValue || l.severity == f.severity)
    && (f.violationType == AllValue || Contains(Lower(l.kind), Lower(f.violationType)))
    && (f.camera == AllValue || Contains(l.camera, f.camera))
  }

  /** `filteredLogs`. */
  function Visible(f: Filters, logs: seq<Log>): (r: seq<Log>)
    ensures |r| <= |logs|
    ensures forall l :: l in r ==> l in logs && Keep(f, l)
    ensures forall l :: l in logs && Keep(f, l) ==> l in r
  {
    if |logs| == 0 then []
    else
      var rest := Visible(f, logs[1..]);
      assert forall l :: l in logs ==> l == logs[0] || l in logs[1..];
      if Keep(f, logs[0]) then [logs[0]] + rest else rest
  }

  /** Filtering distributes over concatenation, so rows keep their relative order. */
  lemma {:induction false} VisibleAppend(f: Filters, a: seq<Log>, b: seq<Log>)
    ensures Visible(f, a + b) == Visible(f, a) + Visible(f, b)
  {
    if |a| == 0 {
      assert a + b == b;
    } else {
      assert (a + b)[1..] == a[1..] + b;
      VisibleAppend(f, a[1..], b);
    }
  }

  /** With every select on "all" every row is shown, in order. */
  lemma {:induction false} UnfilteredShowsAll(f: Filters, logs: seq<Log>)
    requires f.severity == AllValue && f.violationType == AllValue && f.camera == AllValue
    ensures Visible(f, logs) == logs
  {
    if |logs| > 0 {
      UnfilteredShowsAll(f, logs[1..]);
      assert logs == [logs[0]] + logs[1..];
    }
  }

  /** Filtering the shown rows again shows the same rows. */
  lemma {:induction false} VisibleIdempotent(f: Filters, logs: seq<Log>)
    ensures Visible(f, Visible(f, logs)) == Visible(f, logs)
  {
    if |logs| > 0 {
      VisibleIdempotent(f, logs[1..]);
      if Keep(f, logs[0]) {
        var rest := Visible(f, logs[1..]);
        assert ([logs[0]] + rest)[1..] == rest;
      }
    }
  }

  /** Lower-casing twice is lower-casing once. */
  lemma LowerIdempotent(s: string)
    ensures Lower(Lower(s)) == Lower(s)
  {
  }

  /** The type test ignores the case of both the row's type and the filter text
      (so long as the filter does not thereby become "all"). */
  lemma TypeTestIgnoresCase(f: Filters, l: Log)
    requires Lower(f.violationType) != AllValue
    ensures Keep(f, l) <==> Keep(f.(violationType := Lower(f.violationType)), l.(kind := Lower(l.kind)))
  {
    LowerIdempotent(l.kind);
    LowerIdempotent(f.violationType);
  }

  /** The footer: "Showing N entries". */
  function ShownCount(f: Filters, t: Table): (n: nat)
    ensures n <= |t.logs|
    ensures n == |Visible(f, t.logs)|
  {
    |Visible(f, t.logs)|
  }

  // ---------------------------------------------------------------------------
  // One row
  // ---------------------------------------------------------------------------

  /** The badge colour and icon of a severity. */
  datatype SeverityStyle = CriticalStyle | WarningStyle | InfoStyle

  /** Anything other than "critical" or "warning" is drawn like "info". */
  function StyleOf(severity: string): (s: SeverityStyle)
    ensures s == CriticalStyle <==> severity == "critical"
    ensures s == WarningStyle <==> severity == "warning"
  {
    if severity == "critical" then CriticalStyle
    else if severity == "warning" then WarningStyle
    else InfoStyle
  }

  /** The severity label: its first letter upper-cased. */
  function SeverityLabel(severity: string): (r: string)
    ensures |r| == |severity|
    ensures |severity| > 0 ==> r[0] == UpperChar(severity[0]) && r[1..] == severity[1..]
    ensures Lower(r) == Lower(severity)
  {
    var r := Capitalize(severity);
    assert forall i :: 0 <= i < |r| ==> LowerChar(r[i]) == LowerChar(severity[i]);
    r
  }
}

=== FILE: monitoring_controls.dfy ===
/** The monitoring-controls panel: the required-gear toggles with optimistic
    update and revert, the monitor switch, the transient save status, the
    debounced sensitivity slider, and the initial settings load.

    Each handler is modelled by the state it leaves once its awaited request
    has settled; the request's outcome is a parameter. */
module MonitoringControls {

  import opened Wrappers
  import opened Json
  import opened ApiClient

  // ---------------------------------------------------------------------------
  // Gear list toggling
  // ---------------------------------------------------------------------------

  predicate NoDuplicates(xs: seq<string>) {
    forall i, j :: 0 <= i < j < |xs| ==> xs[i] != xs[j]
  }

  /** `xs.filter((g) => g !== x)`: every occurrence of `x` removed, the rest in order. */
  function Without(xs: seq<string>, x: string): (r: seq<string>)
    ensures forall y :: y in r <==> y in xs && y != x
    ensures multiset(r) == multiset(xs)[x := 0]
    ensures |r| <= |xs|
  {
    if |xs| == 0 then []
    else
      assert xs == [xs[0]] + xs[1..];
      (if xs[0] == x then [] else [xs[0]]) + Without(xs[1..], x)
  }

  /** Filtering distributes over concatenation, so the items kept stay in their order. */
  lemma {:induction false} WithoutAppend(a: seq<string>, b: seq<string>, x: string)
    ensures Without(a + b, x) == Without(a, x) + Without(b, x)
  {
    if |a| > 0 {
      assert (a + b)[1..] == a[1..] + b;
      WithoutAppend(a[1..], b, x);
    } else {
      assert a + b == b;
    }
  }

  /** Removing a value that does not occur changes nothing. */
  lemma {:induction false} WithoutAbsent(xs: seq<string>, x: string)
    requires x !in xs
    ensures Without(xs, x) == xs
  {
    if |xs| > 0 {
      WithoutAbsent(xs[1..], x);
      assert xs == [xs[0]] + xs[1..];
    }
  }

  /** Removing a value keeps a duplicate-free list duplicate-free. */
  lemma {:induction false} WithoutKeepsNoDuplicates(xs: seq<string>, x: string)
    requires NoDuplicates(xs)
    ensures NoDuplicates(Without(xs, x))
  {
    if |xs| > 0 {
      var tail := xs[1..];
      assert NoDuplicates(tail) by {
        forall i, j | 0 <= i < j < |tail| ensures tail[i] != tail[j] {
          assert tail[i] == xs[i + 1] && tail[j] == xs[j + 1];
        }
      }
      WithoutKeepsNoDuplicates(tail, x);
      assert xs[0] !in tail by {
        forall k | 0 <= k < |tail| ensures tail[k] != xs[0] {
          assert tail[k] == xs[k + 1];
        }
      }
      var rest := Without(tail, x);
      assert xs[0] !in rest;
      var r := Without(xs, x);
      if xs[0] != x {
        assert r == [xs[0]] + rest;
        forall i, j | 0 <= i < j < |r| ensures r[i] != r[j] {
          if i == 0 {
            assert r[j] == rest[j - 1];
          } else {
            assert r[i] == rest[i - 1] && r[j] == rest[j - 1];
          }
        }
      } else {
        assert r == rest;
      }
    }
  }

  /** The list after `handleGearToggle(id)`: every occurrence of `id` removed when it
      is present, otherwise `id` appended at the end. */
  function ToggleGear(gear: seq<string>, id: string): (r: seq<string>)
    ensures id in r <==> id !in gear
    ensures forall y :: y != id ==> (y in r <==> y in gear)
    ensures id !in gear ==> r == gear + [id]
    ensures id in gear ==> r == Without(gear, id) && |r| < |gear|
  {
    if id in gear then
      var k :| 0 <= k < |gear| && gear[k] == id;
      WithoutAppend(gear[..k], gear[k..], id);
      assert gear == gear[..k] + gear[k..];
      assert gear[k..] == [id] + gear[k + 1..];
      WithoutAppend([id], gear[k + 1..], id);
      Without(gear, id)
    else gear + [id]
  }

  /** Toggling keeps a duplicate-free list duplicate-free. */
  lemma ToggleKeepsNoDuplicates(gear: seq<string>, id: string)
    requires NoDuplicates(gear)
    ensures NoDuplicates(ToggleGear(gear, id))
  {
    if id in gear {
      WithoutKeepsNoDuplicates(gear, id);
    } else {
      var r := gear + [id];
      forall i, j | 0 <= i < j < |r| ensures r[i] != r[j] {
        if j == |gear| {
          assert r[i] == gear[i];
        } else {
          assert r[i] == gear[i] && r[j] == gear[j];
        }
      }
    }
  }

  /** Toggling the same id twice restores which items are required. */
  lemma ToggleTwiceRestoresMembership(gear: seq<string>, id: string)
    ensures forall y :: y in ToggleGear(ToggleGear(gear, id), id) <==> y in gear
  {
  }

  /** Switching an item on and off again gives back exactly the list it started from. */
  lemma ToggleOnOffIsIdentity(gear: seq<string>, id: string)
    requires id !in gear
    ensures ToggleGear(ToggleGear(gear, id), id) == gear
  {
    var on := gear + [id];
    assert ToggleGear(gear, id) == on;
    WithoutAppend(gear, [id], id);
    WithoutAbsent(gear, id);
    assert Without([id], id) == [];
    assert Without(on, id) == gear;
  }

  // ---------------------------------------------------------------------------
  // Panel state
  // ---------------------------------------------------------------------------

  datatype SaveStatus = Idle | Success | Error

  datatype Controls = Controls(
    sensitivity: real,
    activeGear: seq<string>,
    isLoading: bool,
    isSaving: bool,
    saveStatus: SaveStatus)

  /** The state before the settings arrive: sensitivity 0.50, all five items required,
      a spinner shown. */
  const InitialControls: Controls := Controls(0.50, KnownGearIds, true, false, Idle)

  /** How long a "success" or "error" badge stays before it returns to idle. */
  const SaveStatusDisplayMs: nat := 2000

  /** The debounce delay between moving the slider and saving the threshold. */
  const SensitivityDebounceMs: nat := 500

  /** A timer the panel has started: when it fires, the badge goes back to idle. */
  datatype StatusReset = StatusReset(delayMs: nat)

  /** `showSaveStatus(s)`: show the badge now and schedule its reset. */
  function ShowSaveStatus(c: Controls, s: SaveStatus): (r: (Controls, StatusReset))
    requires s != Idle
    ensures r.0.saveStatus == s && r.0.(saveStatus := c.saveStatus) == c
    ensures r.1.delayMs == SaveStatusDisplayMs
  {
    (c.(saveStatus := s), StatusReset(SaveStatusDisplayMs))
  }

  /** The scheduled reset firing. */
  function StatusResetFires(c: Controls): (r: Controls)
    ensures r.saveStatus == Idle && r.(saveStatus := c.saveStatus) == c
  {
    c.(saveStatus := Idle)
  }

  /** Whatever badge a save shows, the reset brings the panel back to idle and
      touches nothing else. */
  lemma BadgeIsTransient(c: Controls, s: SaveStatus)
    requires s != Idle
    ensures StatusResetFires(ShowSaveStatus(c, s).0) == c.(saveStatus := Idle)
  {
  }

  // ---------------------------------------------------------------------------
  // Initial settings load
  // ---------------------------------------------------------------------------

  /** The settled `Promise.all` of the two settings requests, decoded. */
  datatype SettingsFetch = SettingsFetched(conf: real, requirements: seq<string>) | SettingsFetchFailed

  function AsStrings(items: seq<Json>): (r: Option<seq<string>>)
    ensures r.Some? ==> |r.value| == |items|
    ensures r.Some? ==> forall i :: 0 <= i < |items| ==> items[i] == JStr(r.value[i])
    ensures r.None? ==> exists i :: 0 <= i < |items| && !items[i].JStr?
  {
    if |items| == 0 then Some([])
    else match (items[0], AsStrings(items[1..]))
      case (JStr(s), Some(rest)) => Some([s] + rest)
      case (JStr(_), None) =>
        var i :| 0 <= i < |items[1..]| && !items[1..][i].JStr?;
        assert !items[i + 1].JStr?;
        None
      case _ => None
  }

  /** `Promise.all([getThreshold(), getGearSettings()])`: it rejects as soon as either
      request rejects; otherwise `thresholdData.conf` and `gearData.requirements`
      are read. Payloads without those fields are outside the model. */
  function DecodeSettings(threshold: Settled<Json>, gear: Settled<Json>): (r: Option<SettingsFetch>)
    ensures (threshold.Rejected? || gear.Rejected?) ==> r == Some(SettingsFetchFailed)
    ensures r.Some? && r.value.SettingsFetched? ==>
      Field(threshold.value, "conf") == Some(JNum(r.value.conf)) &&
      Field(gear.value, "requirements").Some? &&
      Field(gear.value, "requirements").value.JArr? &&
      AsStrings(Field(gear.value, "requirements").value.items) == Some(r.value.requirements)
  {
    if threshold.Rejected? || gear.Rejected? then Some(SettingsFetchFailed)
    else
      match (Field(threshold.value, "conf"), Field(gear.value, "requirements"))
      case (Some(JNum(conf)), Some(JArr(items))) =>
        (match AsStrings(items)
         case Some(reqs) => Some(SettingsFetched(conf, reqs))
         case None => None)
      case _ => None
  }

  /** The first fetch: fetched values replace both defaults; a failure keeps them.
      Either way the spinner goes away. */
  function LoadSettings(c: Controls, f: SettingsFetch): (r: Controls)
    ensures !r.isLoading
    ensures f.SettingsFetched? ==> r.sensitivity == f.conf && r.activeGear == f.requirements
    ensures f.SettingsFetchFailed? ==> r.sensitivity == c.sensitivity && r.activeGear == c.activeGear
    ensures r.isSaving == c.isSaving && r.saveStatus == c.saveStatus
  {
    match f
    case SettingsFetched(conf, reqs) => c.(sensitivity := conf, activeGear := reqs, isLoading := false)
    case SettingsFetchFailed => c.(isLoading := false)
  }

  const ThresholdPath: string := "/api/settings/threshold"
  const GearPath: string := "/api/settings/gear"

  /** A list of strings as JSON. */
  function JStrs(xs: seq<string>): (r: seq<Json>)
    ensures |r| == |xs| && forall i :: 0 <= i < |xs| ==> r[i] == JStr(xs[i])
  {
    seq(|xs|, i requires 0 <= i < |xs| => JStr(xs[i]))
  }

  /** Reading a JSON list of strings gives the strings back. */
  lemma {:induction false} AsStringsOfJStrs(xs: seq<string>)
    ensures AsStrings(JStrs(xs)) == Some(xs)
  {
    if |xs| > 0 {
      assert JStrs(xs)[1..] == JStrs(xs[1..]);
      AsStringsOfJStrs(xs[1..]);
      assert [xs[0]] + xs[1..] == xs;
    }
  }

  lemma OfflineThresholdRequest(now: int)
    ensures ApiRequest(ThresholdPath, now, NetworkFailure) == Resolved(JObj([("conf", Num(0.50))]))
  {
    ThresholdPathMock(now);
  }

  lemma OfflineGearRequest(now: int)
    ensures ApiRequest(GearPath, now, NetworkFailure) == Resolved(GearMock)
  {
    GearPathMock(now);
  }

  lemma GearMockLists()
    ensures GearMock == JObj([("requirements", JArr(JStrs(KnownGearIds)))])
  {
    var items := JStrs(KnownGearIds);
    assert items == [JStr("mask"), JStr("gloves"), JStr("coverall"), JStr("goggles"), JStr("face_shield")];
  }

  /** The payloads `{conf: c}` and `{requirements: [...]}` decode to their values. */
  lemma DecodeSettingsPayloads(conf: real, reqs: seq<string>)
    ensures DecodeSettings(Resolved(JObj([("conf", JNum(conf))])), Resolved(JObj([("requirements", JArr(JStrs(reqs)))])))
            == Some(SettingsFetched(conf, reqs))
  {
    AsStringsOfJStrs(reqs);
  }

  /** With the backend unreachable, the mock settings are exactly the defaults, so the
      first load leaves the panel as it started apart from the spinner. */
  lemma OfflineLoadKeepsDefaults(now: int)
    ensures DecodeSettings(ApiRequest(ThresholdPath, now, NetworkFailure), ApiRequest(GearPath, now, NetworkFailure))
            == Some(SettingsFetched(0.50, KnownGearIds))
    ensures LoadSettings(InitialControls, SettingsFetched(0.50, KnownGearIds)) == InitialControls.(isLoading := false)
  {
    OfflineThresholdRequest(now);
    OfflineGearRequest(now);
    GearMockLists();
    DecodeSettingsPayloads(0.50, KnownGearIds);
  }

  // ---------------------------------------------------------------------------
  // Handlers
  // ---------------------------------------------------------------------------

  /** `handleGearToggle(id)` until `await setGearSettings(...)` settles: the new list is
      shown at once; on rejection the list captured before the toggle is put back. */
  function HandleGearToggle(c: Controls, id: string, save: Settled<Json>): (r: (Controls, StatusReset))
    ensures !r.0.isSaving
    ensures save.Resolved? ==> r.0.activeGear == ToggleGear(c.activeGear, id) && r.0.saveStatus == Success
    ensures save.Rejected? ==> r.0.activeGear == c.activeGear && r.0.saveStatus == Error
    ensures r.0.sensitivity == c.sensitivity && r.0.isLoading == c.isLoading
    ensures r.1.delayMs == SaveStatusDisplayMs
  {
    var optimistic := c.(activeGear := ToggleGear(c.activeGear, id), isSaving := true);
    var shown :=
      if save.Resolved? then ShowSaveStatus(optimistic, Success)
      else ShowSaveStatus(optimistic.(activeGear := c.activeGear), Error);
    (shown.0.(isSaving := false), shown.1)
  }

  /** An unreachable backend resolves the save with mock data, so the toggle reports
      success and is never reverted. */
  lemma OfflineGearToggleSucceeds(c: Controls, id: string, now: int)
    ensures HandleGearToggle(c, id, ApiRequest(GearPath, now, NetworkFailure)).0.saveStatus == Success
    ensures HandleGearToggle(c, id, ApiRequest(GearPath, now, NetworkFailure)).0.activeGear == ToggleGear(c.activeGear, id)
  {
    GearPathMock(now);
  }

  /** `handleMonitorToggle()`: the parent is told the new state, `!isMonitorActive`,
      only after `toggleMonitor` resolves. The second component is that notification. */
  function HandleMonitorToggle(c: Controls, isMonitorActive: bool, outcome: Settled<Json>): (r: (Controls, Option<bool>, StatusReset))
    ensures r.1.Some? <==> outcome.Resolved?
    ensures r.1.Some? ==> r.1.value == !isMonitorActive
    ensures r.0.saveStatus == (if outcome.Resolved? then Success else Error)
    ensures r.0.(saveStatus := c.saveStatus, isSaving := c.isSaving) == c && !r.0.isSaving
    ensures r.2.delayMs == SaveStatusDisplayMs
  {
    var saving := c.(isSaving := true);
    if outcome.Resolved? then
      var shown := ShowSaveStatus(saving, Success);
      (shown.0.(isSaving := false), Some(!isMonitorActive), shown.1)
    else
      var shown := ShowSaveStatus(saving, Error);
      (shown.0.(isSaving := false), None, shown.1)
  }

  /** The save of a threshold the slider scheduled. */
  datatype PendingThreshold = PendingThreshold(delayMs: nat, conf: real)

  /** `handleSensitivityChange([v])`: the slider shows `v` at once and a save of `v`
      is scheduled 500 ms later. */
  function HandleSensitivityChange(c: Controls, v: real): (r: (Controls, PendingThreshold))
    ensures r.0.sensitivity == v && r.0.(sensitivity := c.sensitivity) == c
    ensures r.1.conf == r.0.sensitivity && r.1.delayMs == SensitivityDebounceMs
  {
    (c.(sensitivity := v), PendingThreshold(SensitivityDebounceMs, v))
  }

  /** The scheduled threshold save settling: only the badge changes. */
  function ThresholdSaveSettled(c: Controls, outcome: Settled<Json>): (r: (Controls, StatusReset))
    ensures r.0.saveStatus == (if outcome.Resolved? then Success else Error)
    ensures r.0.(saveStatus := c.saveStatus) == c
  {
    ShowSaveStatus(c, if outcome.Resolved? then Success else Error)
  }

  /** Moving the slider while offline still ends in a success badge, with the slider
      value kept. */
  lemma OfflineSensitivitySaveSucceeds(c: Controls, v: real, now: int)
    ensures ThresholdSaveSettled(HandleSensitivityChange(c, v).0, ApiRequest(ThresholdPath, now, NetworkFailure)).0
            == c.(sensitivity := v, saveStatus := Success)
  {
    ThresholdPathMock(now);
  }
}

=== FILE: ppe_checklist.dfy ===
/** The per-person PPE checklist card: the completed/total counter, the summary
    line and the check or cross on each row. */
module PpeChecklist {

  import opened Wrappers
  import opened Text

  /** `ppeStatus` as its entries, in key order: (key, flag). */
  type Status = seq<(string, bool)>

  /** `Object.values(ppeStatus).filter(Boolean).length`. */
  function Completed(st: Status): (n: nat)
    ensures n <= |st|
    ensures n == |st| <==> forall i :: 0 <= i < |st| ==> st[i].1
    ensures n == 0 <==> forall i :: 0 <= i < |st| ==> !st[i].1
  {
    if |st| == 0 then 0
    else
      var rest := Completed(st[1..]);
      assert forall i :: 1 <= i < |st| ==> st[i] == st[1..][i - 1];
      (if st[0].1 then 1 else 0) + rest
  }

  /** `Object.keys(ppeStatus).length`. */
  function Total(st: Status): nat {
    |st|
  }

  const AllMetText: string := "All PPE requirements met ✓"

  /** The summary line under the rows. */
  function Summary(st: Status): (t: string)
    ensures Completed(st) == Total(st) ==> t == AllMetText
    ensures Completed(st) < Total(st) ==>
      StartsWith(t, "Missing " + NatToString(Total(st) - Completed(st)) + " PPE item")
  {
    var done := Completed(st);
    var total := Total(st);
    if done == total then AllMetText
    else
      var k := total - done;
      "Missing " + NatToString(k) + " PPE item" + (if k != 1 then "s" else "")
  }

  /** The card says every requirement is met exactly when every flag is set, and
      otherwise the count it names is the number of unset flags, with the plural
      used unless that number is one. */
  lemma SummaryMeaning(st: Status)
    ensures Summary(st) == AllMetText <==> forall i :: 0 <= i < |st| ==> st[i].1
    ensures !(forall i :: 0 <= i < |st| ==> st[i].1) ==>
      Summary(st)[..8] == "Missing " &&
      (Summary(st)[|Summary(st)| - 1] == 's' <==> Total(st) - Completed(st) != 1)
  {
    if !(forall i :: 0 <= i < |st| ==> st[i].1) {
      var t := Summary(st);
      assert t[0] == 'M' && AllMetText[0] == 'A';
    }
  }

  /** The rows, one per known item (`helmet`, `shoes`, `goggles`, `mask`). */
  const ItemKeys: seq<string> := ["helmet", "shoes", "goggles", "mask"]

  /** `ppeStatus[key]`; a missing key is `undefined`. */
  function Lookup(st: Status, key: string): (r: Option<bool>)
    ensures r.Some? <==> exists i :: 0 <= i < |st| && st[i].0 == key
    ensures r.Some? ==> (key, r.value) in st
  {
    if |st| == 0 then None
    else if st[0].0 == key then Some(st[0].1)
    else
      var r := Lookup(st[1..], key);
      assert forall i :: 1 <= i < |st| ==> st[i] == st[1..][i - 1];
      r
  }

  /** Each row shows a check iff its flag is truthy. */
  function RowChecks(st: Status): (r: seq<bool>)
    ensures |r| == |ItemKeys|
    ensures forall k :: 0 <= k < |ItemKeys| ==> (r[k] <==> Lookup(st, ItemKeys[k]) == Some(true))
  {
    seq(|ItemKeys|, k requires 0 <= k < |ItemKeys| => Lookup(st, ItemKeys[k]) == Some(true))
  }
}

=== FILE: safety_engine.dfy ===
/** The PPE compliance engine (backend/safety_engine.py). The pose tracker and the
    equipment detector are abstract inputs: what remains is the on/off gate, the
    frame-skip schedule, the per-class confidence thresholds, two geometric predicates
    and the rule `missing = required - detected`. */
module SafetyEngine {

  import opened Wrappers
  import opened Text

  // ---------------------------------------------------------------------------
  // Geometry
  // ---------------------------------------------------------------------------

  /** An axis-aligned box `[x1, y1, x2, y2]` in image coordinates. */
  datatype Box = Box(x1: real, y1: real, x2: real, y2: real)

  /** A keypoint `(x, y)`. */
  datatype Point = Point(x: real, y: real)

  function Max(a: real, b: real): real { if a >= b then a else b }
  function Min(a: real, b: real): real { if a <= b then a else b }

  /** `p` lies strictly inside `b` (on neither edge). */
  predicate StrictlyInside(p: Point, b: Box) {
    b.x1 < p.x < b.x2 && b.y1 < p.y < b.y2
  }

  /** `is_overlapping`: the intersection rectangle has positive width and height. */
  predicate IsOverlapping(a: Box, b: Box) {
    Min(a.x2, b.x2) > Max(a.x1, b.x1) && Min(a.y2, b.y2) > Max(a.y1, b.y1)
  }

  /** Overlap means exactly that some point lies strictly inside both boxes. */
  lemma OverlapIffCommonInteriorPoint(a: Box, b: Box)
    ensures IsOverlapping(a, b) <==> exists p :: StrictlyInside(p, a) && StrictlyInside(p, b)
  {
    if IsOverlapping(a, b) {
      var p := Point((Max(a.x1, b.x1) + Min(a.x2, b.x2)) / 2.0, (Max(a.y1, b.y1) + Min(a.y2, b.y2)) / 2.0);
      assert StrictlyInside(p, a) && StrictlyInside(p, b);
    }
  }

  lemma OverlapSymmetric(a: Box, b: Box)
    ensures IsOverlapping(a, b) <==> IsOverlapping(b, a)
  {
  }

  /** Boxes that only share an edge do not overlap. */
  lemma EdgeTouchingDoesNotOverlap(a: Box, b: Box)
    requires a.x2 == b.x1 || a.y2 == b.y1
    requires a.x1 <= a.x2 && a.y1 <= a.y2 && b.x1 <= b.x2 && b.y1 <= b.y2
    ensures !IsOverlapping(a, b)
  {
  }

  // ---------------------------------------------------------------------------
  // Equipment classes and confidence thresholds
  // ---------------------------------------------------------------------------

  /** `EQUIPMENT_CLASSES.get(int(c), 'unknown')`. */
  function ClassName(classIndex: int): (name: string)
    ensures 0 <= classIndex <= 4 ==> name != "unknown"
    ensures !(0 <= classIndex <= 4) ==> name == "unknown"
  {
    if classIndex == 0 then "Coverall"
    else if classIndex == 1 then "Face_Shield"
    else if classIndex == 2 then "Gloves"
    else if classIndex == 3 then "Goggles"
    else if classIndex == 4 then "Mask"
    else "unknown"
  }

  /** `CLASS_SPECIFIC_THRESHOLDS.get(name)`. */
  function SpecificThreshold(name: string): Option<real> {
    if name == "Coverall" then Some(0.50)
    else if name == "Face_Shield" then Some(0.50)
    else if name == "Gloves" then Some(0.45)
    else if name == "Goggles" then Some(0.50)
    else if name == "Mask" then Some(0.30)
    else None
  }

  const DefaultGeneralConf: real := 0.63

  /** The score a detection of class `name` needs: its own threshold, or else the
      general one set from the dashboard. */
  function RequiredScore(generalConf: real, name: string): (t: real)
    ensures SpecificThreshold(name).Some? ==> t == SpecificThreshold(name).value
    ensures SpecificThreshold(name).None? ==> t == generalConf
  {
    SpecificThreshold(name).GetOr(generalConf)
  }

  /** The general threshold only gates the `'unknown'` class: every known class has
      its own threshold, so changing the general one cannot change its outcome. */
  lemma GeneralConfOnlyGatesUnknown(classIndex: int, g1: real, g2: real)
    ensures 0 <= classIndex <= 4 ==> RequiredScore(g1, ClassName(classIndex)) == RequiredScore(g2, ClassName(classIndex))
    ensures !(0 <= classIndex <= 4) ==> RequiredScore(g1, ClassName(classIndex)) == g1
  {
  }

  /** One raw detection of the equipment model. */
  datatype RawDetection = RawDetection(classIndex: int, score: real, box: Box)

  /** A kept detection: `{'bbox': ..., 'class': name}`. */
  datatype Equip = Equip(box: Box, className: string)

  predicate Kept(generalConf: real, d: RawDetection) {
    d.score >= RequiredScore(generalConf, ClassName(d.classIndex))
  }

  /** `e` is the stored form of some kept detection of `ds`. */
  /** The thresholds, by detector class index: Coverall (0), Face_Shield (1) and
      Goggles (3) need 0.50, Gloves (2) 0.45 and Mask (4) 0.30; any other index is
      held to the general confidence. */
  lemma ClassThresholds(generalConf: real, classIndex: int)
    ensures classIndex == 0 ==> RequiredScore(generalConf, ClassName(classIndex)) == 0.50
    ensures classIndex == 1 ==> RequiredScore(generalConf, ClassName(classIndex)) == 0.50
    ensures classIndex == 2 ==> RequiredScore(generalConf, ClassName(classIndex)) == 0.45
    ensures classIndex == 3 ==> RequiredScore(generalConf, ClassName(classIndex)) == 0.50
    ensures classIndex == 4 ==> RequiredScore(generalConf, ClassName(classIndex)) == 0.30
    ensures !(0 <= classIndex <= 4) ==> RequiredScore(generalConf, ClassName(classIndex)) == generalConf
  {
  }

  /** Whether a raw detection survives, against an index-keyed table written out
      independently of the name lookup. */
  lemma KeptIffOverThreshold(generalConf: real, d: RawDetection)
    ensures Kept(generalConf, d) <==>
      d.score >= (if d.classIndex == 2 then 0.45
                  else if d.classIndex == 4 then 0.30
                  else if 0 <= d.classIndex <= 4 then 0.50
                  else generalConf)
  {
    ClassThresholds(generalConf, d.classIndex);
  }

  predicate KeptFrom(generalConf: real, ds: seq<RawDetection>, e: Equip) {
    exists i :: 0 <= i < |ds| && Kept(generalConf, ds[i]) && e == Equip(ds[i].box, ClassName(ds[i].classIndex))
  }

  /** `d`'s stored form is among `r` whenever `d` clears its threshold. */
  predicate StoredIfKept(generalConf: real, d: RawDetection, r: seq<Equip>) {
    Kept(generalConf, d) ==> Equip(d.box, ClassName(d.classIndex)) in r
  }

  /** The reference filter: the kept detections, in detector order. */
  function KeptEquipment(generalConf: real, ds: seq<RawDetection>): (r: seq<Equip>)
    ensures |r| <= |ds|
    ensures forall j :: 0 <= j < |r| ==> KeptFrom(generalConf, ds, r[j])
  {
    if |ds| == 0 then []
    else
      var init := ds[..|ds| - 1];
      var prefix := KeptEquipment(generalConf, init);
      var d := ds[|ds| - 1];
      forall j | 0 <= j < |prefix| ensures KeptFrom(generalConf, ds, prefix[j]) {
        assert KeptFrom(generalConf, init, prefix[j]);
        var i :| 0 <= i < |init| && Kept(generalConf, init[i]) && prefix[j] == Equip(init[i].box, ClassName(init[i].classIndex));
        assert init[i] == ds[i];
      }
      if Kept(generalConf, d) then
        var r := prefix + [Equip(d.box, ClassName(d.classIndex))];
        assert KeptFrom(generalConf, ds, r[|prefix|]);
        assert forall j :: 0 <= j < |prefix| ==> r[j] == prefix[j];
        r
      else prefix
  }

  /** The loop of `process_frame` that stores the equipment data. */
  method FilterDetections(generalConf: real, ds: seq<RawDetection>) returns (kept: seq<Equip>)
    ensures kept == KeptEquipment(generalConf, ds)
    ensures forall j :: 0 <= j < |kept| ==> KeptFrom(generalConf, ds, kept[j])
    ensures forall i :: 0 <= i < |ds| ==> StoredIfKept(generalConf, ds[i], kept)
  {
    kept := [];
    var i := 0;
    while i < |ds|
      invariant 0 <= i <= |ds|
      invariant kept == KeptEquipment(generalConf, ds[..i])
    {
      var d := ds[i];
      assert ds[..i + 1][..i] == ds[..i];
      if d.score >= RequiredScore(generalConf, ClassName(d.classIndex)) {
        kept := kept + [Equip(d.box, ClassName(d.classIndex))];
      }
      i := i + 1;
    }
    assert ds[..i] == ds;
    KeptEquipmentComplete(generalConf, ds);
  }

  /** The reference filter misses nothing: every detection that clears its threshold
      has its stored form among the kept items. */
  lemma {:induction false} KeptEquipmentComplete(generalConf: real, ds: seq<RawDetection>)
    ensures forall i :: 0 <= i < |ds| ==> StoredIfKept(generalConf, ds[i], KeptEquipment(generalConf, ds))
  {
    if |ds| > 0 {
      var init := ds[..|ds| - 1];
      var last := ds[|ds| - 1];
      var prefix := KeptEquipment(generalConf, init);
      var r := KeptEquipment(generalConf, ds);
      assert r == prefix + (if Kept(generalConf, last) then [Equip(last.box, ClassName(last.classIndex))] else []);
      KeptEquipmentComplete(generalConf, init);
      forall i | 0 <= i < |ds| ensures StoredIfKept(generalConf, ds[i], r) {
        if i < |init| {
          assert init[i] == ds[i] && StoredIfKept(generalConf, init[i], prefix);
        } else {
          assert ds[i] == last;
        }
      }
    }
  }

  /** Filtering is applied detection by detection: the kept list of a concatenation of
      detector outputs is the concatenation of their kept lists, so detector order survives. */
  lemma {:induction false} KeptEquipmentAppend(generalConf: real, a: seq<RawDetection>, b: seq<RawDetection>)
    ensures KeptEquipment(generalConf, a + b) == KeptEquipment(generalConf, a) + KeptEquipment(generalConf, b)
    decreases |b|
  {
    if |b| == 0 {
      assert a + b == a;
    } else {
      var b' := b[..|b| - 1];
      assert (a + b)[..|a + b| - 1] == a + b';
      assert (a + b)[|a + b| - 1] == b[|b| - 1];
      KeptEquipmentAppend(generalConf, a, b');
    }
  }

  // ---------------------------------------------------------------------------
  // Name normalisation and keypoint association
  // ---------------------------------------------------------------------------

  /** The normalised gear names, in the order `compute_compliance` tries them. */
  const GearOrder: seq<string> := ["mask", "gloves", "coverall", "goggles", "face_shield"]

  const GearNames: set<string> := {"mask", "gloves", "coverall", "goggles", "face_shield"}

  /** The first key contained in `s`, as `next((k for k in keys if k in s), None)`. */
  function FirstContained(s: string, keys: seq<string>): (r: Option<string>)
    ensures r.Some? ==> exists i :: 0 <= i < |keys| && keys[i] == r.value && Contains(s, keys[i])
                                    && forall j :: 0 <= j < i ==> !Contains(s, keys[j])
    ensures r.None? <==> forall i :: 0 <= i < |keys| ==> !Contains(s, keys[i])
  {
    if |keys| == 0 then None
    else if Contains(s, keys[0]) then Some(keys[0])
    else
      var r := FirstContained(s, keys[1..]);
      assert forall i :: 1 <= i < |keys| ==> keys[1..][i - 1] == keys[i];
      r
  }

  /** The normalised name of an equipment class, or `None` when none of the five
      gear names occurs in its lower-cased name. */
  function SimpleName(className: string): (r: Option<string>)
    ensures r.Some? ==> r.value in GearNames
    ensures r.None? <==> forall g :: g in GearOrder ==> !Contains(Lower(className), g)
  {
    var r := FirstContained(Lower(className), GearOrder);
    assert forall i :: 0 <= i < |GearOrder| ==> GearOrder[i] in GearNames;
    assert r.None? ==> forall g :: g in GearOrder ==> !Contains(Lower(className), g) by {
      if r.None? {
        forall g | g in GearOrder ensures !Contains(Lower(className), g) {
          var i :| 0 <= i < |GearOrder| && GearOrder[i] == g;
        }
      }
    }
    assert (forall g :: g in GearOrder ==> !Contains(Lower(className), g)) ==> r.None? by {
      if forall g :: g in GearOrder ==> !Contains(Lower(className), g) {
        forall i | 0 <= i < |GearOrder| ensures !Contains(Lower(className), GearOrder[i]) {
          assert GearOrder[i] in GearOrder;
        }
      }
    }
    r
  }

  /** `FirstContained` picks the key at `i` when it is the first one contained. */
  lemma {:induction false} FirstContainedAt(s: string, keys: seq<string>, i: nat)
    requires i < |keys| && Contains(s, keys[i])
    requires forall j :: 0 <= j < i ==> !Contains(s, keys[j])
    ensures FirstContained(s, keys) == Some(keys[i])
  {
    if i > 0 {
      FirstContainedAt(s, keys[1..], i - 1);
    }
  }

  /** The normalised name of a class whose lower-cased name is `lower`. */
  lemma NormalisesTo(className: string, lower: string, i: nat)
    requires Lower(className) == lower && i < |GearOrder| && lower == GearOrder[i]
    requires forall j :: 0 <= j < i ==> !Contains(lower, GearOrder[j])
    ensures SimpleName(className) == Some(lower)
  {
    StartsWithContains(lower, lower);
    FirstContainedAt(lower, GearOrder, i);
  }

  /** Each detector class normalises to its own gear name; `'unknown'` to none. */
  lemma ClassNamesNormalise()
    ensures SimpleName(ClassName(0)) == Some("coverall")
    ensures SimpleName(ClassName(1)) == Some("face_shield")
    ensures SimpleName(ClassName(2)) == Some("gloves")
    ensures SimpleName(ClassName(3)) == Some("goggles")
    ensures SimpleName(ClassName(4)) == Some("mask")
    ensures SimpleName("unknown") == None
  {
    NormaliseCoverall(ClassName(0));
    NormaliseFaceShield(ClassName(1));
    NormaliseGloves(ClassName(2));
    NormaliseGoggles(ClassName(3));
    NormaliseMask(ClassName(4));
    NormaliseUnknown("unknown");
  }

  /** `lower` is `s` lower-cased, checked character by character. */
  lemma LowerIs(s: string, lower: string)
    requires |s| == |lower| && forall i :: 0 <= i < |s| ==> LowerChar(s[i]) == lower[i]
    ensures Lower(s) == lower
  {
  }

  lemma NormaliseCoverall(name: string)
    requires name == "Coverall"
    ensures SimpleName(name) == Some("coverall")
  {
    var lower := "coverall";
    LowerIs(name, lower);
    CoverallLacksEarlierGear(lower);
    NormalisesTo(name, lower, 2);
  }

  lemma CoverallLacksEarlierGear(s: string)
    requires s == "coverall"
    ensures forall j :: 0 <= j < 2 ==> !Contains(s, GearOrder[j])
  {
    NotContainsMissingChar(s, "mask", 0);
    NotContainsMissingChar(s, "gloves", 0);
  }

  /** A name without `g`, `m` or `o` contains none of the first four gear names. */
  lemma LacksFirstFourGear(s: string)
    requires 'g' !in s && 'm' !in s && 'o' !in s
    ensures forall j :: 0 <= j < 4 ==> !Contains(s, GearOrder[j])
  {
    NotContainsMissingChar(s, "mask", 0);
    NotContainsMissingChar(s, "gloves", 0);
    NotContainsMissingChar(s, "coverall", 1);
    NotContainsMissingChar(s, "goggles", 0);
  }

  lemma NormaliseFaceShield(name: string)
    requires name == "Face_Shield"
    ensures SimpleName(name) == Some("face_shield")
  {
    var lower := "face_shield";
    LowerIs(name, lower);
    LacksFirstFourGear(lower);
    NormalisesTo(name, lower, 4);
  }

  lemma NormaliseGloves(name: string)
    requires name == "Gloves"
    ensures SimpleName(name) == Some("gloves")
  {
    var lower := "gloves";
    LowerIs(name, lower);
    NotContainsMissingChar(lower, "mask", 0);
    NormalisesTo(name, lower, 1);
  }

  lemma NormaliseGoggles(name: string)
    requires name == "Goggles"
    ensures SimpleName(name) == Some("goggles")
  {
    var lower := "goggles";
    LowerIs(name, lower);
    GogglesLacksEarlierGear(lower);
    NormalisesTo(name, lower, 3);
  }

  lemma GogglesLacksEarlierGear(s: string)
    requires s == "goggles"
    ensures forall j :: 0 <= j < 3 ==> !Contains(s, GearOrder[j])
  {
    NotContainsMissingChar(s, "mask", 0);
    NotContainsMissingChar(s, "gloves", 3);
    NotContainsMissingChar(s, "coverall", 0);
  }

  lemma NormaliseMask(name: string)
    requires name == "Mask"
    ensures SimpleName(name) == Some("mask")
  {
    var lower := "mask";
    LowerIs(name, lower);
    NormalisesTo(name, lower, 0);
  }

  lemma NormaliseUnknown(name: string)
    requires name == "unknown"
    ensures SimpleName(name) == None
  {
    LowerIs(name, name);
    NotContainsMissingChar(name, "mask", 0);
    NotContainsMissingChar(name, "gloves", 0);
    NotContainsMissingChar(name, "coverall", 0);
    NotContainsMissingChar(name, "goggles", 0);
    NotContainsMissingChar(name, "face_shield", 0);
    forall g | g in GearOrder ensures !Contains(Lower(name), g) {
    }
  }

  /** The keypoint indices that can confirm gear of the given type (COCO numbering:
      0 nose, 1-2 eyes, 3-4 ears, 5-6 shoulders, 9-10 wrists, 11-12 hips). */
  function RelevantKeypoints(equipType: string): (ks: seq<nat>)
    ensures forall g :: g in GearOrder && Contains(equipType, g) ==> |ks| > 0
  {
    if Contains(equipType, "mask") then [0, 3, 4]
    else if Contains(equipType, "goggles") then [1, 2]
    else if Contains(equipType, "face_shield") then [0, 1, 2]
    else if Contains(equipType, "gloves") then [9, 10]
    else if Contains(equipType, "coverall") then [5, 6, 11, 12]
    else []
  }

  /** The body parts checked for each normalised gear name. */
  lemma GearKeypoints()
    ensures RelevantKeypoints("mask") == [0, 3, 4]
    ensures RelevantKeypoints("goggles") == [1, 2]
    ensures RelevantKeypoints("face_shield") == [0, 1, 2]
    ensures RelevantKeypoints("gloves") == [9, 10]
    ensures RelevantKeypoints("coverall") == [5, 6, 11, 12]
  {
    StartsWithContains("mask", "mask");
    GogglesKeypoints("goggles");
    FaceShieldKeypoints("face_shield");
    GlovesKeypoints("gloves");
    CoverallKeypoints("coverall");
  }

  lemma GogglesKeypoints(g: string)
    requires g == "goggles"
    ensures RelevantKeypoints(g) == [1, 2]
  {
    NotContainsMissingChar(g, "mask", 0);
    StartsWithContains(g, "goggles");
  }

  lemma FaceShieldKeypoints(g: string)
    requires g == "face_shield"
    ensures RelevantKeypoints(g) == [0, 1, 2]
  {
    FaceShieldLacksEarlierGear(g);
    StartsWithContains(g, "face_shield");
  }

  lemma FaceShieldLacksEarlierGear(g: string)
    requires g == "face_shield"
    ensures !Contains(g, "mask") && !Contains(g, "goggles")
  {
    NotContainsMissingChar(g, "mask", 0);
    NotContainsMissingChar(g, "goggles", 0);
  }

  lemma GlovesKeypoints(g: string)
    requires g == "gloves"
    ensures RelevantKeypoints(g) == [9, 10]
  {
    NotContainsMissingChar(g, "mask", 0);
    if Contains(g, "goggles") {
      ContainsLength(g, "goggles");
    }
    NotContainsMissingChar(g, "face_shield", 0);
    StartsWithContains(g, "gloves");
  }

  lemma CoverallKeypoints(g: string)
    requires g == "coverall"
    ensures RelevantKeypoints(g) == [5, 6, 11, 12]
  {
    NotContainsMissingChar(g, "mask", 0);
    NotContainsMissingChar(g, "goggles", 0);
    NotContainsMissingChar(g, "face_shield", 0);
    NotContainsMissingChar(g, "gloves", 0);
    StartsWithContains(g, "coverall");
  }

  /** Some index of `idxs` names an existing keypoint strictly inside the box. */
  function AnyInside(idxs: seq<nat>, kps: seq<Point>, box: Box): (r: bool)
    ensures r <==> exists j :: 0 <= j < |idxs| && idxs[j] < |kps| && StrictlyInside(kps[idxs[j]], box)
  {
    if |idxs| == 0 then false
    else if idxs[0] < |kps| && StrictlyInside(kps[idxs[0]], box) then true
    else
      var r := AnyInside(idxs[1..], kps, box);
      assert forall j :: 1 <= j < |idxs| ==> idxs[1..][j - 1] == idxs[j];
      r
  }

  /** `check_keypoint_association`: one of the relevant keypoints that the person has
      lies strictly inside the equipment box. */
  function CheckKeypointAssociation(equipBox: Box, kps: seq<Point>, equipType: string): (r: bool)
    ensures r <==> exists k :: k in RelevantKeypoints(equipType) && k < |kps| && StrictlyInside(kps[k], equipBox)
  {
    var ks := RelevantKeypoints(equipType);
    var r := AnyInside(ks, kps, equipBox);
    assert r ==> exists k :: k in ks && k < |kps| && StrictlyInside(kps[k], equipBox);
    assert (exists k :: k in ks && k < |kps| && StrictlyInside(kps[k], equipBox)) ==> r by {
      if exists k :: k in ks && k < |kps| && StrictlyInside(kps[k], equipBox) {
        var k :| k in ks && k < |kps| && StrictlyInside(kps[k], equipBox);
        var j :| 0 <= j < |ks| && ks[j] == k;
      }
    }
    r
  }

  /** An equipment type naming none of the five gear items is never associated. */
  lemma UnknownTypeNeverAssociated(equipBox: Box, kps: seq<Point>, equipType: string)
    requires forall g :: g in GearOrder ==> !Contains(equipType, g)
    ensures !CheckKeypointAssociation(equipBox, kps, equipType)
  {
    assert GearOrder[0] == "mask" && GearOrder[1] == "gloves" && GearOrder[2] == "coverall";
    assert GearOrder[3] == "goggles" && GearOrder[4] == "face_shield";
  }

  // ---------------------------------------------------------------------------
  // Compliance
  // ---------------------------------------------------------------------------

  /** The equipment item `e` credits the person (box, keypoints) with gear `g`. */
  predicate Credits(box: Box, kps: seq<Point>, e: Equip, g: string) {
    SimpleName(e.className) == Some(g) && IsOverlapping(box, e.box) && CheckKeypointAssociation(e.box, kps, g)
  }

  /** Gathering credited names one item at a time: the names credited by all items are
      those credited by the earlier ones plus those the last one credits. */
  lemma CreditedUnionStep<T>(items: seq<T>, credits: (T, string) -> bool, rest: set<string>, add: set<string>)
    requires |items| > 0
    requires forall h :: h in rest <==> exists j :: 0 <= j < |items| - 1 && credits(items[j], h)
    requires forall h :: h in add <==> credits(items[|items| - 1], h)
    ensures forall h :: h in rest + add <==> exists j :: 0 <= j < |items| && credits(items[j], h)
  {
  }

  /** `person_gear`: the gear some equipment item credits to the person. */
  function PersonGear(box: Box, kps: seq<Point>, equip: seq<Equip>): (gear: set<string>)
    ensures gear <= GearNames
    ensures forall g :: g in gear <==> exists j :: 0 <= j < |equip| && Credits(box, kps, equip[j], g)
  {
    if |equip| == 0 then {}
    else
      var rest := PersonGear(box, kps, equip[..|equip| - 1]);
      var e := equip[|equip| - 1];
      assert forall j :: 0 <= j < |equip| - 1 ==> equip[..|equip| - 1][j] == equip[j];
      var add :=
        match SimpleName(e.className)
        case Some(g) => if IsOverlapping(box, e.box) && CheckKeypointAssociation(e.box, kps, g) then {g} else {}
        case None => {};
      CreditedUnionStep(equip, (x, h) => Credits(box, kps, x, h), rest, add);
      rest + add
  }

  /** The pose data cached between inference frames: track ids, person boxes and, for
      each person, its keypoints. */
  datatype PoseData = PoseData(ids: seq<int>, boxes: seq<Box>, kps: seq<seq<Point>>)

  /** One entry of `persons_data`. The ISO timestamp is passed in as `timestamp`. */
  datatype PersonRecord = PersonRecord(id: int, timestamp: int, status: string, detected: set<string>, missing: set<string>)

  function NumPersons(p: PoseData): (n: nat)
    ensures n <= |p.ids| && n <= |p.boxes| && n <= |p.kps|
    ensures n == |p.ids| || n == |p.boxes| || n == |p.kps|
  {
    if |p.ids| <= |p.boxes| && |p.ids| <= |p.kps| then |p.ids|
    else if |p.boxes| <= |p.kps| then |p.boxes|
    else |p.kps|
  }

  function PersonRecordOf(required: set<string>, p: PoseData, i: nat, equip: seq<Equip>, timestamp: int): PersonRecord
    requires i < NumPersons(p)
  {
    var gear := PersonGear(p.boxes[i], p.kps[i], equip);
    var missing := required - gear;
    PersonRecord(p.ids[i], timestamp, if missing != {} then "VIOLATION" else "COMPLIANT", gear, missing)
  }

  /** `compute_compliance`: one record per person of `zip(ids, bboxes, kps)`, judged
      against the current required gear. */
  function ComputeCompliance(required: set<string>, pose: Option<PoseData>, equip: seq<Equip>, timestamp: int): (records: seq<PersonRecord>)
    ensures pose.None? ==> records == []
    ensures pose.Some? ==> |records| == NumPersons(pose.value)
    ensures pose.Some? ==> forall i :: 0 <= i < |records| ==>
      records[i].id == pose.value.ids[i]
      && records[i].detected == PersonGear(pose.value.boxes[i], pose.value.kps[i], equip)
      && records[i].missing == required - records[i].detected
  {
    match pose
    case None => []
    case Some(p) =>
      seq(NumPersons(p), i requires 0 <= i < NumPersons(p) => PersonRecordOf(required, p, i, equip, timestamp))
  }

  /** What every record promises: the status is `"VIOLATION"` exactly when some required
      item was not credited (else `"COMPLIANT"`), the missing items are the required
      ones not detected, and detected and missing gear never overlap. */
  lemma RecordMeaning(required: set<string>, pose: Option<PoseData>, equip: seq<Equip>, timestamp: int, i: nat)
    requires pose.Some? && i < |ComputeCompliance(required, pose, equip, timestamp)|
    ensures var r := ComputeCompliance(required, pose, equip, timestamp)[i];
      var box := pose.value.boxes[i];
      var kps := pose.value.kps[i];
      && (r.status == "VIOLATION" <==> exists g :: g in required && forall j :: 0 <= j < |equip| ==> !Credits(box, kps, equip[j], g))
      && (r.status == "COMPLIANT" <==> forall g :: g in required ==> exists j :: 0 <= j < |equip| && Credits(box, kps, equip[j], g))
      && (forall g :: g in r.missing <==> g in required && g !in r.detected)
      && r.detected * r.missing == {}
      && r.detected <= GearNames
  {
    var r := ComputeCompliance(required, pose, equip, timestamp)[i];
    var box := pose.value.boxes[i];
    var kps := pose.value.kps[i];
    assert r == PersonRecordOf(required, pose.value, i, equip, timestamp);
    assert r.detected == PersonGear(box, kps, equip);
    if r.missing != {} {
      var g :| g in r.missing;
      assert g in required && forall j :: 0 <= j < |equip| ==> !Credits(box, kps, equip[j], g);
      assert r.status == "VIOLATION";
    } else {
      assert r.status == "COMPLIANT";
      forall g | g in required ensures exists j :: 0 <= j < |equip| && Credits(box, kps, equip[j], g) {
        assert g !in r.missing;
        assert g in r.detected;
      }
    }
  }

  // ---------------------------------------------------------------------------
  // The monitor and process_frame
  // ---------------------------------------------------------------------------

  /** The state of a `SafetyMonitor`. `hasObjectModel` is false in demo mode, when the
      equipment model file was not found. */
  datatype Monitor = Monitor(
    isActive: bool,
    generalConf: real,
    requiredGear: set<string>,
    frameCount: nat,
    lastPose: Option<PoseData>,
    lastEquip: seq<Equip>,
    hasObjectModel: bool)

  /** `SafetyMonitor.__init__` after the models are loaded. */
  function NewMonitor(hasObjectModel: bool): (m: Monitor)
    ensures !m.isActive && m.frameCount == 0 && m.lastPose.None? && m.lastEquip == []
    ensures m.requiredGear == GearNames && m.generalConf == DefaultGeneralConf
  {
    Monitor(false, DefaultGeneralConf, GearNames, 0, None, [], hasObjectModel)
  }

  /** `set_active`. */
  function SetActive(m: Monitor, status: bool): (r: Monitor)
    ensures r.isActive == status
    ensures r.(isActive := m.isActive) == m
  {
    m.(isActive := status)
  }

  /** `set_confidence`. */
  function SetConfidence(m: Monitor, val: real): (r: Monitor)
    ensures r.generalConf == val
    ensures r.(generalConf := m.generalConf) == m
  {
    m.(generalConf := val)
  }

  /** `update_requirements`: the required gear becomes the set of the given items. */
  function UpdateRequirements(m: Monitor, activeGear: seq<string>): (r: Monitor)
    ensures forall g :: g in r.requiredGear <==> g in activeGear
    ensures r.(requiredGear := m.requiredGear) == m
  {
    m.(requiredGear := set g | g in activeGear)
  }

  /** Lists with the same items give the same rules: order and duplicates are lost. */
  lemma UpdateRequirementsIgnoresOrderAndDuplicates(m: Monitor, a: seq<string>, b: seq<string>)
    requires forall g :: g in a <==> g in b
    ensures UpdateRequirements(m, a) == UpdateRequirements(m, b)
  {
    assert UpdateRequirements(m, a).requiredGear == UpdateRequirements(m, b).requiredGear;
  }

  /** `SKIP_FRAMES`. */
  const SkipFrames: nat := 2

  /** Inference runs on the first frame and on every `(SKIP_FRAMES + 1)`-th frame. */
  predicate RunsInference(count: nat) {
    !(count > 1 && count % (SkipFrames + 1) != 0)
  }

  /** The schedule in closed form: frames 1, 3, 6, 9, ... run inference. */
  lemma InferenceSchedule(count: nat)
    requires count >= 1
    ensures RunsInference(count) <==> count == 1 || count % 3 == 0
  {
  }

  /** Of any three consecutive frames, at least one runs fresh inference, so cached
      data is never more than two frames old. */
  lemma NoThreeSkippedInARow(count: nat)
    requires count >= 1
    ensures RunsInference(count) || RunsInference(count + 1) || RunsInference(count + 2)
  {
    assert count % 3 == 0 || (count + 1) % 3 == 0 || (count + 2) % 3 == 0;
  }

  /** What the tracker returns for a frame: person boxes, track ids when the tracker
      assigned any, and the keypoints of each person. */
  datatype PoseOutput = PoseOutput(boxes: seq<Box>, trackIds: Option<seq<int>>, keypoints: seq<seq<Point>>)

  /** The two model outputs for one frame. */
  datatype FrameInference = FrameInference(pose: PoseOutput, detections: seq<RawDetection>)

  /** The pose data stored after inference: none unless both boxes and keypoints are
      non-empty; missing track ids become id 0 for every box. */
  function StorePose(out: PoseOutput): (r: Option<PoseData>)
    ensures r.Some? <==> |out.boxes| > 0 && |out.keypoints| > 0
    ensures r.Some? && out.trackIds.None? ==> |r.value.ids| == |out.boxes| && forall i :: 0 <= i < |r.value.ids| ==> r.value.ids[i] == 0
    ensures r.Some? ==> r.value.boxes == out.boxes && r.value.kps == out.keypoints
  {
    if |out.boxes| > 0 && |out.keypoints| > 0 then
      Some(PoseData(out.trackIds.GetOr(seq(|out.boxes|, _ => 0)), out.boxes, out.keypoints))
    else None
  }

  /** `process_frame`: the new monitor state and the person records of the frame. */
  function ProcessFrame(m: Monitor, inf: FrameInference, timestamp: int): (r: (Monitor, seq<PersonRecord>))
    ensures !m.isActive ==> r == (m, [])
    ensures m.isActive ==> r.0.frameCount == m.frameCount + 1
    ensures m.isActive ==> r.1 == ComputeCompliance(m.requiredGear, r.0.lastPose, r.0.lastEquip, timestamp)
    ensures r.0.isActive == m.isActive && r.0.generalConf == m.generalConf && r.0.requiredGear == m.requiredGear
  {
    if !m.isActive then (m, [])
    else
      var count := m.frameCount + 1;
      var m1 :=
        if RunsInference(count) then
          m.(frameCount := count,
             lastEquip := if m.hasObjectModel then KeptEquipment(m.generalConf, inf.detections) else [],
             lastPose := StorePose(inf.pose))
        else m.(frameCount := count);
      (m1, ComputeCompliance(m1.requiredGear, m1.lastPose, m1.lastEquip, timestamp))
  }

  /** On a skipped frame the cached pose and equipment data are reused unchanged. */
  lemma SkippedFrameReusesCache(m: Monitor, inf: FrameInference, timestamp: int)
    requires m.isActive && !RunsInference(m.frameCount + 1)
    ensures ProcessFrame(m, inf, timestamp).0.lastPose == m.lastPose
    ensures ProcessFrame(m, inf, timestamp).0.lastEquip == m.lastEquip
  {
  }

  /** On an inference frame the cache is replaced by the filtered detections (none in
      demo mode) and the stored pose. */
  lemma InferenceFrameRefreshesCache(m: Monitor, inf: FrameInference, timestamp: int)
    requires m.isActive && RunsInference(m.frameCount + 1)
    ensures ProcessFrame(m, inf, timestamp).0.lastEquip == (if m.hasObjectModel then KeptEquipment(m.generalConf, inf.detections) else [])
    ensures ProcessFrame(m, inf, timestamp).0.lastPose == StorePose(inf.pose)
  {
  }

  /** A rule change applies to the very next active frame, skipped or not: every
      record's missing gear is judged against the new list. */
  lemma NewRulesApplyNextFrame(m: Monitor, gear: seq<string>, inf: FrameInference, timestamp: int, i: nat)
    requires m.isActive
    requires i < |ProcessFrame(UpdateRequirements(m, gear), inf, timestamp).1|
    ensures var rec := ProcessFrame(UpdateRequirements(m, gear), inf, timestamp).1[i];
      forall g :: g in rec.missing <==> g in gear && g !in rec.detected
  {
    var m2 := UpdateRequirements(m, gear);
    var out := ProcessFrame(m2, inf, timestamp);
    assert out.0.lastPose.Some?;
    RecordMeaning(m2.requiredGear, out.0.lastPose, out.0.lastEquip, timestamp, i);
  }
}

=== FILE: stats_cards.dfy ===
/** The four headline cards of the dashboard: active violations, cameras online,
    compliance score and recent detections, derived from three requests settled
    together. */
module StatsCards {

  import opened Wrappers
  import opened Text
  import opened Json
  import opened ApiClient

  /** The card values. `complianceRate` is the value printed in front of the `%`
      sign; its number-to-text conversion is not modelled. */
  datatype Stats = Stats(activeViolations: Json, camerasOnline: string, complianceRate: Json, totalProcessed: nat)

  datatype Cards = Cards(stats: Stats, loading: bool)

  const InitialStats: Stats := Stats(JNum(0.0), "0/0", JNum(100.0), 0)

  const InitialCards: Cards := Cards(InitialStats, true)

  /** `x.length`: defined on arrays and strings, `undefined` on other values. A `JTime`
      stands for an ISO string whose characters are not modelled, so it is given no length;
      no payload these cards read carries a timestamp. */
  function JsLength(j: Json): (r: Option<nat>)
    ensures r.Some? <==> j.JArr? || j.JStr?
    ensures j.JArr? ==> r == Some(|j.items|)
  {
    match j
    case JArr(items) => Some(|items|)
    case JStr(s) => Some(|s|)
    case _ => None
  }

  /** `${n}` of a length. */
  function LengthText(n: Option<nat>): string {
    if n.Some? then NatToString(n.value) else "undefined"
  }

  /** `${activeCams}/${activeCams}`. */
  function CamerasOnline(cameras: Json): (t: string)
    ensures t == LengthText(JsLength(cameras)) + "/" + LengthText(JsLength(cameras))
  {
    var n := LengthText(JsLength(cameras));
    n + "/" + n
  }

  /** For a camera list the card reads back as the list's length on both sides of
      the slash. */
  lemma CamerasOnlineReadsBack(cameras: Json)
    requires cameras.JArr?
    ensures BeforeFirst(CamerasOnline(cameras), '/') == NatToString(|cameras.items|)
    ensures AfterFirst(CamerasOnline(cameras), '/') == Some(NatToString(|cameras.items|))
    ensures ParseInt(BeforeFirst(CamerasOnline(cameras), '/')) == Some(|cameras.items|)
  {
    var n := NatToString(|cameras.items|);
    assert '/' !in n by {
      forall i | 0 <= i < |n| ensures n[i] != '/' {
        assert IsDigit(n[i]);
      }
    }
    assert CamerasOnline(cameras) == n + ['/'] + n;
    BeforeFirstOfPrefixed(n, '/', n);
    AfterFirstOfPrefixed(n, '/', n);
    ParseIntOfNatToString(|cameras.items|);
  }

  /** `obj.key || fallback`. */
  function OrElse(v: Option<Json>, fallback: Json): (r: Json)
    ensures v.Some? && Truthy(v.value) ==> r == v.value
    ensures !(v.Some? && Truthy(v.value)) ==> r == fallback
  {
    if v.Some? && Truthy(v.value) then v.value else fallback
  }

  /** `logsData.logs?.length || 0`: a missing or null list, or one without a length,
      counts as 0. */
  function ProcessedCount(logsData: Json): (n: nat)
    ensures Field(logsData, "logs").Some? && Field(logsData, "logs").value.JArr? ==>
      n == |Field(logsData, "logs").value.items|
    ensures Field(logsData, "logs").None? ==> n == 0
  {
    var logs := Field(logsData, "logs");
    if logs.Some? then JsLength(logs.value).GetOr(0) else 0
  }

  /** The body of the `.then` callback. Reading a property of `null` throws, so a
      `null` payload yields `None` (the callback fails and `.catch` runs). */
  function Derive(backendStats: Json, cameras: Json, logsData: Json): (r: Option<Stats>)
    ensures r.None? <==> backendStats == JNull || cameras == JNull || logsData == JNull
    ensures r.Some? ==> r.value.camerasOnline == CamerasOnline(cameras)
    ensures r.Some? ==> r.value.activeViolations == OrElse(Field(backendStats, "total_violations"), JNum(0.0))
    ensures r.Some? ==> r.value.complianceRate == OrElse(Field(backendStats, "compliance_rate"), JNum(100.0))
    ensures r.Some? ==> r.value.totalProcessed == ProcessedCount(logsData)
  {
    if backendStats == JNull || cameras == JNull || logsData == JNull then None
    else Some(Stats(
      OrElse(Field(backendStats, "total_violations"), JNum(0.0)),
      CamerasOnline(cameras),
      OrElse(Field(backendStats, "compliance_rate"), JNum(100.0)),
      ProcessedCount(logsData)))
  }

  /** `Promise.all([...])`: resolves with all three values, or rejects if any rejects. */
  function All3(a: Settled<Json>, b: Settled<Json>, c: Settled<Json>): (r: Settled<(Json, Json, Json)>)
    ensures r.Resolved? <==> a.Resolved? && b.Resolved? && c.Resolved?
    ensures r.Resolved? ==> r.value == (a.value, b.value, c.value)
  {
    if a.Resolved? && b.Resolved? && c.Resolved? then Resolved((a.value, b.value, c.value)) else Rejected
  }

  /** The effect once `getStats()`, `getCameras()` and `getLogs()` have settled: the
      stats are replaced when the callback succeeds, and the skeletons go away either
      way. */
  function Settle(c: Cards, stats: Settled<Json>, cameras: Settled<Json>, logs: Settled<Json>): (r: Cards)
    ensures !r.loading
    ensures All3(stats, cameras, logs).Rejected? ==> r.stats == c.stats
    ensures All3(stats, cameras, logs).Resolved? ==>
      var (s, k, l) := All3(stats, cameras, logs).value;
      r.stats == Derive(s, k, l).GetOr(c.stats)
  {
    match All3(stats, cameras, logs)
    case Rejected => c.(loading := false)
    case Resolved((s, k, l)) => Cards(Derive(s, k, l).GetOr(c.stats), false)
  }

  /** A reported compliance rate of exactly 0 is falsy and shows as the 100 default,
      the same as a missing rate. */
  lemma ZeroComplianceShowsFull(backendStats: Json, cameras: Json, logsData: Json)
    requires backendStats.JObj? && cameras != JNull && logsData != JNull
    requires Field(backendStats, "compliance_rate") == Some(JNum(0.0))
    ensures Derive(backendStats, cameras, logsData).Some?
    ensures Derive(backendStats, cameras, logsData).value.complianceRate == JNum(100.0)
    ensures Derive(backendStats, cameras, logsData).value.complianceRate
         == Derive(JObj([]), cameras, logsData).value.complianceRate
  {
  }

  lemma StatsMockFields()
    ensures Field(StatsMock, "total_violations") == Some(JNum(4.0))
    ensures Field(StatsMock, "compliance_rate") == Some(JNum(87.5))
  {
    var f := StatsMock.fields;
    assert f[5] == ("compliance_rate", Num(87.5));
    assert f[..5][4] == ("total_violations", Num(4.0));
    assert LastField(f, "total_violations") == LastField(f[..5], "total_violations");
  }

  /** Offline, all three requests resolve with their canned payloads. */
  lemma OfflineRequests(now: int)
    ensures All3(ApiRequest("/api/stats", now, NetworkFailure), ApiRequest("/api/cameras", now, NetworkFailure),
                 ApiRequest("/api/logs", now, NetworkFailure))
            == Resolved((StatsMock, CamerasMock, LogsMock(now)))
  {
    CamerasPathMock(now);
    LogsPathMock(now);
  }

  lemma DeriveOffline(now: int)
    ensures Derive(StatsMock, CamerasMock, LogsMock(now)) == Some(Stats(JNum(4.0), "3/3", JNum(87.5), 3))
  {
    StatsMockFields();
    LogsPageField(JArr(MockLogs(now)), Num(127.0), Num(1.0));
    assert CamerasOnline(CamerasMock) == "3/3";
  }

  /** With the backend unreachable the cards show 4 violations, "3/3" cameras, 87.5
      compliance and 3 detections. */
  lemma OfflineCards(c: Cards, now: int)
    ensures Settle(c, ApiRequest("/api/stats", now, NetworkFailure), ApiRequest("/api/cameras", now, NetworkFailure),
                   ApiRequest("/api/logs", now, NetworkFailure))
            == Cards(Stats(JNum(4.0), "3/3", JNum(87.5), 3), false)
  {
    OfflineRequests(now);
    DeriveOffline(now);
  }
}

=== FILE: system_status.dfy ===
/** The "System Status" card of the dashboard: four status lines derived from the
    monitor-status and threshold requests, their colour and icon, and the periodic
    re-check. */
module SystemStatus {

  import opened Wrappers
  import opened Text
  import opened Json
  import opened ApiClient

  datatype ItemStatus = Operational | Warning | Error | Loading

  datatype SystemItem = SystemItem(name: string, status: ItemStatus, detail: string)

  /** The four lines, always in this order. */
  const ItemNames: seq<string> := ["Backend Server", "AI Model", "Video Stream", "Monitoring"]

  predicate WellFormed(items: seq<SystemItem>) {
    |items| == |ItemNames| && forall i :: 0 <= i < |items| ==> items[i].name == ItemNames[i]
  }

  /** The lines as first rendered: every one is still being checked. */
  const InitialItems: seq<SystemItem> := [
    SystemItem("Backend Server", Loading, "Checking connection..."),
    SystemItem("AI Model", Loading, "Checking status..."),
    SystemItem("Video Stream", Loading, "Checking feed..."),
    SystemItem("Monitoring", Loading, "Checking status...")
  ]

  /** The lines shown when a check throws. */
  const OfflineItems: seq<SystemItem> := [
    SystemItem("Backend Server", Warning, "Using mock data"),
    SystemItem("AI Model", Operational, "Ready (offline mode)"),
    SystemItem("Video Stream", Warning, "Backend required"),
    SystemItem("Monitoring", Warning, "Start backend to enable")
  ]

  /** `Math.round(x)`: the nearest integer, halves rounded up. */
  function Round(x: real): (r: int)
    ensures r as real - 0.5 <= x < r as real + 0.5
  {
    (x + 0.5).Floor
  }

  /** `thresholdSettings.conf * 100` for the values whose coercion is modelled:
      `undefined` is NaN (`None` here), `null` is 0, booleans are 0 or 1. */
  function ConfPercent(conf: Option<Json>): (r: Option<real>)
    ensures conf.Some? && conf.value.JNum? ==> r == Some(conf.value.n * 100.0)
    ensures conf.None? ==> r.None?
  {
    if conf.None? then None
    else match conf.value
      case JNum(n) => Some(n * 100.0)
      case JNull => Some(0.0)
      case JBool(b) => Some(if b then 100.0 else 0.0)
      case _ => None
  }

  /** The AI Model line: `Confidence: ${Math.round(conf * 100)}%`. */
  function ConfidenceText(conf: Option<Json>): (t: string)
    ensures StartsWith(t, "Confidence: ") && t[|t| - 1] == '%'
    ensures ConfPercent(conf).None? ==> t == "Confidence: NaN%"
    ensures ConfPercent(conf).Some? ==> t[12..|t| - 1] == IntToString(Round(ConfPercent(conf).value))
  {
    var p := ConfPercent(conf);
    var t := "Confidence: " + (if p.Some? then IntToString(Round(p.value)) else "NaN") + "%";
    assert t[12..|t| - 1] == if p.Some? then IntToString(Round(p.value)) else "NaN";
    t
  }

  /** The lines after a successful check. */
  function OnlineItems(active: bool, conf: Option<Json>): (r: seq<SystemItem>)
    ensures WellFormed(r)
    ensures r[0].status == Operational && r[1].status == Operational && r[2].status == Operational
    ensures r[1].detail == ConfidenceText(conf)
    ensures r[3].status == Operational <==> active
    ensures r[3].status == (if active then Operational else Warning)
    ensures r[3].detail == (if active then "Detection active" else "Paused")
  {
    [
      SystemItem("Backend Server", Operational, "FastAPI running on port 8000"),
      SystemItem("AI Model", Operational, ConfidenceText(conf)),
      SystemItem("Video Stream", Operational, "MJPEG feed available"),
      SystemItem("Monitoring", if active then Operational else Warning, if active then "Detection active" else "Paused")
    ]
  }

  /** `checkBackendStatus()`: the monitor status is awaited first, then the threshold;
      a rejection of either, or reading a field of a `null` payload, lands in the
      `catch` and shows the offline lines. */
  function Check(monitor: Settled<Json>, threshold: Settled<Json>): (r: seq<SystemItem>)
    ensures WellFormed(r)
    ensures monitor.Rejected? || threshold.Rejected? ==> r == OfflineItems
    ensures monitor.Resolved? && threshold.Resolved? && (monitor.value == JNull || threshold.value == JNull)
            ==> r == OfflineItems
    ensures monitor.Resolved? && threshold.Resolved? && monitor.value != JNull && threshold.value != JNull ==>
      r == OnlineItems(HasTruthyField(monitor.value, "active"), Field(threshold.value, "conf"))
  {
    if monitor.Rejected? || threshold.Rejected? then OfflineItems
    else if monitor.value == JNull || threshold.value == JNull then OfflineItems
    else OnlineItems(HasTruthyField(monitor.value, "active"), Field(threshold.value, "conf"))
  }

  /** The offline lines are only reached through a failure: any two non-null payloads
      give the online lines, whose server line is operational. */
  lemma OfflineOnlyOnFailure(monitor: Settled<Json>, threshold: Settled<Json>)
    ensures Check(monitor, threshold) == OfflineItems <==>
      monitor.Rejected? || threshold.Rejected? || monitor.value == JNull || threshold.value == JNull
  {
    if !(monitor.Rejected? || threshold.Rejected? || monitor.value == JNull || threshold.value == JNull) {
      assert Check(monitor, threshold)[0].status != OfflineItems[0].status;
    }
  }

  lemma OfflinePayloads(now: int)
    ensures ApiRequest("/api/monitor/status", now, NetworkFailure) == Resolved(JObj([("active", JBool(false))]))
    ensures ApiRequest("/api/settings/threshold", now, NetworkFailure) == Resolved(JObj([("conf", Num(0.50))]))
  {
    StatusPathMock(now);
    ThresholdPathMock(now);
  }

  lemma OfflineCheck(now: int)
    ensures Check(ApiRequest("/api/monitor/status", now, NetworkFailure),
                  ApiRequest("/api/settings/threshold", now, NetworkFailure))
            == OnlineItems(false, Some(JNum(0.50)))
  {
    OfflinePayloads(now);
    CheckOfMockPayloads(ApiRequest("/api/monitor/status", now, NetworkFailure),
                        ApiRequest("/api/settings/threshold", now, NetworkFailure));
  }

  lemma CheckOfMockPayloads(monitor: Settled<Json>, threshold: Settled<Json>)
    requires monitor == Resolved(JObj([("active", JBool(false))]))
    requires threshold == Resolved(JObj([("conf", Num(0.50))]))
    ensures Check(monitor, threshold) == OnlineItems(false, Some(JNum(0.50)))
  {
    assert Field(monitor.value, "active") == Some(JBool(false));
    assert Field(threshold.value, "conf") == Some(JNum(0.50));
  }

  lemma FiftyPercent()
    ensures ConfidenceText(Some(JNum(0.50))) == "Confidence: 50%"
  {
    assert Round(0.50 * 100.0) == 50;
    assert NatToString(50) == "50";
  }

  /** With the backend unreachable both requests resolve with mock data, so the card
      claims the server is operational, shows a 50% confidence and a paused monitor,
      and never shows the offline lines. */
  lemma UnreachableBackendLooksOnline(now: int)
    ensures var r := Check(ApiRequest("/api/monitor/status", now, NetworkFailure),
                           ApiRequest("/api/settings/threshold", now, NetworkFailure));
      r[0].status == Operational && r[1].detail == "Confidence: 50%" && r[3].detail == "Paused"
      && r != OfflineItems
  {
    OfflineCheck(now);
    FiftyPercent();
    var r := OnlineItems(false, Some(JNum(0.50)));
    assert r[0].status != OfflineItems[0].status;
  }

  // ---------------------------------------------------------------------------
  // Colour and icon
  // ---------------------------------------------------------------------------

  datatype Color = SuccessColor | PrimaryColor | WarningColor

  datatype Icon = CheckIcon | SpinnerIcon | ErrorAlertIcon | WarningAlertIcon

  /** `getStatusColor`: only "operational" and "error" have their own colour. */
  function StatusColor(s: ItemStatus): (c: Color)
    ensures c == SuccessColor <==> s == Operational
    ensures c == PrimaryColor <==> s == Error
    ensures c == WarningColor <==> s == Warning || s == Loading
  {
    match s
    case Operational => SuccessColor
    case Error => PrimaryColor
    case _ => WarningColor
  }

  /** `getStatusIcon`: one icon per status. */
  function StatusIcon(s: ItemStatus): (i: Icon)
    ensures i == SpinnerIcon <==> s == Loading
    ensures i == CheckIcon <==> s == Operational
  {
    match s
    case Operational => CheckIcon
    case Loading => SpinnerIcon
    case Error => ErrorAlertIcon
    case Warning => WarningAlertIcon
  }

  /** Distinct statuses get distinct icons, but a loading line is drawn in the warning
      colour. */
  lemma IconsDistinguishColoursDoNot(s: ItemStatus, t: ItemStatus)
    ensures StatusIcon(s) == StatusIcon(t) <==> s == t
    ensures StatusColor(Loading) == StatusColor(Warning)
  {
  }

  // ---------------------------------------------------------------------------
  // Periodic re-check
  // ---------------------------------------------------------------------------

  const StatusRefreshMs: nat := 30000

  /** The effect's bookkeeping: whether its interval is running and how many checks
      have started. */
  datatype Poll = Poll(intervalRunning: bool, checks: nat)

  datatype PollEvent = Mount | IntervalFires | Unmount

  /** Mounting checks once and starts the interval; a firing interval checks again;
      unmounting clears the interval. */
  function PollStep(p: Poll, e: PollEvent): (r: Poll)
    ensures e == Unmount ==> !r.intervalRunning && r.checks == p.checks
    ensures e == IntervalFires ==> r.intervalRunning == p.intervalRunning
    ensures e == IntervalFires ==> r.checks == p.checks + (if p.intervalRunning then 1 else 0)
  {
    match e
    case Mount => Poll(true, p.checks + 1)
    case IntervalFires => if p.intervalRunning then p.(checks := p.checks + 1) else p
    case Unmount => p.(intervalRunning := false)
  }

  function PollRun(p: Poll, events: seq<PollEvent>): Poll
    decreases |events|
  {
    if |events| == 0 then p else PollRun(PollStep(p, events[0]), events[1..])
  }

  /** After unmounting, later interval firings start no more checks. */
  lemma {:induction false} NoChecksAfterUnmount(p: Poll, firings: nat)
    ensures PollRun(PollStep(p, Unmount), seq(firings, _ => IntervalFires)).checks == p.checks
    ensures !PollRun(PollStep(p, Unmount), seq(firings, _ => IntervalFires)).intervalRunning
  {
    if firings > 0 {
      var q := PollStep(p, Unmount);
      var fs := seq(firings, _ => IntervalFires);
      assert fs[1..] == seq(firings - 1, _ => IntervalFires);
      assert PollStep(q, IntervalFires) == q;
      NoChecksAfterUnmount(p, firings - 1);
      assert PollStep(PollStep(p, Unmount), Unmount) == q;
    }
  }

  /** The number of checks started within the first `elapsedMs` milliseconds of a
      mounted card: the one on mount plus one per full interval. */
  function ChecksWithin(elapsedMs: nat): (n: nat)
    ensures n >= 1
    ensures (n - 1) * StatusRefreshMs <= elapsedMs < n * StatusRefreshMs
  {
    1 + elapsedMs / StatusRefreshMs
  }

  /** While the interval runs, each firing starts exactly one check. */
  lemma {:induction false} FiringsWhileRunning(p: Poll, k: nat)
    requires p.intervalRunning
    ensures PollRun(p, seq(k, _ => IntervalFires)) == p.(checks := p.checks + k)
    decreases k
  {
    if k > 0 {
      var fs := seq(k, _ => IntervalFires);
      assert fs[0] == IntervalFires;
      assert fs[1..] == seq(k - 1, _ => IntervalFires);
      FiringsWhileRunning(p.(checks := p.checks + 1), k - 1);
    }
  }

  /** Mounting followed by the firings that fit in `elapsedMs` (one per full interval)
      starts exactly `ChecksWithin(elapsedMs)` checks. */
  lemma MountedChecks(p: Poll, elapsedMs: nat)
    ensures PollRun(p, [Mount] + seq(elapsedMs / StatusRefreshMs, _ => IntervalFires)).checks
            == p.checks + ChecksWithin(elapsedMs)
  {
    var fs := seq(elapsedMs / StatusRefreshMs, _ => IntervalFires);
    assert ([Mount] + fs)[0] == Mount;
    assert ([Mount] + fs)[1..] == fs;
    FiringsWhileRunning(PollStep(p, Mount), elapsedMs / StatusRefreshMs);
  }
}

=== FILE: text.dfy ===
/** String helpers shared by the backend and the client models.
    Strings are `seq<char>`; case mapping is ASCII-only. */
module Text {

  import opened Wrappers

  /** `s.startsWith(p)` in JavaScript, `s.startswith(p)` in Python. */
  predicate StartsWith(s: string, p: string) {
    |p| <= |s| && s[..|p|] == p
  }

  /** `s.includes(sub)` in JavaScript, `sub in s` in Python: some window of `s` equals `sub`. */
  predicate Contains(s: string, sub: string)
    decreases |s|
  {
    StartsWith(s, sub) || (|s| > 0 && Contains(s[1..], sub))
  }

  /** `sub` occurs in `s` starting at offset `i`. */
  predicate OccursAt(s: string, sub: string, i: int) {
    0 <= i <= |s| - |sub| && s[i..i + |sub|] == sub
  }

  /** The quantified reading of `Contains`: `sub` occurs at some offset of `s`. */
  lemma {:induction false} ContainsIffOccurs(s: string, sub: string)
    ensures Contains(s, sub) <==> exists i :: OccursAt(s, sub, i)
    decreases |s|
  {
    if StartsWith(s, sub) {
      assert OccursAt(s, sub, 0);
    }
    if |s| > 0 {
      ContainsIffOccurs(s[1..], sub);
      if Contains(s[1..], sub) {
        var i :| OccursAt(s[1..], sub, i);
        assert OccursAt(s, sub, i + 1);
      }
      if exists i :: OccursAt(s, sub, i) {
        var i :| OccursAt(s, sub, i);
        if i > 0 {
          assert OccursAt(s[1..], sub, i - 1);
        }
      }
    } else {
      if exists i :: OccursAt(s, sub, i) {
        var i :| OccursAt(s, sub, i);
        assert i == 0;
      }
    }
  }

  /** A string never contains anything longer than itself. */
  lemma {:induction false} ContainsLength(s: string, sub: string)
    requires Contains(s, sub)
    ensures |sub| <= |s|
    decreases |s|
  {
    if !StartsWith(s, sub) {
      ContainsLength(s[1..], sub);
    }
  }

  /** Containment survives putting anything before or after the string. */
  lemma ContainsInContext(a: string, s: string, b: string, sub: string)
    requires Contains(s, sub)
    ensures Contains(a + s + b, sub)
  {
    ContainsIffOccurs(s, sub);
    var i :| OccursAt(s, sub, i);
    assert (a + s + b)[|a| + i..|a| + i + |sub|] == sub;
    assert OccursAt(a + s + b, sub, |a| + i);
    ContainsIffOccurs(a + s + b, sub);
  }

  /** A character that does not occur in `s` is not contained in it. */
  lemma CharNotContained(s: string, c: char)
    requires c !in s
    ensures !Contains(s, [c])
  {
    forall i | 0 <= i <= |s| - 1
      ensures !OccursAt(s, [c], i)
    {
      assert s[i..i + 1] == [s[i]];
    }
    ContainsIffOccurs(s, [c]);
  }

  /** ASCII lower-casing of one character (`str.lower()` / `toLowerCase()` on ASCII). */
  function LowerChar(c: char): (r: char)
    ensures 'A' <= c <= 'Z' ==> 'a' <= r <= 'z' && r as int - c as int == 32
    ensures !('A' <= c <= 'Z') ==> r == c
  {
    if 'A' <= c <= 'Z' then (c as int + 32) as char else c
  }

  /** ASCII upper-casing of one character. */
  function UpperChar(c: char): (r: char)
    ensures 'a' <= c <= 'z' ==> 'A' <= r <= 'Z' && c as int - r as int == 32
    ensures !('a' <= c <= 'z') ==> r == c
  {
    if 'a' <= c <= 'z' then (c as int - 32) as char else c
  }

  function Lower(s: string): (r: string)
    ensures |r| == |s|
    ensures forall i :: 0 <= i < |s| ==> r[i] == LowerChar(s[i])
  {
    if |s| == 0 then "" else [LowerChar(s[0])] + Lower(s[1..])
  }

  function Upper(s: string): (r: string)
    ensures |r| == |s|
    ensures forall i :: 0 <= i < |s| ==> r[i] == UpperChar(s[i])
  {
    if |s| == 0 then "" else [UpperChar(s[0])] + Upper(s[1..])
  }

  /** `s.charAt(0).toUpperCase() + s.slice(1)`: the label shown for a severity.
      On the empty string `charAt(0)` is `""`, so the result is `""`. */
  function Capitalize(s: string): (r: string)
    ensures |r| == |s|
    ensures |s| > 0 ==> r[0] == UpperChar(s[0]) && r[1..] == s[1..]
  {
    if |s| == 0 then "" else [UpperChar(s[0])] + s[1..]
  }

  predicate IsDigit(c: char) {
    '0' <= c <= '9'
  }

  function DigitChar(d: nat): (c: char)
    requires d < 10
    ensures IsDigit(c) && (c as int - '0' as int) == d
  {
    ('0' as int + d) as char
  }

  /** The decimal rendering of a natural number, as `String(n)` / `str(n)` print it. */
  function NatToString(n: nat): (r: string)
    ensures |r| > 0
    ensures forall i :: 0 <= i < |r| ==> IsDigit(r[i])
    ensures n < 10 ==> |r| == 1
    ensures n >= 10 ==> |r| >= 2 && r[0] != '0'
    ensures |r| > 1 ==> r[0] != '0'
  {
    if n < 10 then [DigitChar(n)] else NatToString(n / 10) + [DigitChar(n % 10)]
  }

  /** The decimal rendering of an integer, with a leading `-` for negatives. */
  function IntToString(i: int): (r: string)
    ensures i >= 0 ==> r == NatToString(i)
    ensures i < 0 ==> |r| >= 2 && r[0] == '-' && r[1..] == NatToString(-i)
  {
    if i < 0 then "-" + NatToString(-i) else NatToString(i)
  }

  /** The value of a string of decimal digits. */
  function DigitsValue(s: string): (v: nat)
    requires forall i :: 0 <= i < |s| ==> IsDigit(s[i])
  {
    if |s| == 0 then 0
    else
      var d := s[|s| - 1];
      assert IsDigit(d);
      DigitsValue(s[..|s| - 1]) * 10 + (d as int - '0' as int)
  }

  /** Rendering a number and reading its digits back gives the number. */
  lemma {:induction false} DigitsValueOfNatToString(n: nat)
    ensures DigitsValue(NatToString(n)) == n
  {
    if n >= 10 {
      var r := NatToString(n);
      assert r[..|r| - 1] == NatToString(n / 10);
      DigitsValueOfNatToString(n / 10);
    }
  }

  /** Different numbers render differently. */
  lemma IntToStringInjective(a: int, b: int)
    requires IntToString(a) == IntToString(b)
    ensures a == b
  {
    if a >= 0 && b >= 0 {
      NatToStringInjective(a, b);
    } else if a < 0 && b < 0 {
      NatToStringInjective(-a, -b);
    }
  }

  lemma NatToStringInjective(a: nat, b: nat)
    requires NatToString(a) == NatToString(b)
    ensures a == b
  {
    DigitsValueOfNatToString(a);
    DigitsValueOfNatToString(b);
  }

  /** `items.join(sep)`. */
  function Join(items: seq<string>, sep: string): (r: string)
    ensures |items| == 0 ==> r == ""
    ensures |items| == 1 ==> r == items[0]
  {
    if |items| == 0 then ""
    else if |items| == 1 then items[0]
    else items[0] + sep + Join(items[1..], sep)
  }

  /** Every item of a joined list occurs in the joined text. */
  lemma {:induction false} JoinContainsItems(items: seq<string>, sep: string, k: nat)
    requires k < |items|
    ensures Contains(Join(items, sep), items[k])
    decreases |items|
  {
    if |items| == 1 {
      ContainsInContext("", items[0], "", items[0]);
      assert "" + items[0] + "" == items[0];
    } else if k == 0 {
      ContainsInContext("", items[0], sep + Join(items[1..], sep), items[0]);
      assert "" + items[0] + (sep + Join(items[1..], sep)) == Join(items, sep);
    } else {
      JoinContainsItems(items[1..], sep, k - 1);
      ContainsInContext(items[0] + sep, Join(items[1..], sep), "", items[k]);
      assert items[0] + sep + Join(items[1..], sep) + "" == Join(items, sep);
    }
  }

  /** The text after the first occurrence of `c`, if `c` occurs. */
  function AfterFirst(s: string, c: char): (r: Option<string>)
    ensures r.None? <==> c !in s
    ensures r.Some? ==> |r.value| < |s| && r.value == s[|s| - |r.value|..] && s[|s| - |r.value| - 1] == c
    ensures r.Some? ==> c !in s[..|s| - |r.value| - 1]
  {
    if |s| == 0 then None
    else if s[0] == c then Some(s[1..])
    else AfterFirst(s[1..], c)
  }

  /** The text before the first occurrence of `c`, or all of `s`. */
  function BeforeFirst(s: string, c: char): (r: string)
    ensures c !in r
    ensures |r| <= |s| && r == s[..|r|]
    ensures |r| < |s| ==> s[|r|] == c
  {
    if |s| == 0 || s[0] == c then "" else [s[0]] + BeforeFirst(s[1..], c)
  }

  lemma {:induction false} AfterFirstOfPrefixed(p: string, c: char, rest: string)
    requires c !in p
    ensures AfterFirst(p + [c] + rest, c) == Some(rest)
  {
    if |p| == 0 {
      assert p + [c] + rest == [c] + rest;
    } else {
      assert (p + [c] + rest)[1..] == p[1..] + [c] + rest;
      AfterFirstOfPrefixed(p[1..], c, rest);
    }
  }

  lemma BeforeFirstAbsent(s: string, c: char)
    requires c !in s
    ensures BeforeFirst(s, c) == s
  {
  }

  /** `s.split(c)` in JavaScript: the pieces between occurrences of `c`. */
  function Split(s: string, c: char): (r: seq<string>)
    ensures |r| >= 1
    ensures forall i :: 0 <= i < |r| ==> c !in r[i]
    decreases |s|
  {
    var head := BeforeFirst(s, c);
    if |head| == |s| then [s] else [head] + Split(s[|head| + 1..], c)
  }

  lemma SplitAbsent(s: string, c: char)
    requires c !in s
    ensures Split(s, c) == [s]
  {
    BeforeFirstAbsent(s, c);
  }

  /** The text after the last occurrence of `c`, or all of `s` when `c` does not occur. */
  function AfterLast(s: string, c: char): (r: string)
    ensures c !in r
    ensures |r| <= |s| && r == s[|s| - |r|..]
    ensures |r| < |s| ==> s[|s| - |r| - 1] == c
    ensures |r| == |s| <==> c !in s
  {
    if |s| == 0 then ""
    else if s[|s| - 1] == c then ""
    else
      var r := AfterLast(s[..|s| - 1], c);
      assert s[..|s| - 1] + [s[|s| - 1]] == s;
      r + [s[|s| - 1]]
  }

  /** Whatever precedes the last `c` does not matter. */
  lemma {:induction false} AfterLastOfSuffix(a: string, c: char, b: string)
    ensures AfterLast(a + [c] + b, c) == AfterLast(b, c)
    decreases |b|
  {
    var s := a + [c] + b;
    if |b| == 0 {
      assert s[|s| - 1] == c;
    } else {
      assert s[|s| - 1] == b[|b| - 1];
      assert s[..|s| - 1] == a + [c] + b[..|b| - 1];
      AfterLastOfSuffix(a, c, b[..|b| - 1]);
    }
  }

  /** `s.split(c).pop()` is the text after the last `c`. */
  lemma {:induction false} SplitLastIsAfterLast(s: string, c: char)
    ensures Split(s, c)[|Split(s, c)| - 1] == AfterLast(s, c)
    decreases |s|
  {
    var head := BeforeFirst(s, c);
    if |head| == |s| {
      assert Split(s, c) == [s];
      assert c !in s;
      assert AfterLast(s, c) == s[0..];
    } else {
      var rest := s[|head| + 1..];
      var tail := Split(rest, c);
      assert Split(s, c) == [head] + tail;
      assert Split(s, c)[|Split(s, c)| - 1] == tail[|tail| - 1];
      assert s == head + [c] + rest;
      SplitLastIsAfterLast(rest, c);
      AfterLastOfSuffix(head, c, rest);
    }
  }

  /** A string lacking one of `sub`'s characters cannot contain `sub`. */
  lemma NotContainsMissingChar(s: string, sub: string, k: nat)
    requires k < |sub| && sub[k] !in s
    ensures !Contains(s, sub)
  {
    forall i | 0 <= i <= |s| - |sub|
      ensures !OccursAt(s, sub, i)
    {
      assert s[i..i + |sub|][k] == s[i + k];
    }
    ContainsIffOccurs(s, sub);
  }

  /** A string of which no window equals `sub` does not contain it. */
  lemma NotContainsNoWindow(s: string, sub: string)
    requires forall i :: 0 <= i <= |s| - |sub| ==> !OccursAt(s, sub, i)
    ensures !Contains(s, sub)
  {
    ContainsIffOccurs(s, sub);
  }

  /** A prefix is contained. */
  lemma StartsWithContains(s: string, p: string)
    requires StartsWith(s, p)
    ensures Contains(s, p)
  {
  }

  lemma {:induction false} BeforeFirstOfPrefixed(p: string, c: char, rest: string)
    requires c !in p
    ensures BeforeFirst(p + [c] + rest, c) == p
  {
    if |p| == 0 {
      assert p + [c] + rest == [c] + rest;
    } else {
      assert (p + [c] + rest)[1..] == p[1..] + [c] + rest;
      BeforeFirstOfPrefixed(p[1..], c, rest);
    }
  }
}

=== FILE: training_metrics.dfy ===
/** The training-performance card of the dashboard: the recorded epochs of the
    detector's training run and the two `reduce` selections shown under the chart. */
module TrainingMetrics {

  import opened Wrappers

  datatype Epoch = Epoch(epoch: nat, trainBoxLoss: real, trainClsLoss: real, recall: real, valBoxLoss: real)

  /** The recorded epochs, in order. */
  const TrainingData: seq<Epoch> := [
    Epoch(30, 1.01216, 0.85592, 0.70615, 1.01188),
    Epoch(60, 0.83186, 0.66247, 0.72634, 0.92745),
    Epoch(90, 0.74505, 0.58073, 0.73448, 0.91146),
    Epoch(120, 0.68545, 0.51843, 0.73181, 0.91676),
    Epoch(150, 0.63401, 0.47890, 0.74140, 0.88768),
    Epoch(180, 0.60953, 0.46030, 0.74994, 0.87585),
    Epoch(210, 0.57480, 0.42705, 0.72673, 0.89930),
    Epoch(240, 0.55577, 0.41182, 0.73158, 0.88406),
    Epoch(270, 0.53823, 0.39861, 0.74744, 0.88322),
    Epoch(300, 0.51697, 0.38239, 0.74722, 0.89142),
    Epoch(330, 0.50022, 0.36813, 0.74080, 0.87236),
    Epoch(350, 0.43909, 0.29551, 0.73859, 0.91513)
  ]

  /** `xs.reduce((best, cur) => cur.train_box_loss < best.train_box_loss ? cur : best)`:
      an epoch of least box loss, the earliest one on ties. */
  function LowestLoss(xs: seq<Epoch>): (r: Epoch)
    requires |xs| > 0
    ensures r in xs
    ensures forall j :: 0 <= j < |xs| ==> r.trainBoxLoss <= xs[j].trainBoxLoss
    ensures exists k :: 0 <= k < |xs| && xs[k] == r && forall j :: 0 <= j < k ==> xs[j].trainBoxLoss > r.trainBoxLoss
  {
    if |xs| == 1 then xs[0]
    else
      var init := xs[..|xs| - 1];
      var best := LowestLoss(init);
      var cur := xs[|xs| - 1];
      assert forall j :: 0 <= j < |init| ==> init[j] == xs[j];
      if cur.trainBoxLoss < best.trainBoxLoss then
        assert forall j :: 0 <= j < |xs| - 1 ==> xs[j].trainBoxLoss > cur.trainBoxLoss;
        cur
      else
        var k :| 0 <= k < |init| && init[k] == best && forall j :: 0 <= j < k ==> init[j].trainBoxLoss > best.trainBoxLoss;
        assert xs[k] == best && forall j :: 0 <= j < k ==> xs[j].trainBoxLoss > best.trainBoxLoss;
        best
  }

  /** `xs.reduce((best, cur) => cur.recall > best.recall ? cur : best)`: an epoch of
      greatest recall, the earliest one on ties. */
  function PeakRecall(xs: seq<Epoch>): (r: Epoch)
    requires |xs| > 0
    ensures r in xs
    ensures forall j :: 0 <= j < |xs| ==> r.recall >= xs[j].recall
    ensures exists k :: 0 <= k < |xs| && xs[k] == r && forall j :: 0 <= j < k ==> xs[j].recall < r.recall
  {
    if |xs| == 1 then xs[0]
    else
      var init := xs[..|xs| - 1];
      var best := PeakRecall(init);
      var cur := xs[|xs| - 1];
      assert forall j :: 0 <= j < |init| ==> init[j] == xs[j];
      if cur.recall > best.recall then
        assert forall j :: 0 <= j < |xs| - 1 ==> xs[j].recall < cur.recall;
        cur
      else
        var k :| 0 <= k < |init| && init[k] == best && forall j :: 0 <= j < k ==> init[j].recall < best.recall;
        assert xs[k] == best && forall j :: 0 <= j < k ==> xs[j].recall < best.recall;
        best
  }

  /** `reduce` without an initial value throws on an empty list. */
  function BestEpoch(xs: seq<Epoch>): (r: Option<Epoch>)
    ensures r.None? <==> |xs| == 0
    ensures r.Some? ==> r.value == LowestLoss(xs)
  {
    if |xs| == 0 then None else Some(LowestLoss(xs))
  }

  /** The figures the card derives from the data: the header's lowest box loss and
      its epoch ("Train Box Loss at Epoch ..."), and, under the chart, the class loss
      of that epoch and the peak recall. The other two texts under the chart, the
      tile "350" (Total Epochs) and the label "Train Cls Loss @ E350", are literals;
      `RecordedRun` shows that for the recorded data the lowest-loss epoch is 350. */
  datatype Summary = Summary(lowestBoxLoss: real, shownClsLoss: real, peakRecall: real, bestEpochNumber: nat)

  function Summarise(xs: seq<Epoch>): (s: Summary)
    requires |xs| > 0
    ensures s.lowestBoxLoss == LowestLoss(xs).trainBoxLoss
    ensures s.shownClsLoss == LowestLoss(xs).trainClsLoss
    ensures s.peakRecall == PeakRecall(xs).recall
    ensures s.bestEpochNumber == LowestLoss(xs).epoch
  {
    var best := LowestLoss(xs);
    Summary(best.trainBoxLoss, best.trainClsLoss, PeakRecall(xs).recall, best.epoch)
  }

  /** The class loss shown is the best box-loss epoch's, not the least class loss:
      on two epochs where the class loss falls while the box loss rises, the card
      shows the larger class loss. */
  lemma ShownClsLossNotMinimal()
    ensures var xs := [Epoch(1, 0.5, 0.9, 0.7, 1.0), Epoch(2, 0.6, 0.1, 0.7, 1.0)];
      Summarise(xs).shownClsLoss == 0.9 && xs[1].trainClsLoss < Summarise(xs).shownClsLoss
  {
    var xs := [Epoch(1, 0.5, 0.9, 0.7, 1.0), Epoch(2, 0.6, 0.1, 0.7, 1.0)];
    assert xs[..1] == [xs[0]];
  }

  /** On equal box losses the first epoch is kept, because the comparison is strict. */
  lemma TiesKeepEarliest(a: Epoch, b: Epoch)
    requires a.trainBoxLoss == b.trainBoxLoss && a.recall == b.recall
    ensures LowestLoss([a, b]) == a && PeakRecall([a, b]) == a
  {
    assert [a, b][..1] == [a];
  }

  /** For the recorded run: the lowest box loss is at epoch 350 and the peak recall at
      epoch 180. This is what makes the hard-coded label "Train Cls Loss @ E350" name
      the epoch whose class loss is shown. */
  lemma RecordedRun()
    ensures LowestLoss(TrainingData) == TrainingData[11] && TrainingData[11].epoch == 350
    ensures PeakRecall(TrainingData) == TrainingData[5] && TrainingData[5].epoch == 180
  {
    RecordedLowestLoss();
    RecordedPeakRecall();
  }

  lemma RecordedLowestLoss()
    ensures LowestLoss(TrainingData) == TrainingData[11]
  {
    var best := LowestLoss(TrainingData);
    var k :| 0 <= k < |TrainingData| && TrainingData[k] == best;
    assert best.trainBoxLoss <= TrainingData[11].trainBoxLoss;
    assert k == 11;
  }

  lemma RecordedPeakRecall()
    ensures PeakRecall(TrainingData) == TrainingData[5]
  {
    var peak := PeakRecall(TrainingData);
    var m :| 0 <= m < |TrainingData| && TrainingData[m] == peak;
    assert peak.recall >= TrainingData[5].recall;
    assert m == 5;
  }
}

=== FILE: use_api.dfy ===
/** The `useApi` hook: the `{ data, loading, error }` record, the effect whose
    fetches are ignored once it has been cleaned up, and `refetch`, which has no such
    guard. `T` is the fetched value, `E` the thrown error. */
module UseApi {

  import opened Wrappers

  datatype ApiState<T, E> = ApiState(data: Option<T>, loading: bool, error: Option<E>)

  /** How one call of `fetchFn()` ends. */
  datatype Outcome<T, E> = Success(value: T) | Failure(err: E)

  /** `{ data: null, loading: true, error: null }`: the first state, and the state set
      when any fetch starts. */
  function Pending<T, E>(): (s: ApiState<T, E>)
    ensures s.data.None? && s.loading && s.error.None?
  {
    ApiState(None, true, None)
  }

  /** The state a settled fetch writes. */
  function SettledState<T, E>(o: Outcome<T, E>): (s: ApiState<T, E>)
    ensures !s.loading
    ensures o.Success? ==> s.data == Some(o.value) && s.error.None?
    ensures o.Failure? ==> s.data.None? && s.error == Some(o.err)
  {
    match o
    case Success(v) => ApiState(Some(v), false, None)
    case Failure(e) => ApiState(None, false, Some(e))
  }

  /** The hook's state plus the effect runs whose `isMounted` flag is still set. */
  datatype Hook<T, E> = Hook(state: ApiState<T, E>, mounted: set<nat>)

  function InitialHook<T, E>(): (h: Hook<T, E>)
    ensures h.state == Pending() && h.mounted == {}
  {
    Hook(Pending(), {})
  }

  /** The hook's events. An effect run is named by `run`. */
  datatype Event<T, E> =
    | EffectStart(run: nat)
    | EffectSettled(run: nat, outcome: Outcome<T, E>)
    | EffectCleanup(run: nat)
    | RefetchStart
    | RefetchSettled(outcome: Outcome<T, E>)

  /** One event. An effect run sets its own `isMounted` and resets the state; its
      settlement is written only while that run's flag is still set; cleanup clears
      the flag. `refetch` resets and writes unconditionally. */
  function Step<T, E>(h: Hook<T, E>, e: Event<T, E>): (r: Hook<T, E>)
    ensures e.EffectStart? ==> r == Hook(Pending(), h.mounted + {e.run})
    ensures e.EffectSettled? ==> r.mounted == h.mounted
    ensures e.EffectSettled? && e.run in h.mounted ==> r.state == SettledState(e.outcome)
    ensures e.EffectSettled? && e.run !in h.mounted ==> r == h
    ensures e.EffectCleanup? ==> r == Hook(h.state, h.mounted - {e.run})
    ensures e.RefetchStart? ==> r == Hook(Pending(), h.mounted)
    ensures e.RefetchSettled? ==> r == Hook(SettledState(e.outcome), h.mounted)
  {
    match e
    case EffectStart(run) => Hook(Pending(), h.mounted + {run})
    case EffectSettled(run, o) => if run in h.mounted then h.(state := SettledState(o)) else h
    case EffectCleanup(run) => h.(mounted := h.mounted - {run})
    case RefetchStart => h.(state := Pending())
    case RefetchSettled(o) => h.(state := SettledState(o))
  }

  function Run<T, E>(h: Hook<T, E>, events: seq<Event<T, E>>): Hook<T, E>
    decreases |events|
  {
    if |events| == 0 then h else Run(Step(h, events[0]), events[1..])
  }

  /** Data and error are never both present, and a loading state holds neither. */
  predicate Coherent<T, E>(s: ApiState<T, E>) {
    !(s.data.Some? && s.error.Some?) && (s.loading ==> s.data.None? && s.error.None?)
  }

  /** From the initial state, every sequence of events keeps the record coherent. */
  lemma {:induction false} AlwaysCoherent<T, E>(h: Hook<T, E>, events: seq<Event<T, E>>)
    requires Coherent(h.state)
    ensures Coherent(Run(h, events).state)
    decreases |events|
  {
    if |events| > 0 {
      AlwaysCoherent(Step(h, events[0]), events[1..]);
    }
  }

  lemma MountedHookCoherent<T, E>(events: seq<Event<T, E>>)
    ensures Coherent(Run(InitialHook<T, E>(), events).state)
  {
    AlwaysCoherent(InitialHook<T, E>(), events);
  }

  /** After an effect run is cleaned up, its fetch settling changes nothing, whatever
      happened in between that did not restart that same run. */
  lemma {:induction false} CleanedUpRunIsIgnored<T, E>(h: Hook<T, E>, run: nat, between: seq<Event<T, E>>, o: Outcome<T, E>)
    requires forall i :: 0 <= i < |between| ==> between[i] != EffectStart(run)
    ensures var g := Run(Step(h, EffectCleanup(run)), between);
      run !in g.mounted && Step(g, EffectSettled(run, o)) == g
    decreases |between|
  {
    if |between| > 0 {
      var h1 := Step(Step(h, EffectCleanup(run)), between[0]);
      assert run !in h1.mounted;
      assert h1 == Step(h1, EffectCleanup(run));
      CleanedUpRunIsIgnored(h1, run, between[1..], o);
    }
  }

  /** `refetch` always lands, even with no effect run mounted. */
  lemma RefetchAlwaysLands<T, E>(h: Hook<T, E>, o: Outcome<T, E>)
    ensures Run(h, [RefetchStart, RefetchSettled(o)]).state == SettledState(o)
    ensures Run(h, [RefetchStart]).state == Pending()
  {
    var events: seq<Event<T, E>> := [RefetchStart, RefetchSettled(o)];
    assert events[1..] == [RefetchSettled(o)];
    assert events[1..][1..] == [];
    var h1 := Step(h, RefetchStart);
    assert Run(h, events) == Run(h1, events[1..]) == Run(Step(h1, RefetchSettled(o)), []);
  }
}

=== FILE: video_history.dfy ===
/** The slide-out history of processed videos: fetching when the panel opens or
    on "Sync History", and the per-item card (format badge, violation badge,
    thumbnail and play links). */
module VideoHistory {

  import opened Wrappers
  import opened Text
  import opened Json
  import opened ApiClient

  datatype HistoryItem = HistoryItem(
    filename: string,
    url: string,
    thumbnailUrl: Option<string>,
    timestamp: int,
    violations: int,
    totalDetections: int)

  /** `fetches` counts the requests started, which is what the open rule is about. */
  datatype Panel = Panel(history: seq<HistoryItem>, isOpen: bool, loading: bool, fetches: nat)

  const InitialPanel: Panel := Panel([], false, false, 0)

  /** `fetchHistory()` starting. */
  function FetchStart(p: Panel): (r: Panel)
    ensures r.loading && r.fetches == p.fetches + 1
    ensures r.history == p.history && r.isOpen == p.isOpen
  {
    p.(loading := true, fetches := p.fetches + 1)
  }

  /** `fetchHistory()` once `getVideoHistory()` settled with `data.history` decoded. */
  function FetchSettled(p: Panel, outcome: Settled<seq<HistoryItem>>): (r: Panel)
    ensures !r.loading && r.isOpen == p.isOpen && r.fetches == p.fetches
    ensures outcome.Resolved? ==> r.history == outcome.value
    ensures outcome.Rejected? ==> r.history == p.history
  {
    match outcome
    case Resolved(items) => p.(history := items, loading := false)
    case Rejected => p.(loading := false)
  }

  /** `setIsOpen(open)` followed by the effect on `[isOpen]`: the effect only runs when
      the flag changes, and it fetches only when the new value is open. */
  function SetOpen(p: Panel, open: bool): (r: Panel)
    ensures r.isOpen == open && r.history == p.history
    ensures r.fetches == if open && !p.isOpen then p.fetches + 1 else p.fetches
  {
    if open && !p.isOpen then FetchStart(p.(isOpen := true)) else p.(isOpen := open)
  }

  /** Closing never fetches, and re-opening an open panel does not fetch again; only
      the closed-to-open transition does. */
  lemma FetchOnlyWhenOpening(p: Panel, open: bool)
    ensures SetOpen(p, open).fetches > p.fetches <==> (open && !p.isOpen)
  {
  }

  /** The empty-history placeholder is shown. */
  predicate ShowsPlaceholder(p: Panel) {
    |p.history| == 0
  }

  /** Offline the history request resolves with an empty list, so opening the panel
      ends with the placeholder and no spinner. */
  lemma OfflineHistoryIsEmpty(now: int)
    ensures ApiRequest("/api/videos/history", now, NetworkFailure) == Resolved(JObj([("history", JArr([]))]))
    ensures var p := FetchSettled(SetOpen(InitialPanel, true), Resolved([]));
      ShowsPlaceholder(p) && !p.loading && p.fetches == 1
  {
    HistoryPathMock(now);
  }

  /** The format badge: `filename.split('.').pop()?.toUpperCase()`. The last piece of
      the split is the text after the last dot. */
  function FormatBadge(filename: string): (r: string)
    ensures r == Upper(AfterLast(filename, '.'))
  {
    var pieces := Split(filename, '.');
    SplitLastIsAfterLast(filename, '.');
    Upper(pieces[|pieces| - 1])
  }

  /** The badge is the upper-cased text after the last dot, or the whole name upper-cased
      when there is no dot. */
  lemma FormatBadgeMeaning(filename: string)
    ensures '.' !in filename ==> FormatBadge(filename) == Upper(filename)
    ensures '.' in filename ==>
      exists k :: 0 <= k < |filename| && filename[k] == '.' && '.' !in filename[k + 1..] && FormatBadge(filename) == Upper(filename[k + 1..])
  {
    var r := AfterLast(filename, '.');
    if '.' in filename {
      var k := |filename| - |r| - 1;
      assert filename[k + 1..] == r;
      assert filename[k] == '.' && '.' !in filename[k + 1..];
      assert FormatBadge(filename) == Upper(filename[k + 1..]);
    } else {
      assert r == filename[0..];
    }
  }

  /** What one history card shows. */
  datatype Card = Card(format: string, violationBadge: Option<int>, thumbnailSrc: Option<string>, playUrl: string)

  /** The card for `item`: the violation badge appears only when `violations > 0`; the
      thumbnail only when a non-empty thumbnail path is present. */
  function ItemCard(base: string, item: HistoryItem): (c: Card)
    ensures c.violationBadge.Some? <==> item.violations > 0
    ensures c.violationBadge.Some? ==> c.violationBadge.value == item.violations
    ensures c.thumbnailSrc.Some? <==> item.thumbnailUrl.Some? && item.thumbnailUrl.value != ""
    ensures c.thumbnailSrc.Some? ==> c.thumbnailSrc.value == StaticVideoUrl(base, item.thumbnailUrl.value)
    ensures c.playUrl == StaticVideoUrl(base, item.url)
    ensures c.format == FormatBadge(item.filename)
  {
    Card(
      FormatBadge(item.filename),
      if item.violations > 0 then Some(item.violations) else None,
      if item.thumbnailUrl.Some? && item.thumbnailUrl.value != "" then Some(StaticVideoUrl(base, item.thumbnailUrl.value)) else None,
      StaticVideoUrl(base, item.url))
  }
}

=== FILE: video_trimmer.dfy ===
/** The clip trimmer shown before an upload: the default range, the seek rules of
    the range slider, play/pause with looping inside the range, the skip buttons,
    the `m:ss` labels and the apply button. Times are seconds. */
module VideoTrimmer {

  import opened Text

  /** `range` is the pair (`start`, `end`); `playhead` is the video element's
      `currentTime`, `shownTime` the copy kept in component state. */
  datatype Trimmer = Trimmer(duration: real, start: real, end: real, playhead: real, shownTime: real, isPlaying: bool)

  const InitialTrimmer: Trimmer := Trimmer(0.0, 0.0, 0.0, 0.0, 0.0, false)

  /** The longest default clip. */
  const DefaultClipSeconds: real := 30.0

  /** `onLoadedMetadata`: the range becomes [0, min(duration, 30)]. */
  function LoadedMetadata(t: Trimmer, d: real): (r: Trimmer)
    ensures r.duration == d && r.start == 0.0
    ensures r.end <= DefaultClipSeconds && r.end <= d
    ensures r.end == d || r.end == DefaultClipSeconds
    ensures r.playhead == t.playhead && r.isPlaying == t.isPlaying && r.shownTime == t.shownTime
  {
    t.(duration := d, start := 0.0, end := if d < DefaultClipSeconds then d else DefaultClipSeconds)
  }

  /** A video no longer than 30 s is selected whole. */
  lemma ShortVideoSelectedWhole(t: Trimmer, d: real)
    requires 0.0 <= d <= DefaultClipSeconds
    ensures LoadedMetadata(t, d).end - LoadedMetadata(t, d).start == d
  {
  }

  /** `handleTimeUpdate()` with the element's time at `now`: the copy is updated, and
      while playing, reaching the end of the range jumps back to its start. */
  function TimeUpdate(t: Trimmer, now: real): (r: Trimmer)
    ensures r.shownTime == now
    ensures t.isPlaying && now >= t.end ==> r.playhead == t.start
    ensures !(t.isPlaying && now >= t.end) ==> r.playhead == now
    ensures r.(shownTime := t.shownTime, playhead := t.playhead) == t
  {
    var shown := t.(shownTime := now, playhead := now);
    if t.isPlaying && now >= t.end then shown.(playhead := t.start) else shown
  }

  /** While playing a non-empty range, a time update never leaves the playhead at or
      past the end of the range. */
  lemma PlaybackStaysInRange(t: Trimmer, now: real)
    requires t.isPlaying && t.start < t.end
    ensures TimeUpdate(t, now).playhead < t.end
  {
  }

  /** `togglePlay()`: pausing stops; starting at or past the end first seeks to the
      start. `isPlaying` flips either way. */
  function TogglePlay(t: Trimmer): (r: Trimmer)
    ensures r.isPlaying == !t.isPlaying
    ensures !t.isPlaying && t.playhead >= t.end ==> r.playhead == t.start
    ensures !(!t.isPlaying && t.playhead >= t.end) ==> r.playhead == t.playhead
    ensures r.(isPlaying := t.isPlaying, playhead := t.playhead) == t
  {
    if t.isPlaying then t.(isPlaying := false)
    else if t.playhead >= t.end then t.(playhead := t.start, isPlaying := true)
    else t.(isPlaying := true)
  }

  /** Pressing play and then pause leaves the flag as it was; the playhead may have been
      moved to the start of the range. */
  lemma TogglePlayTwice(t: Trimmer)
    requires !t.isPlaying
    ensures TogglePlay(TogglePlay(t)).isPlaying == t.isPlaying
    ensures TogglePlay(TogglePlay(t)).playhead == (if t.playhead >= t.end then t.start else t.playhead)
  {
  }

  /** `handleRangeChange([s, e])`: the range is always replaced; the playhead follows
      the start when it moved, otherwise the end when it moved, otherwise stays. */
  function RangeChange(t: Trimmer, s: real, e: real): (r: Trimmer)
    ensures r.start == s && r.end == e
    ensures s != t.start ==> r.playhead == s
    ensures s == t.start && e != t.end ==> r.playhead == e
    ensures s == t.start && e == t.end ==> r == t
    ensures r.(start := t.start, end := t.end, playhead := t.playhead) == t
  {
    var moved := t.(start := s, end := e);
    if s != t.start then moved.(playhead := s)
    else if e != t.end then moved.(playhead := e)
    else moved
  }

  /** Sending the same new range twice equals sending it once. */
  lemma RangeChangeIdempotent(t: Trimmer, s: real, e: real)
    ensures RangeChange(RangeChange(t, s, e), s, e) == RangeChange(t, s, e)
  {
  }

  /** The skip-back button: the playhead jumps to the start of the range. */
  function SkipBack(t: Trimmer): (r: Trimmer)
    ensures r.playhead == t.start
    ensures r.(playhead := t.playhead) == t
  {
    t.(playhead := t.start)
  }

  /** The skip-forward button: the playhead jumps to the end of the range. */
  function SkipForward(t: Trimmer): (r: Trimmer)
    ensures r.playhead == t.end
    ensures r.(playhead := t.playhead) == t
  {
    t.(playhead := t.end)
  }

  /** Skipping forward lands on the end of the range, so playback cannot continue from
      there: pressing play from a pause starts at the start of the range, and while
      playing the next time update loops back to it. Skipping back then play starts
      from the start too. */
  lemma SkipForwardLoopsBack(t: Trimmer)
    ensures !t.isPlaying ==> TogglePlay(SkipForward(t)).playhead == t.start
    ensures t.isPlaying ==> TimeUpdate(SkipForward(t), t.end).playhead == t.start
    ensures !t.isPlaying ==> TogglePlay(SkipBack(t)).playhead == t.start
  {
  }

  /** The apply button: `onTrim(range[0], range[1])`. */
  function Apply(t: Trimmer): (r: (real, real))
    ensures r.0 == t.start && r.1 == t.end
  {
    (t.start, t.end)
  }

  /** Applying right after a range change sends exactly that range. */
  lemma ApplySendsChosenRange(t: Trimmer, s: real, e: real)
    ensures Apply(RangeChange(t, s, e)) == (s, e)
  {
  }

  // ---------------------------------------------------------------------------
  // m:ss labels
  // ---------------------------------------------------------------------------

  /** `Math.trunc`. */
  function Trunc(x: real): (r: int)
    ensures x >= 0.0 ==> r == x.Floor
    ensures x < 0.0 ==> r == -((-x).Floor)
  {
    if x >= 0.0 then x.Floor else -((-x).Floor)
  }

  /** JavaScript's `x % m` on numbers: the remainder takes the sign of `x`. */
  function JsMod(x: real, m: real): real
    requires m != 0.0
  {
    x - m * Trunc(x / m) as real
  }

  /** `Math.floor(seconds / 60)` and `Math.floor(seconds % 60)`. */
  function TimeParts(seconds: real): (r: (int, int)) {
    ((seconds / 60.0).Floor, JsMod(seconds, 60.0).Floor)
  }

  /** `padStart(2, '0')`. */
  function PadTwo(s: string): (r: string)
    ensures |r| == if |s| < 2 then 2 else |s|
    ensures |s| >= 2 ==> r == s
    ensures |s| < 2 ==> r[2 - |s|..] == s && forall i :: 0 <= i < 2 - |s| ==> r[i] == '0'
  {
    if |s| >= 2 then s else if |s| == 1 then "0" + s else "00"
  }

  /** `formatTime(seconds)`: minutes, a colon, and the seconds padded to two places. */
  function FormatTime(seconds: real): string {
    var (mins, secs) := TimeParts(seconds);
    IntToString(mins) + ":" + PadTwo(IntToString(secs))
  }

  lemma FloorShift(x: real, k: int)
    ensures (x - k as real).Floor == x.Floor - k
  {
  }

  /** For a non-negative time the two parts are whole minutes and the seconds left over:
      `mins * 60 + secs` is the whole number of seconds and `secs` is below 60. */
  lemma TimePartsReadBack(seconds: real)
    requires seconds >= 0.0
    ensures 0 <= TimeParts(seconds).0 && 0 <= TimeParts(seconds).1 < 60
    ensures TimeParts(seconds).0 * 60 + TimeParts(seconds).1 == seconds.Floor
  {
    var m := (seconds / 60.0).Floor;
    assert m as real <= seconds / 60.0 < m as real + 1.0;
    assert 60.0 * (m as real) <= seconds < 60.0 * (m as real) + 60.0;
    var rest := seconds - 60.0 * (m as real);
    assert JsMod(seconds, 60.0) == rest;
    assert 0.0 <= rest < 60.0;
    FloorShift(seconds, 60 * m);
    assert rest == seconds - (60 * m) as real;
  }

  /** The label of a non-negative time below ten minutes is `m:ss`: one digit, a colon,
      two digits. */
  lemma FormatTimeShape(seconds: real)
    requires 0.0 <= seconds < 600.0
    ensures |FormatTime(seconds)| == 4 && FormatTime(seconds)[1] == ':'
  {
    TimePartsReadBack(seconds);
    var (mins, secs) := TimeParts(seconds);
    assert mins < 10 by {
      assert (seconds / 60.0) < 10.0;
    }
  }
}

=== FILE: video_upload.dfy ===
/** The video-upload card: choosing or dropping a file, the upload with its
    simulated progress bar, the violation count on the result panel, clearing, and
    the file-size label. */
module VideoUpload {

  import opened Wrappers
  import opened Text
  import opened Json
  import opened ApiClient

  /** The part of a browser `File` the card looks at. */
  datatype VideoFile = VideoFile(name: string, mimeType: string, size: nat)

  datatype Upload = Upload(
    selectedFile: Option<VideoFile>,
    isUploading: bool,
    progress: nat,
    result: Option<Json>,
    error: Option<string>,
    progressTimerRunning: bool)

  const InitialUpload: Upload := Upload(None, false, 0, None, None, false)

  const InvalidFileMessage: string := "Please select a valid video file"
  const UploadFailedMessage: string := "Failed to analyze video. Please ensure the backend server is running."

  predicate IsVideo(f: VideoFile) {
    StartsWith(f.mimeType, "video/")
  }

  /** `handleFileSelect` and `handleDrop` (they behave alike): nothing happens without a
      file; a non-video file only sets the error; a video file is selected and clears
      both the error and any earlier result. */
  function SelectFile(u: Upload, file: Option<VideoFile>): (r: Upload)
    ensures file.None? ==> r == u
    ensures file.Some? && !IsVideo(file.value) ==>
      r.error == Some(InvalidFileMessage) && r.(error := u.error) == u
    ensures file.Some? && IsVideo(file.value) ==>
      r.selectedFile == file && r.error.None? && r.result.None? &&
      r.(selectedFile := u.selectedFile, error := u.error, result := u.result) == u
  {
    match file
    case None => u
    case Some(f) =>
      if !IsVideo(f) then u.(error := Some(InvalidFileMessage))
      else u.(selectedFile := Some(f), error := None, result := None)
  }

  // ---------------------------------------------------------------------------
  // Simulated progress
  // ---------------------------------------------------------------------------

  const ProgressStep: nat := 10
  const ProgressCap: nat := 90
  const ProgressTickMs: nat := 500

  /** One tick of the progress interval: `Math.min(prev + 10, 90)`. */
  function ProgressTick(p: nat): (r: nat)
    ensures r <= ProgressCap
    ensures p < ProgressCap ==> p < r
    ensures r == ProgressCap <==> p + ProgressStep >= ProgressCap
    ensures p + ProgressStep < ProgressCap ==> r == p + ProgressStep
  {
    if p + ProgressStep < ProgressCap then p + ProgressStep else ProgressCap
  }

  /** `k` ticks of the interval. */
  function Ticks(p: nat, k: nat): nat {
    if k == 0 then p else ProgressTick(Ticks(p, k - 1))
  }

  /** Starting from 0, the bar after `k` ticks shows `min(10 k, 90)`: it creeps up in
      steps of ten and stalls at 90 until the request settles. */
  lemma {:induction false} TicksFromZero(k: nat)
    ensures Ticks(0, k) == if ProgressStep * k < ProgressCap then ProgressStep * k else ProgressCap
  {
    if k > 0 {
      TicksFromZero(k - 1);
    }
  }

  /** `handleUpload()` with the `await analyzeVideo(file)` settling after `ticks`
      interval ticks. Without a selected file it does nothing. Otherwise the bar
      reaches 100 only on success; on failure the fixed message is shown and any
      earlier result stays. Either way the upload ends and the interval is cleared. */
  function HandleUpload(u: Upload, ticks: nat, outcome: Settled<Json>): (r: Upload)
    ensures u.selectedFile.None? ==> r == u
    ensures u.selectedFile.Some? ==> !r.isUploading && !r.progressTimerRunning && r.selectedFile == u.selectedFile
    ensures u.selectedFile.Some? && outcome.Resolved? ==>
      r.progress == 100 && r.result == Some(outcome.value) && r.error.None?
    ensures u.selectedFile.Some? && outcome.Rejected? ==>
      r.progress <= ProgressCap && r.result == u.result && r.error == Some(UploadFailedMessage)
  {
    if u.selectedFile.None? then u
    else
      var started := u.(isUploading := true, progress := 0, error := None, progressTimerRunning := true);
      TicksFromZero(ticks);
      var waited := started.(progress := Ticks(0, ticks));
      var settled :=
        match outcome
        case Resolved(v) => waited.(progress := 100, result := Some(v))
        case Rejected => waited.(error := Some(UploadFailedMessage));
      settled.(progressTimerRunning := false, isUploading := false)
  }

  /** Choosing a video and uploading it to an unreachable backend ends with the failure
      message and no result: the upload does not fall back to mock data. */
  lemma OfflineUploadFails(u: Upload, f: VideoFile, ticks: nat)
    requires IsVideo(f)
    ensures HandleUpload(SelectFile(u, Some(f)), ticks, ApiClient.AnalyzeVideo(NetworkFailure)).error == Some(UploadFailedMessage)
    ensures HandleUpload(SelectFile(u, Some(f)), ticks, ApiClient.AnalyzeVideo(NetworkFailure)).result.None?
  {
  }

  // ---------------------------------------------------------------------------
  // "Violations Found" on the result panel
  // ---------------------------------------------------------------------------

  /** `l.status === "VIOLATION"` for one element of the result's `logs`. */
  predicate IsViolationLog(l: Json) {
    Field(l, "status") == Some(JStr("VIOLATION"))
  }

  /** The length of `logs.filter(l => l.status === "VIOLATION")`. */
  function CountViolationLogs(logs: seq<Json>): (n: nat)
    ensures n <= |logs|
  {
    if |logs| == 0 then 0
    else CountViolationLogs(logs[..|logs| - 1]) + (if IsViolationLog(logs[|logs| - 1]) then 1 else 0)
  }

  /** The count is zero exactly when no log is a violation, and the full length exactly
      when every log is. */
  lemma {:induction false} CountViolationLogsExtremes(logs: seq<Json>)
    ensures CountViolationLogs(logs) == 0 <==> forall i :: 0 <= i < |logs| ==> !IsViolationLog(logs[i])
    ensures CountViolationLogs(logs) == |logs| <==> forall i :: 0 <= i < |logs| ==> IsViolationLog(logs[i])
  {
    if |logs| > 0 {
      var init := logs[..|logs| - 1];
      CountViolationLogsExtremes(init);
      assert forall i :: 0 <= i < |init| ==> init[i] == logs[i];
    }
  }

  /** Counting distributes over concatenation. */
  lemma {:induction false} CountViolationLogsAppend(a: seq<Json>, b: seq<Json>)
    ensures CountViolationLogs(a + b) == CountViolationLogs(a) + CountViolationLogs(b)
    decreases |b|
  {
    if |b| == 0 {
      assert a + b == a;
    } else {
      assert (a + b)[..|a + b| - 1] == a + b[..|b| - 1];
      CountViolationLogsAppend(a, b[..|b| - 1]);
    }
  }

  /** `analysisResult.logs?.filter(l => l.status === "VIOLATION").length || 0`. A
      missing or null `logs` short-circuits to 0; `None` is the `TypeError` the
      expression throws when `logs` is some other non-array value (it has no `filter`)
      or when an element is `null` (it has no `status`). */
  function ViolationCountShown(result: Json): (r: Option<nat>)
    ensures Field(result, "logs").None? || Field(result, "logs") == Some(JNull) ==> r == Some(0)
    ensures r.Some? && r.value > 0 ==>
      Field(result, "logs").Some? && Field(result, "logs").value.JArr? &&
      exists i :: 0 <= i < |Field(result, "logs").value.items| && IsViolationLog(Field(result, "logs").value.items[i])
    ensures r.None? ==>
      Field(result, "logs").Some? && Field(result, "logs").value != JNull &&
      (!Field(result, "logs").value.JArr? || JNull in Field(result, "logs").value.items)
  {
    match Field(result, "logs")
    case None => Some(0)
    case Some(logs) =>
      if logs == JNull then Some(0)
      else if !logs.JArr? || JNull in logs.items then None
      else
        var n := CountViolationLogs(logs.items);
        if n > 0 then CountViolationLogsExtremes(logs.items); Some(n) else Some(n)
  }

  /** A result whose last `logs` field is an array without `null`s shows exactly the
      number of its logs whose status is `VIOLATION`, whatever the other fields are. */
  lemma ViolationCountOfLogs(fields: seq<(string, Json)>, logs: seq<Json>)
    requires JNull !in logs
    ensures ViolationCountShown(JObj(fields + [("logs", JArr(logs))])) == Some(CountViolationLogs(logs))
  {
    assert Field(JObj(fields + [("logs", JArr(logs))]), "logs") == Some(JArr(logs));
  }

  /** `handleClear()`: back to no file, no result, no error and an empty bar. */
  function HandleClear(u: Upload): (r: Upload)
    ensures r.selectedFile.None? && r.result.None? && r.error.None? && r.progress == 0
    ensures r.isUploading == u.isUploading && r.progressTimerRunning == u.progressTimerRunning
  {
    u.(selectedFile := None, result := None, error := None, progress := 0)
  }

  /** Clearing an idle card gives back the initial card. */
  lemma ClearRestoresInitial(u: Upload)
    requires !u.isUploading && !u.progressTimerRunning
    ensures HandleClear(u) == InitialUpload
  {
  }

  // ---------------------------------------------------------------------------
  // File-size label
  // ---------------------------------------------------------------------------

  const KiB: nat := 1024
  const MiB: nat := 1024 * 1024

  /** The number shown and its unit, before `toFixed(1)`. */
  datatype SizeLabel = SizeLabel(amount: real, unit: string)

  function UnitBytes(unit: string): nat {
    if unit == "B" then 1 else if unit == "KB" then KiB else MiB
  }

  /** `formatFileSize(bytes)`. */
  function FormatFileSize(bytes: nat): (r: SizeLabel)
    ensures r.unit == "B" <==> bytes < KiB
    ensures r.unit == "KB" <==> KiB <= bytes < MiB
    ensures r.unit == "MB" <==> MiB <= bytes
    ensures r.amount * UnitBytes(r.unit) as real == bytes as real
    ensures r.unit != "B" ==> 1.0 <= r.amount
    ensures r.unit == "KB" ==> r.amount < 1024.0
  {
    if bytes < KiB then SizeLabel(bytes as real, "B")
    else if bytes < MiB then
      var a := bytes as real / KiB as real;
      assert a * KiB as real == bytes as real;
      SizeLabel(a, "KB")
    else
      var a := bytes as real / MiB as real;
      assert a * MiB as real == bytes as real;
      SizeLabel(a, "MB")
  }
}

=== FILE: violation_type_chart.dfy ===
/** The "Violations by Type" bar chart of the analytics page: how the `missing`
    counts of the analytics summary become chart rows. */
module ViolationTypeChart {

  import opened Wrappers
  import opened Text
  import opened Json
  import opened ApiClient

  /** One bar: its name and the value shown as its height (`count as number` is a
      type assertion only, so the value is kept as received). */
  datatype Row = Row(name: string, count: Json)

  /** The bars shown before any data arrives. */
  const DefaultRows: seq<Row> := [
    Row("PPE Violations", JNum(185.0)),
    Row("Posture Issues", JNum(98.0)),
    Row("Hazard Access", JNum(59.0))
  ]

  /** `Object.entries(v)`: an object's fields in order, an array's or a string's
      elements keyed by index, nothing for other values. A `JTime` stands for an ISO
      string whose characters are not modelled, so it has no entries here; the
      by-type payload never is one. */
  function Entries(v: Json): (e: seq<(string, Json)>)
    ensures v.JObj? ==> e == v.fields
    ensures v.JArr? ==> |e| == |v.items| && forall i :: 0 <= i < |e| ==> e[i] == (NatToString(i), v.items[i])
    ensures !(v.JObj? || v.JArr? || v.JStr?) ==> e == []
  {
    match v
    case JObj(fields) => fields
    case JArr(items) => seq(|items|, i requires 0 <= i < |items| => (NatToString(i), items[i]))
    case JStr(s) => seq(|s|, i requires 0 <= i < |s| => (NatToString(i), JStr([s[i]])))
    case _ => []
  }

  /** `.map(([type, count]) => ({ type, count }))`. */
  function ToRows(entries: seq<(string, Json)>): (rows: seq<Row>)
    ensures |rows| == |entries|
    ensures forall i :: 0 <= i < |rows| ==> rows[i] == Row(entries[i].0, entries[i].1)
  {
    seq(|entries|, i requires 0 <= i < |entries| => Row(entries[i].0, entries[i].1))
  }

  /** The effect's `.then` with the summary `result`: without a truthy `missing` the
      rows stay; an empty dictionary falls back to the default rows; otherwise one row
      per entry, in entry order. There is no `catch`, so a rejection changes nothing. */
  function Settle(rows: seq<Row>, outcome: Settled<Json>): (r: seq<Row>)
    ensures outcome.Rejected? ==> r == rows
    ensures outcome.Resolved? && !HasTruthyField(outcome.value, "missing") ==> r == rows
    ensures outcome.Resolved? && HasTruthyField(outcome.value, "missing") ==>
      var entries := Entries(Field(outcome.value, "missing").value);
      (|entries| == 0 ==> r == DefaultRows) && (|entries| > 0 ==> r == ToRows(entries))
  {
    match outcome
    case Rejected => rows
    case Resolved(result) =>
      if Truthy(result) && HasTruthyField(result, "missing") then
        var formatted := ToRows(Entries(Field(result, "missing").value));
        if |formatted| > 0 then formatted else DefaultRows
      else rows
  }

  /** For a non-empty dictionary of counts the bars read back as that dictionary: the
      labels are its keys and the heights its values, in order. */
  lemma RowsAreTheDictionary(result: Json, rows: seq<Row>, fields: seq<(string, Json)>)
    requires result.JObj? && Field(result, "missing") == Some(JObj(fields)) && |fields| > 0
    ensures |Settle(rows, Resolved(result))| == |fields|
    ensures forall i :: 0 <= i < |fields| ==>
      Settle(rows, Resolved(result))[i].name == fields[i].0 && Settle(rows, Resolved(result))[i].count == fields[i].1
  {
  }

  /** An empty dictionary shows the default bars, not an empty chart. */
  lemma EmptyDictionaryShowsDefaults(result: Json, rows: seq<Row>)
    requires result.JObj? && Field(result, "missing") == Some(JObj([]))
    ensures Settle(rows, Resolved(result)) == DefaultRows
  {
  }

  lemma SummaryMockMissing()
    ensures Field(AnalyticsSummaryMock, "missing")
         == Some(JObj([("Mask", Num(42.0)), ("Gloves", Num(35.0)), ("Goggles", Num(56.0)), ("Coverall", Num(88.0)), ("Face Shield", Num(62.0))]))
  {
  }

  /** Offline, the chart shows the five canned missing-gear counts. */
  lemma OfflineChart(now: int)
    ensures Settle(DefaultRows, ApiRequest("/api/analytics/summary", now, NetworkFailure))
         == [Row("Mask", JNum(42.0)), Row("Gloves", JNum(35.0)), Row("Goggles", JNum(56.0)),
             Row("Coverall", JNum(88.0)), Row("Face Shield", JNum(62.0))]
  {
    SummaryPathMock(now);
    ChartOfSummaryMock(ApiRequest("/api/analytics/summary", now, NetworkFailure));
  }

  lemma ChartOfSummaryMock(outcome: Settled<Json>)
    requires outcome == Resolved(AnalyticsSummaryMock)
    ensures Settle(DefaultRows, outcome)
         == [Row("Mask", JNum(42.0)), Row("Gloves", JNum(35.0)), Row("Goggles", JNum(56.0)),
             Row("Coverall", JNum(88.0)), Row("Face Shield", JNum(62.0))]
  {
    SummaryMockMissing();
    var fields := Field(AnalyticsSummaryMock, "missing").value.fields;
    assert |ToRows(fields)| == 5;
  }
}

=== FILE: violations_table.dfy ===
/** The "Recent Violations" list of the dashboard: how the response of
    `getViolations(5)` is turned into a list, and the severity marker of each row. */
module ViolationsTable {

  import opened Wrappers
  import opened Text
  import opened Json
  import opened ApiClient
  import LogsTable

  /** `violations` is whatever list-like value the response yielded. */
  datatype Table = Table(violations: Json, loading: bool)

  const InitialTable: Table := Table(JArr([]), true)

  /** The number of rows the dashboard asks for. */
  const RequestedRows: nat := 5

  /** The `.then` callback's choice: an array is used as it is; otherwise a truthy
      `violations` field of a truthy response; otherwise an empty list. */
  function Normalise(data: Json): (r: Json)
    ensures data.JArr? ==> r == data
    ensures !data.JArr? && HasTruthyField(data, "violations") ==> r == Field(data, "violations").value
    ensures !data.JArr? && !HasTruthyField(data, "violations") ==> r == JArr([])
  {
    if data.JArr? then data
    else if Truthy(data) && HasTruthyField(data, "violations") then Field(data, "violations").value
    else JArr([])
  }

  /** The rows are a list whenever the response is one or carries one; the bare list
      and the wrapped list give the same rows. */
  lemma NormaliseShapes(items: seq<Json>, data: Json)
    ensures Normalise(JArr(items)) == JArr(items)
    ensures Normalise(JObj([("violations", JArr(items))])) == JArr(items)
    ensures (data.JArr? || (HasTruthyField(data, "violations") && Field(data, "violations").value.JArr?))
            ==> Normalise(data).JArr?
    ensures !data.JArr? && !data.JObj? ==> Normalise(data) == JArr([])
  {
  }

  /** The effect's `.then`; there is no `catch`, so a rejection leaves the table
      loading with no rows. */
  function Loaded(t: Table, outcome: Settled<Json>): (r: Table)
    ensures outcome.Rejected? ==> r == t
    ensures outcome.Resolved? ==> r == Table(Normalise(outcome.value), false)
  {
    match outcome
    case Resolved(data) => Table(Normalise(data), false)
    case Rejected => t
  }

  /** Offline, the request for five rows is answered with the four canned
      violations, all of which are shown. */
  lemma OfflineShowsFourViolations(now: int)
    ensures Loaded(InitialTable, ApiRequest(ViolationsPath(RequestedRows), now, NetworkFailure))
            == Table(JArr(AllViolations(now)), false)
    ensures |AllViolations(now)| == 4 < RequestedRows
  {
    OfflineDefaultViolations(now);
  }

  /** The marker of one row: the icon and background of its severity and the label
      with its first letter upper-cased. */
  function Marker(severity: string): (m: (LogsTable.SeverityStyle, string))
    ensures m.0 == LogsTable.CriticalStyle <==> severity == "critical"
    ensures m.0 == LogsTable.WarningStyle <==> severity == "warning"
    ensures m.0 == LogsTable.InfoStyle <==> severity != "critical" && severity != "warning"
    ensures |m.1| == |severity| && Lower(m.1) == Lower(severity)
    ensures |severity| > 0 ==> m.1[0] == UpperChar(severity[0]) && m.1[1..] == severity[1..]
  {
    (LogsTable.StyleOf(severity), LogsTable.SeverityLabel(severity))
  }
}

=== FILE: wrappers.dfy ===
/** Optional values: Python's `None` / JavaScript's `undefined` and `null`. */
module Wrappers {

  datatype Option<+T> = None | Some(value: T) {

    /** The value, or `default` when absent (`x ?? default`). */
    function GetOr(default: T): (r: T)
      ensures Some? ==> r == value
      ensures None? ==> r == default
    {
      match this
      case Some(v) => v
      case None => default
    }
  }
}
